=== FILE: README.md ===
# mastarr core, modelled in Dafny

mastarr is a web application that installs self-hosted media-server apps (Sonarr,
Radarr, Prowlarr, Jellyfin, …) as Docker Compose stacks. Each app is configured from
a **blueprint**: a database row holding a field schema, prerequisite blueprints and an
install order. This project models the deterministic logic around that process and
proves properties of it:

- **Compose transforms** (`ComposeTransforms`, compose_transforms.dfy): the six
  registered transforms that turn port, volume and network inputs into long-form
  compose fragments. Each updates the service dict and the transform cache in place;
  the dicts are objects of class `Mapping`. Also the registry and `apply_transform`.
- **Template expander** (`TemplateExpander`, template_expander.dfy): substitution
  of the eight `${GLOBAL.*}`/`${APP.*}` placeholders, integer coercion, recursive
  schema expansion and default filling.
- **Legacy compose generator** (`ComposeGenerator`, compose_generator.dfy): the
  environment, volume and port lists and the one-service compose file.
- **Install planner** (`InstallOrder`, install_order.dfy): the missing-prerequisite
  check, and Kahn's topological order with the `install_order` tie-break, run on a
  queue and an in-degree map.
- **Installer** (`Installer`, installer.dfy): the status transitions of one install
  and of a batch that halts at its first failure.
- **Preset service** (`PresetService`, preset_service.dfy): required-input
  extraction, default filling, and the partition of a preset's app names.
- **Blueprint schema route** (`BlueprintRoutes`, blueprint_routes.dfy): field
  prerequisites and the visible-schema filter.
- **Host path resolution** (`PathResolver`, path_resolver.dfy): mount matching, and
  the memo fields of the resolver object.
- **App routes** (`AppRoutes`, app_routes.dfy): the `db_name` rule and the status
  guards of create, install, update and stop.

Shared modules:

- `Text`: ASCII string helpers.
- `Values`: JSON-like values. A Python dict is an association list `seq<Entry>` that
  keeps insertion order. `Get` finds the first match; `Set` replaces in place or
  appends.
- `Models`: the app row as a class `App` with a ghost status history, plus the
  blueprint and settings rows.

Interaction with the outside world becomes parameters:

- The container's mount list (`None` when the Docker lookup raises).
- The outcome of creating a Docker network (`created: string -> bool`).
- The outcome of deploying a stack (`deploy`: `None`, or the exception text raised
  while creating the directory, writing the compose file or running `docker compose up`).
- Database rows, passed in as values.

Python exceptions are `Raised(text)` values of a `Result` type.

Where the code's own docstrings and comments promise other than what it does, the model
follows the code:

- Integer coercion in `_expand_string` fires whenever some substitution changed the
  text and the result is all digits. Its docstring and comment
  (utils/template_expander.py:56, 81) speak of the entire string being one variable;
  the code does not check that (`TemplateExpander.PartialPlaceholderCoerced`).
- `apply_transform` only logs a warning for an unknown name; its docstring
  (utils/compose_transforms.py:389-390) promises a `ValueError`
  (`ComposeTransforms.ApplyOutcome`).
- A field prerequisite's status defaults to `"installed"` in the request schema
  (models/schemas.py:15), but `check_prerequisite` defaults it to `"running"`. Its
  caller passes only running apps, so `"installed"` is never satisfied
  (`BlueprintRoutes.InstalledStatusNeverSatisfied`).
- The legacy generator builds short-form lists and does not call the transforms.

## Model

| member | source | states |
|---|---|---|
| `Models.App.constructor` | models/database.py:42-65 | A new app row holds the given name, database name, blueprint, inputs and status, and has no error, compose data or compose path yet. |
| `Models.App.Commit` | services/installer.py:128-129 | Assigning a status and committing changes the status only; every other column is kept and the status history grows by that status. |
| `PathResolver.Resolver.constructor` | utils/path_resolver.py:16-20 | Both memo fields start unset. |
| `PathResolver.Resolver.ResolveHostPath` | utils/path_resolver.py:22-55 | The answer is the host path of the first mount covering the path. Without such a mount, or when the container lookup fails, the answer is the path unchanged. |
| `PathResolver.FirstCoveringWins` | utils/path_resolver.py:35-48 | The first covering mount decides; earlier mounts cover nothing and later mounts are never consulted. |
| `PathResolver.NoCoveringUnchanged` | utils/path_resolver.py:50-51 | With no covering mount the path is returned as it is. |
| `PathResolver.SiblingNotCovered` | utils/path_resolver.py:44 | A mount on `/stacks` does not cover `/stacksX`: a prefix match needs the `/` boundary. |
| `PathResolver.SubdirectoryThrough` | utils/path_resolver.py:44-48 | A path below a mount point resolves to the remainder joined to the mount's source. |
| `PathResolver.Resolver.GetHostStacksPath` | utils/path_resolver.py:57-61 | A non-empty memo is answered without resolving; otherwise `/stacks` is resolved and memoised. The data-path memo is untouched. |
| `PathResolver.Resolver.GetHostDataPath` | utils/path_resolver.py:63-67 | The same memoisation for `/app/data`, leaving the stacks memo untouched. |
| `PathResolver.Resolver.GetHostStackPath` | utils/path_resolver.py:81-91 | The app's host directory is its name joined to the host stacks path. On a first call (memo unset or empty) that path is resolved from the mounts for `/stacks` and stored; otherwise the memo is used and kept; the data path is untouched. |
| `PathResolver.StacksPathTwice` | utils/path_resolver.py:57-61 | Asking twice gives the same answer, which stays memoised. |
| `PathResolver.StackPath` | utils/path_resolver.py:69-79 | A relative app name is joined below `/stacks`; an absolute one replaces it, as a path join does. |
| `TemplateExpander.SubstitutionsDollar` | utils/template_expander.py:60-79 | Every recognised placeholder starts with `$`. |
| `TemplateExpander.SubstituteAllAbsent` | utils/template_expander.py:60-79 | A text holding none of the placeholders passes through the substitutions unchanged. |
| `TemplateExpander.SubstituteAllPlain` | utils/template_expander.py:60-79 | A text without `$` passes through unchanged. |
| `TemplateExpander.SubstituteLeading` | utils/template_expander.py:61-62 | A leading first placeholder followed by plain text becomes its value followed by that text. |
| `TemplateExpander.ExpandString` | utils/template_expander.py:48-85 | The result is the integer the substituted text spells exactly when substitution changed the text and the result is all digits; otherwise it is the substituted text as a string. |
| `TemplateExpander.SubstituteStep` | utils/template_expander.py:61-79 | Guarding a replacement by `in` changes nothing: one step replaces the placeholder wherever it occurs. |
| `TemplateExpander.SubstituteAllAppend` | utils/template_expander.py:60-79 | The substitutions run one after another: a run over two lists is the run over the first followed by the run over the second. |
| `TemplateExpander.SubstituteAllPlainPrefix` | utils/template_expander.py:60-79 | Text without `$` in front of the rest is kept, and only the rest is substituted. |
| `TemplateExpander.SubstituteAllUnknownPrefix` | utils/template_expander.py:60-79 | An unrecognised `${...}` piece in front of the rest is kept, and only the rest is substituted. |
| `TemplateExpander.UnknownPlaceholderKept` | utils/template_expander.py:78-79 | `${APP.NAME}`, a separator and an unrecognised piece such as `${CUSTOM}`: the app's name replaces the placeholder and the rest stays, still a string. |
| `TemplateExpander.ReplacementFormsPlaceholder` | utils/template_expander.py:78-79 | Replacement is not repeated: with the app named `{APP.NAME}`, `$${APP.NAME}` expands to the text `${APP.NAME}`, which holds a placeholder again. |
| `TemplateExpander.EscapedAppName` | utils/template_expander.py:60-85 | `$${APP.NAME}` expands to `$` followed by the app's name, and stays a string. |
| `Text.ReplacePlainPrefix` | utils/template_expander.py:62 | `str.replace` skips a prefix that never holds the pattern's first character. |
| `Text.ReplaceForeignPrefix` | utils/template_expander.py:62 | `str.replace` keeps a prefix that diverges from the pattern and holds its first character at most at its start. |
| `TemplateExpander.ExpandStringUntouched` | utils/template_expander.py:48-85 | Text with no recognised placeholder, including any other `${...}`, stays the same string. |
| `TemplateExpander.DigitTextStaysString` | utils/template_expander.py:81-85 | A digit string such as a port number is not coerced, since nothing was substituted. |
| `TemplateExpander.PuidPlaceholderCoerced` | utils/template_expander.py:61-83 | `${GLOBAL.PUID}` followed by digits becomes an integer; alone it is the PUID itself. |
| `TemplateExpander.PartialPlaceholderCoerced` | utils/template_expander.py:81-83 | Coercion also fires when the placeholder was only part of the string: `${GLOBAL.PUID}0` is ten times the PUID. |
| `TemplateExpander.NegativePuidStaysString` | utils/template_expander.py:81-85 | A negative PUID stays a string, because its text is not all digits. |
| `TemplateExpander.ExpandValue` | utils/template_expander.py:29-46 | Dicts keep their keys in order, lists keep their length, non-string scalars are returned unchanged, and a string becomes a string or an integer. |
| `TemplateExpander.ExpandValueNoDollar` | utils/template_expander.py:29-46 | A value with no `$` anywhere, however deeply nested, is left exactly as it was. |
| `TemplateExpander.ExpandKey` | utils/template_expander.py:103-106 | Expanding one key of a configuration keeps its keys, and changes only that key, when present. |
| `TemplateExpander.ExpandConfig` | utils/template_expander.py:100-124 | The loop body computes the expanded configuration of one field. |
| `TemplateExpander.ExpandBlueprintSchema` | utils/template_expander.py:87-127 | The loop computes the expanded schema. |
| `TemplateExpander.ExpandedConfigSpec` | utils/template_expander.py:100-124 | A configuration keeps its keys in order. `default`, `schema` and `item_schema` are expanded, `fields` is expanded as a schema, and every other key is copied. |
| `TemplateExpander.ExpandedSchemaSpec` | utils/template_expander.py:97-127 | With distinct field names, the expanded schema has the same field names in the same order, each with its configuration expanded. |
| `TemplateExpander.ExpandedPrefixSpec` | utils/template_expander.py:99-124 | After n turns of the loop, the dict holds exactly the first n expanded fields. |
| `TemplateExpander.DefaultStep` | utils/template_expander.py:146-153 | A provided (present, non-None) value stays. Otherwise a non-None default is assigned, and no other key changes. |
| `TemplateExpander.ApplyDefaultsToInputs` | utils/template_expander.py:129-155 | The loop applies every schema field's step, in schema order, to a copy of the inputs. |
| `TemplateExpander.DefaultsAppliedKeeps` | utils/template_expander.py:144-155 | Provided values, including False and 0, are never overwritten, and keys outside the schema are untouched. |
| `TemplateExpander.DefaultsAppliedSpec` | utils/template_expander.py:146-155 | With distinct field names, a field that is absent or None gets its non-None default; otherwise it keeps what it had. |
| `ComposeGenerator.BuildEnvironment` | services/compose_generator.py:92-113 | The list is `PUID`, `PGID`, `TZ` from the settings, followed by one line per kept input in insertion order. |
| `ComposeGenerator.EnvLinesConcat` | services/compose_generator.py:107-111 | Environment lines follow input order. |
| `ComposeGenerator.EnvLinesCount` | services/compose_generator.py:107-111 | There is at most one line per input. |
| `ComposeGenerator.EnvLinesAllKept` | services/compose_generator.py:107-111 | When no input is None or `""`, there is exactly one line per input, in order, False and 0 included. |
| `ComposeGenerator.EnvLinesKeyed` | services/compose_generator.py:107-111 | Every line is `KEY=` for an upper-cased input key. |
| `ComposeGenerator.EnvLineOfScalar` | services/compose_generator.py:108-111 | Booleans give `true`/`false` (False is kept), None and `""` give nothing, and integers give their decimal text. |
| `ComposeGenerator.BuildVolumes` | services/compose_generator.py:115-136 | `./config:/config` comes first, followed by the user's volume lines. |
| `ComposeGenerator.VolumeLinesShape` | services/compose_generator.py:127-134 | There is at most one line per item. Each dict item with a truthy host and container path gives exactly one `host:container:mode` line, mode defaulting to `rw`; non-dict items give none. |
| `ComposeGenerator.NonListVolumesIgnored` | services/compose_generator.py:127 | A `volumes` input that is absent or not a list adds nothing. |
| `ComposeGenerator.BuildPorts` | services/compose_generator.py:138-155 | There is at most one mapping, chosen by key presence alone: `h:c` when both `host_port` and `container_port` are present, else `p:p` for `port`, else none. |
| `ComposeGenerator.InvalidServiceFields` | models/schemas.py:135-139 | The service record rejects nothing exactly when both the image and the container name are strings; it names at most those two fields. |
| `ComposeGenerator.Generate` | services/compose_generator.py:19-90 | Generation succeeds exactly for dict inputs with string image and container name. Otherwise it raises the `'<type>' object has no attribute 'items'` error for non-dict inputs, or the service record's validation error counting and naming the fields that are not strings. On success the file is `ComposeFileOf` of the inputs and the stored or default settings: it has version 3.9 and one `unless-stopped` service keyed by its container name, built from the three lists and attached to the global network, which is declared external. |
| `ComposeGenerator.DefaultImageAndName` | services/compose_generator.py:63-69 | Without inputs for them, the image is `<blueprint>:latest` and the container name is the blueprint name. |
| `ComposeTransforms.PortEntryFields` | utils/compose_transforms.py:40-44 | A port entry reads back `published`, `target` and `protocol` as given. |
| `ComposeTransforms.PortMappingOutcome` | utils/compose_transforms.py:15-62 | A compound input appends one entry (protocol defaulting to `tcp`) and changes nothing else. The legacy path appends one `tcp` entry from truthy raw ports and sets the cache flag. Otherwise nothing changes. |
| `ComposeTransforms.TransformPortMapping` | utils/compose_transforms.py:15-62 | The in-place updates produce exactly `PortMappingOutcome`. |
| `ComposeTransforms.LegacyPortMappingAtMostOnce` | utils/compose_transforms.py:48-62 | Once the legacy path has fired, a later non-compound call changes nothing. |
| `ComposeTransforms.PortArrayOutcome` | utils/compose_transforms.py:65-101 | A non-list input leaves the service untouched; a list appends its kept entries after the existing ports. |
| `ComposeTransforms.TransformPortArray` | utils/compose_transforms.py:65-101 | The loop produces exactly `PortArrayOutcome`. |
| `ComposeTransforms.PortArrayEntriesConcat` | utils/compose_transforms.py:86-101 | Entries are appended in input order. |
| `ComposeTransforms.PortArrayEntriesShape` | utils/compose_transforms.py:86-101 | Every appended entry has a truthy published and target port, and there is at most one entry per item. |
| `ComposeTransforms.PortArrayEntriesAllKept` | utils/compose_transforms.py:86-101 | When every item is kept, the entries are exactly each item's compound entry, one per item, in input order. |
| `ComposeTransforms.PortMappingKeepsWhatPortArraySkips` | utils/compose_transforms.py:86-94 | An empty host is appended by `port_mapping` but skipped by `port_array`. |
| `ComposeTransforms.VolumeEntryBase` | utils/compose_transforms.py:120-129 | A volume entry starts with `type` (default `bind`), `source` and `target`. |
| `ComposeTransforms.VolumeEntryOptions` | utils/compose_transforms.py:130-145 | `read_only: true` appears exactly when the input's is truthy. A `bind` sub-dict appears exactly for bind volumes with a truthy propagation or a non-None `create_host_path`, and False is kept. |
| `ComposeTransforms.BindOptionsSpec` | utils/compose_transforms.py:136-140 | The bind options are non-empty exactly when a truthy propagation or a non-None `create_host_path` is given, and `create_host_path` is kept as given, False included. |
| `ComposeTransforms.VolumeMappingOutcome` | utils/compose_transforms.py:104-160 | A compound input appends its entry. A plain string appends a bind entry (target `volume_target` or `/data`, read-only False). Anything else changes nothing, and no other key changes. |
| `ComposeTransforms.TransformVolumeMapping` | utils/compose_transforms.py:104-160 | The in-place updates produce exactly `VolumeMappingOutcome`. |
| `ComposeTransforms.VolumeArrayOutcome` | utils/compose_transforms.py:163-219 | A non-list input changes nothing; a list appends its kept entries after the existing volumes. |
| `ComposeTransforms.TransformVolumeArray` | utils/compose_transforms.py:163-219 | The loop produces exactly `VolumeArrayOutcome`. |
| `ComposeTransforms.VolumeArrayEntriesConcat` | utils/compose_transforms.py:182-219 | Entries are appended in input order. |
| `ComposeTransforms.VolumeItemAgainstMapping` | utils/compose_transforms.py:183-202 | Items with a falsy source or target are skipped. A kept item gives the `volume_mapping` entry, except that a bind source `./x` becomes `${HOST_PATH}/x`; other sources pass through. |
| `ComposeTransforms.VolumeArrayEntriesCount` | utils/compose_transforms.py:182-193 | There is at most one entry per item: none when no item is kept, one per item when all are. |
| `ComposeTransforms.NetworkConfigOutcome` | utils/compose_transforms.py:222-254 | A non-dict input or a falsy name changes nothing. Otherwise `networks[name]` becomes `{ipv4_address}` or `{}`, and no other network or key changes. |
| `ComposeTransforms.TransformNetworkConfig` | utils/compose_transforms.py:222-254 | The in-place updates produce exactly `NetworkConfigOutcome`. |
| `ComposeTransforms.Attachment` | utils/compose_transforms.py:301-344 | An item attaches at most one network. It attaches exactly when it is a dict with a truthy name that does not ask for creation or whose creation succeeded, and then with its name and its mode (default `existing`). |
| `ComposeTransforms.CustomNetworksOutcome` | utils/compose_transforms.py:257-356 | A non-list input changes nothing. A list attaches each network as `{}` and appends `{name, mode}` records to the cache's `custom_networks` in input order. |
| `ComposeTransforms.TransformCustomNetworksArray` | utils/compose_transforms.py:257-356 | The loop produces exactly `CustomNetworksOutcome`. |
| `ComposeTransforms.AttachItem` | utils/compose_transforms.py:301-353 | One turn of the loop attaches the item's network and records it, or changes nothing. |
| `ComposeTransforms.AttachAllSpec` | utils/compose_transforms.py:346-347 | Every attached name maps to `{}`; every other network is left as it was. |
| `ComposeTransforms.AttachmentsConcat` | utils/compose_transforms.py:301-353 | Attachments follow input order. |
| `ComposeTransforms.AttachedNames` | utils/compose_transforms.py:301-353 | A name is attached exactly when some item attaches it. |
| `ComposeTransforms.AvailableTransforms` | utils/compose_transforms.py:401-403 | The registry's names, in declaration order. |
| `ComposeTransforms.LookupInSpec` | utils/compose_transforms.py:392 | A lookup succeeds exactly on listed names; with distinct names each finds its own transform. |
| `ComposeTransforms.RegistryDistinct` | utils/compose_transforms.py:360-367 | The six registered names are distinct. |
| `ComposeTransforms.RegistryConsistent` | utils/compose_transforms.py:360-367 | A name resolves exactly when it is listed as available, and each listed name resolves to its own transform. |
| `ComposeTransforms.ApplyOutcome` | utils/compose_transforms.py:389-396 | An unknown transform name leaves the service and the cache unchanged and raises nothing. |
| `ComposeTransforms.TransformOutcomeShaped` | utils/compose_transforms.py:360-367 | Every transform keeps `ports`/`volumes` lists, `networks` a dict and the cache's `custom_networks` a list. |
| `ComposeTransforms.ApplyTransform` | utils/compose_transforms.py:370-398 | Dispatch updates the service and cache to exactly `ApplyOutcome`. |
| `InstallOrder.CheckMissingPrerequisites` | services/installer.py:61-82 | Exactly the prerequisites of the batch's blueprints that are neither installed (running or stopped) nor selected. |
| `InstallOrder.SortByOrder` | services/installer.py:100-112 | Sorting by `install_order` gives a sorted permutation and keeps a list free of repeats. It is stable: for every install order, the names of that order keep their relative order from the input. |
| `InstallOrder.BuildGraph` | services/installer.py:90-96 | The graph and in-degree maps get one key per distinct app, each with its starting in-degree. |
| `InstallOrder.Kahn` | services/installer.py:98-116 | On success the batch has no repeats, and the result is a permutation of it. Each app comes after its in-batch prerequisites, and the ready app with the lowest install order is taken first. A failure means a repeat or apps that can never become ready. |
| `InstallOrder.PrecedesNotStuck` | services/installer.py:102-116 | A complete precedence order rules out a set of apps each waiting on another among them. |
| `InstallOrder.ExactCountStuck` | services/installer.py:106-116 | With exact in-batch in-degrees, the apps Kahn's algorithm never reaches wait on each other: a cycle or a chain into one. |
| `InstallOrder.ResolveInstallOrderAsWritten` | services/installer.py:84-119 | As written, the order succeeds exactly when the batch has no repeats, no app is stuck, and every prerequisite is listed once and lies inside the batch. It then gives a prerequisite-respecting permutation, always taking the ready app with the lowest install order. |
| `InstallOrder.ResolveInstallOrder` | services/installer.py:84-119 | Corrected: success exactly when there are no repeats and no stuck apps, giving a prerequisite-respecting permutation with the lowest-install-order-first choice. |
| `InstallOrder.OutsidePrerequisitesNotStuck` | services/installer.py:96 | A lone app whose prerequisites all lie outside the batch is never stuck. |
| `InstallOrder.InstalledPrerequisiteExample` | services/installer.py:96 | Sonarr alone, with Prowlarr already running, passes the missing check. The order as written raises; the corrected order installs Sonarr. |
| `InstallOrder.PrecedesPrefix` | services/installer.py:49-57 | Every prefix of the install order (the apps a halted batch attempted) still respects prerequisites. |
| `Installer.InstallSingleApp` | services/installer.py:121-165 | The app is committed as installing first. It then ends running, with its compose path and with the compose file generation builds from its inputs and the settings as its data, exactly when generation succeeds and deployment raises nothing. Otherwise it ends in error with the exception's text (generation's error, else deployment's), which is raised again. |
| `Installer.InstallNext` | services/installer.py:50-57 | One turn of the batch loop on one app. It succeeds exactly when the app installs. On failure the app is in error, its error message is its own exception's text, and the halt message names it; on success it is running. |
| `Installer.InstallTurn` | services/installer.py:50-57 | One turn on the next name of the order: only that app changes; it is running and installs, or failed as the last one attempted; apps installed before stay so. |
| `Installer.FindUnknown` | services/installer.py:77 | The first batch name without a blueprint row, or none when all exist. |
| `Installer.ListSet` | services/installer.py:42 | The missing names are listed once each. |
| `Installer.PlanBatch` | services/installer.py:36-46 | Corrected (the order is `ResolveInstallOrder`): a missing prerequisite raises. Success means every blueprint exists, nothing is missing, and the order is a prerequisite-respecting permutation. With all blueprints known and nothing missing, it succeeds exactly when there are no repeats and nothing is stuck. |
| `Installer.InstallInOrder` | services/installer.py:49-57 | Apps are installed in order up to the first failure, and inputs never change. The loop succeeds exactly when every app of the order installs (generation accepts its inputs and its stack deploys). Success means all were attempted and are running. On a halt the last attempted app does not install: it is in error, its error message is its own exception's text, and the halt message names it. Every earlier app installs and is running, and unattempted apps are untouched. The attempted part of a prerequisite-respecting order respects prerequisites too. |
| `Installer.InstallAppsBatch` | services/installer.py:23-59 | Corrected (the order is `ResolveInstallOrder`): a missing prerequisite raises before any app changes. The batch succeeds exactly when every blueprint is known, nothing is missing, the batch has no repeats and nothing is stuck, and every app installs. The attempted apps form a prerequisite-respecting prefix of the order, and untouched apps keep every field. On success every app is running. On a halt the failing app is in error with its own exception's text, and the apps attempted before it install and are running. |
| `PresetService.ExtractRequiredInputs` | services/preset_service.py:118-141 | The loop computes the required-input list. |
| `PresetService.RequiredInputsConcat` | services/preset_service.py:122-139 | Fields are listed in schema order. |
| `PresetService.RequiredInputsExact` | services/preset_service.py:122-139 | Exactly the dict fields with truthy `required` and no non-None default are listed, each described from its own configuration. |
| `PresetService.RequiredFieldDefaults` | services/preset_service.py:130-139 | A description names its field and is required. Its label defaults to the field name, its type to `string`, its component to `text`, and `is_sensitive` to False. |
| `PresetService.FillDefaultValues` | services/preset_service.py:222-241 | The loop computes the filled inputs on a copy. |
| `PresetService.FilledSpec` | services/preset_service.py:231-241 | A key the user gave is never changed, even when None, and keys outside the schema are untouched. A missing field gets its non-None default, if any. |
| `PresetService.NoneKeptUnlikeExpander` | services/preset_service.py:237-239 | A key present as None keeps None here, while the template expander's default filling replaces it. |
| `PresetService.AppNames` | services/preset_service.py:81 | `apps`, defaulting to the empty list. |
| `PresetService.AnalyzeRequiredInputs` | services/preset_service.py:50-116 | A missing or empty preset raises `Preset not found`; otherwise the analysis of its app names. |
| `PresetService.AnalyzedPartition` | services/preset_service.py:88-109 | Every name lands in exactly one list, checked in order: missing blueprint, already existing, available. |
| `PresetService.AnalyzedRequired` | services/preset_service.py:100-107 | `required_inputs` holds exactly the available apps with fields to fill, each with its non-empty list. |
| `PresetService.ApplyOutcome` | services/preset_service.py:164-212 | Created names have a blueprint and no existing app; every created or skipped name comes from the preset. |
| `PresetService.ApplyPreset` | services/preset_service.py:143-220 | Corrected (rows are built with `inputs=`): a missing preset raises. Otherwise one new configured row is created per created name, carrying the user's inputs with defaults filled. |
| `PresetService.AppliedPartition` | services/preset_service.py:164-212 | Corrected: an app is created exactly when its blueprint exists and no app of it exists yet, once per name. Every other name is skipped. |
| `PresetService.AppliedErrors` | services/preset_service.py:173-189 | Corrected: exactly the skipped names have an error. |
| `PresetService.AppliedErrorTexts` | services/preset_service.py:177-189 | Corrected: a name without a blueprint has the error `Blueprint not found`, and any other skipped name `App already exists`. |
| `PresetService.RawInputsCreatesNothing` | services/preset_service.py:195-201 | As written: nothing is ever created, every name is skipped, and a would-be row fails with the invalid-keyword error. |
| `BlueprintRoutes.FirstMatch` | routes/blueprints.py:82-85 | The position of the first installed app of the named blueprint, or none when no app has it. |
| `BlueprintRoutes.CheckPrerequisite` | routes/blueprints.py:79-96 | No installed apps means unsatisfied. Satisfied exactly when the first app of the named blueprint has the required status (default `running`) and, when both are given, the required input value. A malformed prerequisite raises. |
| `BlueprintRoutes.NoMatchUnsatisfied` | routes/blueprints.py:82-88 | A prerequisite naming a blueprint no installed app has is unsatisfied. |
| `BlueprintRoutes.FirstMatchDecides` | routes/blueprints.py:82-95 | Only the first matching app is consulted; apps after it do not change the answer. |
| `BlueprintRoutes.InstalledStatusNeverSatisfied` | routes/blueprints.py:90-91 | With only running apps, a prerequisite demanding status `installed` is never satisfied. |
| `BlueprintRoutes.AllSatisfiedFirstFailure` | routes/blueprints.py:65-69 | One unsatisfied prerequisite hides the field. |
| `BlueprintRoutes.AllSatisfiedWhenEach` | routes/blueprints.py:65-69 | All prerequisites satisfied means the field is shown. |
| `BlueprintRoutes.Decisions` | routes/blueprints.py:63-68 | Each field's show decision, in schema order. |
| `BlueprintRoutes.RunningApps` | routes/blueprints.py:59 | Exactly the running apps. |
| `BlueprintRoutes.GetBlueprintSchema` | routes/blueprints.py:49-77 | An unknown blueprint gives `Blueprint not found`. Otherwise the loop computes the visible schema for the running apps. |
| `BlueprintRoutes.KeptOkIff` | routes/blueprints.py:61-71 | The filter succeeds exactly when no decision raised. |
| `BlueprintRoutes.KeptStopsAt` | routes/blueprints.py:63-68 | The route answers with the exception of the first field whose check raised. |
| `BlueprintRoutes.KeptSpec` | routes/blueprints.py:61-71 | With distinct names, the visible schema holds each shown field with its configuration unchanged, and nothing else. |
| `BlueprintRoutes.KeptAppends` | routes/blueprints.py:61-71 | Visible fields keep their schema order. |
| `AppRoutes.DbName` | routes/apps.py:41 | The database name is as long as the name, with each space turned into `_` and every other character lower-cased. |
| `AppRoutes.DbNameNormal` | routes/apps.py:41 | A database name has no space and no upper-case letter, and normalising it again changes nothing. |
| `AppRoutes.OtherWhitespaceKept` | routes/apps.py:41 | Tabs and newlines are kept. |
| `AppRoutes.DbNameCollides` | routes/apps.py:41-48 | Names differing only in case, or in a space against an underscore, share a database name. |
| `AppRoutes.CreateApp` | routes/apps.py:38-63 | Creation is refused exactly when the database name is taken. Otherwise a fresh configured row holds the name, database name, blueprint and inputs. |
| `AppRoutes.InstallApp` | routes/apps.py:66-85 | A running app is refused unchanged, and so is an app whose blueprint is missing. Otherwise the install runs, succeeding exactly when generation and deployment do, and a failure's text is the error detail. |
| `AppRoutes.UpdatedStatus` | routes/apps.py:131-132 | An update never leaves an app running, and leaves any other status as it was. |
| `AppRoutes.UpdateApp` | routes/apps.py:119-138 | Inputs are replaced only when the payload has them, running becomes configured, and nothing else changes. |
| `AppRoutes.StopApp` | routes/apps.py:141-157 | Only a running app can be stopped, and it then is stopped; otherwise nothing changes. |
| `AppRoutes.StopThenStop` | routes/apps.py:148-153 | A second stop is refused. |
| `AppRoutes.UpdateThenInstall` | routes/apps.py:127-132 | After an update, a formerly running app can be installed again. |

## Left out

- Docker: the container lookup, `docker network inspect/create` and `docker compose up` are parameters whose answers the model takes as given.
- Database sessions and queries, and the ids of rows: rows are values, and apps are found by name. The 404 answers for unknown ids are not modelled.
- YAML and JSON serialisation, writing the compose file, reading preset files, and creating the stack directory (`ensure_stack_directory`): these are part of the `deploy` outcome or of the preset value.
- The post-install hook: it catches every exception and so never changes an app's status. The hooks themselves, HTTP status codes, logging and timestamps (`installed_at`) are not modelled either.
- The unique constraint on `db_name` can fail when `apply_preset` flushes a row, which the code would then report as that app's error. `PresetService.ApplyPreset` takes it that the existing rows do not clash.
- `ComposeGenerator.Generate`: the ComposeService validation is modelled only as far as string image and container name; the unused static IP is left out.
- `TemplateExpander.ExpandBlueprintSchema`: the model restricts every field configuration, and every nested `fields`, to a dict. The code also takes other shapes. A list configuration is copied unchanged unless it holds `'default'`, `'schema'`, `'fields'` or `'item_schema'`, which raises `TypeError`. A configuration without `copy` raises `AttributeError`.
- `TemplateExpander.ApplyDefaultsToInputs`: the model restricts every field configuration to a dict. The code never reads the configuration of a field the inputs provide. For a missing field it only tests `'default' in config`, so a string or list without that member is accepted and adds nothing.
- `BlueprintRoutes.GetBlueprintSchema` requires dict fields whose truthy `prerequisites` is a list. Other shapes raise in the code. It returns the visible schema only; the route wraps it in a dict with the blueprint's `name` and `display_name` (routes/blueprints.py:73-77), which the model leaves out.
- `ComposeGenerator.GenerateError`: the service record's validation text is abbreviated to its header and the failing field names. The validation library adds per-field detail lines (the message, the input's value and type, a documentation link) that are not modelled.
- `Values.Value` has no float case: JSON floats in inputs, defaults, preset values and prerequisite values are not modelled. So Python's `1 == 1.0` in prerequisite checks, the falsiness of `0.0`, and a float's text in environment lines are not captured.
- `PresetService.AnalyzeRequiredInputs` requires `apps`, if present, to be a list of strings.
- `PresetService.ApplyPreset` requires `apps`, if present, to be a list of strings, and each user-input entry to be a dict.
- `ComposeTransforms.ApplyTransform` requires the service dict's `ports`/`volumes` to be lists and its `networks` a dict. It also requires string bind sources, where the code would raise.
- `ComposeTransforms.NetworkConfigOutcome` requires a truthy `network_name` to be a string. The model's dict keys are strings, so truthy non-string network names (an integer, True), which the code accepts as keys (utils/compose_transforms.py:243-254), are not modelled.
- `ComposeTransforms.Attachment` and `ComposeTransforms.CustomNetworksOutcome` require every truthy `network_name` in `custom_networks` to be a string, for the same reason. The code accepts other truthy names as keys of the service's networks and copies them into the cache (utils/compose_transforms.py:341-350).
- The transforms read `app.raw_inputs` (utils/compose_transforms.py:49-50), where `app` is typed `Any`. The `App` row (models/database.py:42-65) has no such attribute, so that legacy port branch would raise `AttributeError` on a row. The model takes the raw inputs as a parameter, as if the app carried them.
- `Installer.PlanBatch` and `Installer.InstallAppsBatch` use the corrected install order. As written (services/installer.py:46, 84-119), installing `sonarr` alone while its prerequisite `prowlarr` is running raises `Circular dependency detected`. `InstallOrder.ResolveInstallOrderAsWritten` and `InstallOrder.InstalledPrerequisiteExample` model that path.
- `PresetService.ApplyPreset` builds rows with `inputs=`. As written (services/preset_service.py:195-201), the row is built with `raw_inputs=`, which raises, so every app is skipped with that error and no row is ever created. `PresetService.RawInputsCreatesNothing` models that path.
- `Installer.InstallInOrder` requires distinct blueprint names and an order holding exactly the batch's names; `Installer.PlanBatch` establishes both before it is called.
- `PathResolver.StackPath` joins as `os.path.join` does. The normalisation that `pathlib` adds (trailing slashes, repeated separators, `.` parts) is not modelled.
- Strings are ASCII: `str.lower`, `str.upper` and `str.isdigit` are modelled on ASCII letters and digits only.
- `InstallOrder.Kahn`: the circular-dependency error text leaves out the set of remaining apps, whose printed order Python does not fix.
- Install order values are real numbers; floating-point rounding is not modelled.

## Findings

| source | as written | input that shows it | evidently intended | confidence | as-written member | corrected member |
|---|---|---|---|---|---|---|
| services/installer.py:96 | An app's in-degree counts all its prerequisites, but only apps inside the batch decrement it. | Install `sonarr` (prerequisite `prowlarr`) alone while `prowlarr` is running: the missing check passes, then `Circular dependency detected` is raised. | Count only the distinct prerequisites inside the batch, so installed prerequisites do not block. | not executed | `InstallOrder.InstalledPrerequisiteExample` | `InstallOrder.ResolveInstallOrder` |
| services/preset_service.py:195-201 | The row is built with `raw_inputs=`, but the App row has no such column (its inputs live in `inputs`), so the declarative constructor raises `TypeError`. | Any preset naming an existing blueprint with no app yet: the app is skipped with the invalid-keyword error, and nothing is ever created. | Build the row with `inputs=`, the column the rest of the code reads. The comment at hooks/base.py:32 and the mock row at test_custom_networks.py:58-75 also speak of `raw_inputs`, so adding that column is the other possible fix. | not executed | `PresetService.RawInputsCreatesNothing` | `PresetService.AppliedPartition` |

=== FILE: app_routes.dfy ===
/** The app routes' name rule and status guards (routes/apps.py). The routes take the
    app row the id lookup found; an HTTP error is `Raised` with its detail text. */
module AppRoutes {
  import opened Text
  import opened Values
  import opened Models
  import opened ComposeGenerator
  import opened PathResolver
  import opened Installer

  /** `name.lower().replace(" ", "_")`. */
  function DbName(name: string): (db: string)
    ensures |db| == |name|
    ensures forall i :: 0 <= i < |name| ==>
              db[i] == if name[i] == ' ' then '_' else LowerChar(name[i])
  {
    ReplaceChar(Lower(name), ' ', '_')
  }

  /** A database name has no space and no upper-case letter, and normalising it again
      changes nothing. */
  lemma DbNameNormal(name: string)
    ensures forall i :: 0 <= i < |name| ==> DbName(name)[i] != ' ' && !('A' <= DbName(name)[i] <= 'Z')
    ensures DbName(DbName(name)) == DbName(name)
  {
    var db := DbName(name);
    assert forall i :: 0 <= i < |db| ==> LowerChar(db[i]) == db[i];
  }

  /** Only spaces become underscores: a tab or a newline is kept, so names that differ
      there get different database names. */
  lemma OtherWhitespaceKept(name: string, i: nat)
    requires i < |name| && (name[i] == '\t' || name[i] == '\n')
    ensures DbName(name)[i] == name[i]
  {
  }

  /** Names that differ only in case or in spaces against underscores share a database
      name, so the second one cannot be created. */
  lemma {:induction false} DbNameCollides(a: string, b: string)
    requires |a| == |b|
    requires forall i :: 0 <= i < |a| ==>
               (if a[i] == ' ' then '_' else LowerChar(a[i])) == (if b[i] == ' ' then '_' else LowerChar(b[i]))
    ensures DbName(a) == DbName(b)
  {
  }

  /** Whether an app row with the database name exists. */
  predicate Taken(apps: seq<App>, db: string) {
    exists j :: 0 <= j < |apps| && apps[j].dbName == db
  }

  /** `create_app`: refused when an app with the same database name exists, otherwise a
      new row with status configured. */
  method CreateApp(name: string, blueprintName: string, inputs: Value, apps: seq<App>)
    returns (r: Result<App>)
    ensures r.Raised? <==> Taken(apps, DbName(name))
    ensures r.Raised? ==> r.error == "App with name '" + name + "' already exists"
    ensures r.Ok? ==> fresh(r.value) && r.value.name == name && r.value.dbName == DbName(name) &&
                      r.value.blueprintName == blueprintName && r.value.inputs == inputs &&
                      r.value.status == Configured
  {
    var db := DbName(name);
    if exists j :: 0 <= j < |apps| && apps[j].dbName == db {
      return Raised("App with name '" + name + "' already exists");
    }
    var app := new App(name, db, blueprintName, inputs, Configured);
    r := Ok(app);
  }

  /** `install_app`: refused while the app is running; the blueprint is looked up before
      anything changes; then `install_single_app`, whose exception text becomes the
      error detail. */
  method InstallApp(app: App, bps: map<string, Blueprint>, stored: Option<GlobalSettings>,
                    deploy: string -> Option<string>)
    returns (r: Result<string>)
    modifies app
    ensures old(app.status) == Running ==> r == Raised("App is already running") && unchanged(app)
    ensures old(app.status) != Running && app.blueprintName !in bps ==>
              r == Raised("No row was found when one was required") && unchanged(app)
    ensures old(app.status) != Running && app.blueprintName in bps ==>
              app.history == old(app.history) + [Installing, app.status] &&
              (r.Ok? <==> Generable(bps[app.blueprintName], old(app.inputs)) &&
                          deploy(StackPath(app.dbName)) == None)
    ensures r.Ok? ==> app.status == Running && r.value == app.name + " installed successfully"
    ensures r.Raised? && old(app.status) != Running && app.blueprintName in bps ==>
              app.status == Error && app.errorMessage == Some(r.error)
  {
    if app.status == Running {
      return Raised("App is already running");
    }
    if app.blueprintName !in bps {
      return Raised("No row was found when one was required");
    }
    var installed := InstallSingleApp(app, bps[app.blueprintName], stored, deploy);
    if installed.Raised? {
      return Raised(installed.error);
    }
    r := Ok(app.name + " installed successfully");
  }

  /** The status `update_app` leaves: a running app needs reinstalling. */
  function UpdatedStatus(s: Status): (t: Status)
    ensures t != Running
    ensures s != Running ==> t == s
  {
    if s == Running then Configured else s
  }

  /** `update_app`: the inputs are replaced wholesale only when the payload has them. */
  method UpdateApp(app: App, payload: seq<Entry>)
    modifies app
    ensures app.inputs == if Has(payload, "inputs") then GetOr(payload, "inputs", Null) else old(app.inputs)
    ensures app.status == UpdatedStatus(old(app.status))
    ensures app.history == old(app.history) + (if old(app.status) == Running then [Configured] else [])
    ensures app.errorMessage == old(app.errorMessage) && app.composeData == old(app.composeData) &&
            app.composeFilePath == old(app.composeFilePath)
  {
    if Has(payload, "inputs") {
      app.inputs := GetOr(payload, "inputs", Null);
    }
    if app.status == Running {
      app.Commit(Configured);
    }
  }

  /** `stop_app`: only a running app can be stopped, and it then is stopped. */
  method StopApp(app: App) returns (r: Result<string>)
    modifies app
    ensures old(app.status) != Running ==> r == Raised("App is not running") && unchanged(app)
    ensures old(app.status) == Running ==>
              r == Ok(app.name + " stopped") && app.status == Stopped &&
              app.history == old(app.history) + [Stopped] && app.inputs == old(app.inputs)
  {
    if app.status != Running {
      return Raised("App is not running");
    }
    app.Commit(Stopped);
    r := Ok(app.name + " stopped");
  }

  /** An app that was just stopped cannot be stopped again. */
  method StopThenStop(app: App) returns (first: Result<string>, second: Result<string>)
    modifies app
    requires app.status == Running
    ensures first.Ok? && second == Raised("App is not running") && app.status == Stopped
  {
    first := StopApp(app);
    second := StopApp(app);
  }

  /** Updating a running app makes it installable again: the install goes ahead. */
  method UpdateThenInstall(app: App, payload: seq<Entry>, bps: map<string, Blueprint>,
                           stored: Option<GlobalSettings>, deploy: string -> Option<string>)
    returns (r: Result<string>)
    modifies app
    requires app.status == Running && app.blueprintName in bps
    ensures app.history == old(app.history) + [Configured, Installing, app.status]
    ensures app.status == Running || app.status == Error
  {
    UpdateApp(app, payload);
    r := InstallApp(app, bps, stored, deploy);
  }
}

=== FILE: blueprint_routes.dfy ===
/** Field prerequisites of the blueprint schema route (routes/blueprints.py): which
    fields of a blueprint's schema a user sees, given the running apps. A Python
    exception raised on the way (a prerequisite without `app_name`, say) is `Raised`. */
module BlueprintRoutes {
  import opened Values
  import opened Models

  /** The position of the first app of the given blueprint, compared as Python compares
      a string with any value. */
  function FirstMatch(installed: seq<App>, appName: Value): (i: Option<nat>)
    ensures i.Some? ==> i.value < |installed| && Str(installed[i.value].blueprintName) == appName &&
                        forall j :: 0 <= j < i.value ==> Str(installed[j].blueprintName) != appName
    ensures i.None? ==> forall j :: 0 <= j < |installed| ==> Str(installed[j].blueprintName) != appName
  {
    if installed == [] then None
    else if Str(installed[0].blueprintName) == appName then Some(0)
    else match FirstMatch(installed[1..], appName)
      case None => None
      case Some(i) => Some(i + 1)
  }

  /** The text of the `TypeError` raised by subscripting a value that is not a dict with
      a string. */
  function SubscriptError(v: Value): string
    requires !v.Obj?
  {
    match v
    case Null => "'NoneType' object is not subscriptable"
    case Bool(_) => "'bool' object is not subscriptable"
    case Int(_) => "'int' object is not subscriptable"
    case Str(_) => "string indices must be integers"
    case List(_) => "list indices must be integers or slices, not str"
  }

  /** `inputs.get(key)` on an app's inputs: a missing key gives None, as does a key of a
      type no JSON object key equals; `get` on something other than a dict, or with an
      unhashable key, raises. */
  function InputAt(inputs: Value, key: Value): Result<Value> {
    if !inputs.Obj? then
      Raised("'" + TypeName(inputs) + "' object has no attribute 'get'")
    else match key
      case Str(s) => Ok(GetOr(inputs.fields, s, Null))
      case List(_) => Raised("unhashable type: 'list'")
      case Obj(_) => Raised("unhashable type: 'dict'")
      case _ => Ok(Null)
  }

  /** The app at `i` is the first installed app of the blueprint the prerequisite names. */
  predicate Matches(prereq: seq<Entry>, installed: seq<App>, i: int) {
    0 <= i < |installed| && Str(installed[i].blueprintName) == GetOr(prereq, "app_name", Null) &&
    forall j :: 0 <= j < i ==> Str(installed[j].blueprintName) != GetOr(prereq, "app_name", Null)
  }

  /** When the prerequisite names both an input and a value, the app's input equals it. */
  predicate InputCondition(prereq: seq<Entry>, app: App)
    reads app
  {
    Has(prereq, "input_name") && Has(prereq, "input_value") ==>
      var v := InputAt(app.inputs, GetOr(prereq, "input_name", Null));
      v.Ok? && Equal(v.value, GetOr(prereq, "input_value", Null))
  }

  /** `check_prerequisite`. With no installed app the generator never looks at the
      prerequisite, so even an ill-formed one is simply unsatisfied. */
  function CheckPrerequisite(prereq: Value, installed: seq<App>): (r: Result<bool>)
    reads set a | a in installed
    ensures installed == [] ==> r == Ok(false)
    ensures r.Raised? ==> !prereq.Obj? || !Has(prereq.fields, "app_name") ||
                          (Has(prereq.fields, "input_name") && Has(prereq.fields, "input_value"))
    ensures r == Ok(true) <==>
              prereq.Obj? &&
              exists i :: 0 <= i < |installed| && Matches(prereq.fields, installed, i) &&
                          Str(installed[i].status.Name()) == GetOr(prereq.fields, "status", Str("running")) &&
                          InputCondition(prereq.fields, installed[i])
  {
    if installed == [] then Ok(false)
    else if !prereq.Obj? then Raised(SubscriptError(prereq))
    else if !Has(prereq.fields, "app_name") then Raised("'app_name'")
    else match FirstMatch(installed, GetOr(prereq.fields, "app_name", Null))
      case None => Ok(false)
      case Some(i) =>
        var app := installed[i];
        if Str(app.status.Name()) != GetOr(prereq.fields, "status", Str("running")) then Ok(false)
        else if Has(prereq.fields, "input_name") && Has(prereq.fields, "input_value") then
          match InputAt(app.inputs, GetOr(prereq.fields, "input_name", Null))
          case Raised(e) => Raised(e)
          case Ok(v) => Ok(Equal(v, GetOr(prereq.fields, "input_value", Null)))
        else Ok(true)
  }

  /** `all(check_prerequisite(p, installed) for p in prereqs)`: stops at the first
      unsatisfied prerequisite or the first exception. */
  function AllSatisfied(prereqs: seq<Value>, installed: seq<App>): Result<bool>
    reads set a | a in installed
  {
    if prereqs == [] then Ok(true)
    else match CheckPrerequisite(prereqs[0], installed)
      case Raised(e) => Raised(e)
      case Ok(b) => if b then AllSatisfied(prereqs[1..], installed) else Ok(false)
  }

  /** What the route relies on in a schema: every field is a dict whose truthy
      `prerequisites`, if any, is a list. */
  predicate SchemaTyped(schema: seq<Entry>) {
    forall i :: 0 <= i < |schema| ==>
      schema[i].val.Obj? &&
      (Truthy(GetOr(schema[i].val.fields, "prerequisites", Null)) ==>
         GetOr(schema[i].val.fields, "prerequisites", Null).List?)
  }

  /** Whether one field is shown: it has no prerequisites, empty ones, or all of them
      are satisfied. */
  function Shown(field: Value, installed: seq<App>): Result<bool>
    requires field.Obj?
    requires Truthy(GetOr(field.fields, "prerequisites", Null)) ==>
               GetOr(field.fields, "prerequisites", Null).List?
    reads set a | a in installed
  {
    var prereqs := GetOr(field.fields, "prerequisites", Null);
    if Truthy(prereqs) then AllSatisfied(prereqs.items, installed) else Ok(true)
  }

  /** Whether each field of the schema is shown, in schema order. */
  function Decisions(schema: seq<Entry>, installed: seq<App>): (decided: seq<Result<bool>>)
    requires SchemaTyped(schema)
    reads set a | a in installed
    ensures |decided| == |schema|
    ensures forall i :: 0 <= i < |schema| ==> decided[i] == Shown(schema[i].val, installed)
  {
    seq(|schema|, i requires 0 <= i < |schema| reads set a | a in installed => Shown(schema[i].val, installed))
  }

  /** The fields a list of decisions keeps, with their configurations, in schema order;
      the first decision that raised stops the filter. */
  function Kept(schema: seq<Entry>, decided: seq<Result<bool>>): Result<seq<Entry>>
    requires |decided| == |schema|
  {
    if schema == [] then Ok([])
    else
      var n := |schema| - 1;
      match Kept(schema[..n], decided[..n])
      case Raised(e) => Raised(e)
      case Ok(kept) =>
        match decided[n]
        case Raised(e) => Raised(e)
        case Ok(b) => Ok(if b then Set(kept, schema[n].key, schema[n].val) else kept)
  }

  /** The visible schema for the given installed apps. */
  function Visible(schema: seq<Entry>, installed: seq<App>): Result<seq<Entry>>
    requires SchemaTyped(schema)
    reads set a | a in installed
  {
    Kept(schema, Decisions(schema, installed))
  }

  /** The apps whose status is running, in the order the query returns them. */
  function RunningApps(apps: seq<App>): (running: seq<App>)
    reads set a | a in apps
    ensures forall j :: 0 <= j < |running| ==> running[j] in apps && running[j].status == Running
    ensures forall j :: 0 <= j < |apps| && apps[j].status == Running ==> apps[j] in running
  {
    if apps == [] then []
    else RunningApps(apps[..|apps| - 1]) +
         (if apps[|apps| - 1].status == Running then [apps[|apps| - 1]] else [])
  }

  /** `get_blueprint_schema`: an unknown blueprint is answered with 404; otherwise the
      schema restricted to the fields the running apps make visible. */
  method GetBlueprintSchema(name: string, bps: map<string, Blueprint>, apps: seq<App>)
    returns (r: Result<seq<Entry>>)
    requires name in bps ==> SchemaTyped(bps[name].schema)
    ensures name !in bps ==> r == Raised("Blueprint not found")
    ensures name in bps ==> r == Visible(bps[name].schema, RunningApps(apps))
  {
    if name !in bps {
      return Raised("Blueprint not found");
    }
    var installed := RunningApps(apps);
    var schema := bps[name].schema;
    ghost var decided := Decisions(schema, installed);
    var visible: seq<Entry> := [];
    for i := 0 to |schema|
      invariant Kept(schema[..i], decided[..i]) == Ok(visible)
    {
      assert schema[..i + 1][..i] == schema[..i] && decided[..i + 1][..i] == decided[..i];
      var fieldName, field := schema[i].key, schema[i].val;
      var prereqs := GetOr(field.fields, "prerequisites", Null);
      if Has(field.fields, "prerequisites") && Truthy(prereqs) {
        var satisfied := AllSatisfied(prereqs.items, installed);
        if satisfied.Raised? {
          KeptOkIff(schema[..i], decided[..i]);
          assert forall j :: 0 <= j < i ==> decided[..i][j] == decided[j];
          KeptStopsAt(schema, decided, i);
          return Raised(satisfied.error);
        }
        if satisfied.value {
          visible := Set(visible, fieldName, field);
        }
      } else {
        visible := Set(visible, fieldName, field);
      }
    }
    assert schema[..|schema|] == schema && decided[..|schema|] == decided;
    r := Ok(visible);
  }

  /** A prerequisite naming a blueprint no installed app has is unsatisfied. */
  lemma NoMatchUnsatisfied(prereq: seq<Entry>, installed: seq<App>)
    requires Has(prereq, "app_name")
    requires forall j :: 0 <= j < |installed| ==>
               Str(installed[j].blueprintName) != GetOr(prereq, "app_name", Null)
    ensures CheckPrerequisite(Obj(prereq), installed) == Ok(false)
  {
  }

  /** Only the first app of the named blueprint is consulted: apps after it do not
      change the answer. */
  lemma {:induction false} FirstMatchDecides(prereq: seq<Entry>, installed: seq<App>, more: seq<App>)
    requires Has(prereq, "app_name")
    requires exists j :: 0 <= j < |installed| && Str(installed[j].blueprintName) == GetOr(prereq, "app_name", Null)
    ensures CheckPrerequisite(Obj(prereq), installed + more) == CheckPrerequisite(Obj(prereq), installed)
  {
    var name := GetOr(prereq, "app_name", Null);
    FirstMatchPrefix(installed, more, name);
  }

  lemma {:induction false} FirstMatchPrefix(installed: seq<App>, more: seq<App>, name: Value)
    requires exists j :: 0 <= j < |installed| && Str(installed[j].blueprintName) == name
    ensures FirstMatch(installed + more, name) == FirstMatch(installed, name)
    decreases |installed|
  {
    if Str(installed[0].blueprintName) != name {
      assert (installed + more)[1..] == installed[1..] + more;
      var j :| 0 <= j < |installed| && Str(installed[j].blueprintName) == name;
      assert installed[1..][j - 1] == installed[j];
      FirstMatchPrefix(installed[1..], more, name);
    }
  }

  /** The route hands over only running apps, so a prerequisite demanding the status
      `installed` (the schema default) is never satisfied there. */
  lemma InstalledStatusNeverSatisfied(prereq: Value, installed: seq<App>)
    requires forall a :: a in installed ==> a.status == Running
    requires prereq.Obj? && GetOr(prereq.fields, "status", Str("running")) == Str("installed")
    ensures CheckPrerequisite(prereq, installed) != Ok(true)
  {
    if installed != [] && Has(prereq.fields, "app_name") {
      match FirstMatch(installed, GetOr(prereq.fields, "app_name", Null))
      case None =>
      case Some(i) =>
        assert installed[i] in installed;
        assert Str(installed[i].status.Name()) == Str("running") != Str("installed");
    }
  }

  /** One unsatisfied prerequisite is enough to hide a field; before it, every
      prerequisite was satisfied. */
  lemma {:induction false} AllSatisfiedFirstFailure(prereqs: seq<Value>, installed: seq<App>, k: nat)
    requires k < |prereqs| && CheckPrerequisite(prereqs[k], installed) == Ok(false)
    requires forall j :: 0 <= j < k ==> CheckPrerequisite(prereqs[j], installed) == Ok(true)
    ensures AllSatisfied(prereqs, installed) == Ok(false)
    decreases k
  {
    if k > 0 {
      assert prereqs[1..][k - 1] == prereqs[k];
      AllSatisfiedFirstFailure(prereqs[1..], installed, k - 1);
    }
  }

  /** All prerequisites satisfied means the field is shown. */
  lemma {:induction false} AllSatisfiedWhenEach(prereqs: seq<Value>, installed: seq<App>)
    requires forall j :: 0 <= j < |prereqs| ==> CheckPrerequisite(prereqs[j], installed) == Ok(true)
    ensures AllSatisfied(prereqs, installed) == Ok(true)
    decreases |prereqs|
  {
    if prereqs != [] {
      assert forall j :: 0 <= j < |prereqs| - 1 ==> prereqs[1..][j] == prereqs[j + 1];
      AllSatisfiedWhenEach(prereqs[1..], installed);
    }
  }

  /** The filter succeeds exactly when no decision raised. */
  lemma {:induction false} KeptOkIff(schema: seq<Entry>, decided: seq<Result<bool>>)
    requires |decided| == |schema|
    ensures Kept(schema, decided).Ok? <==> forall i :: 0 <= i < |decided| ==> decided[i].Ok?
    decreases |schema|
  {
    if schema != [] {
      var n := |schema| - 1;
      KeptOkIff(schema[..n], decided[..n]);
      assert forall i :: 0 <= i < n ==> decided[..n][i] == decided[i];
    }
  }

  /** The route answers with the exception of the first field whose decision raised. */
  lemma {:induction false} KeptStopsAt(schema: seq<Entry>, decided: seq<Result<bool>>, k: nat)
    requires |decided| == |schema| && k < |schema|
    requires decided[k].Raised? && forall j :: 0 <= j < k ==> decided[j].Ok?
    ensures Kept(schema, decided) == Raised(decided[k].error)
    decreases |schema|
  {
    var n := |schema| - 1;
    assert forall j :: 0 <= j < n ==> decided[..n][j] == decided[j];
    if k == n {
      KeptOkIff(schema[..n], decided[..n]);
    } else {
      KeptStopsAt(schema[..n], decided[..n], k);
    }
  }

  /** With distinct field names, the filter keeps each field decided as shown, with its
      configuration unchanged, and nothing else. */
  lemma {:induction false} KeptSpec(schema: seq<Entry>, decided: seq<Result<bool>>)
    requires |decided| == |schema| && DistinctKeys(schema)
    requires Kept(schema, decided).Ok?
    ensures forall i :: 0 <= i < |schema| ==> decided[i].Ok?
    ensures forall i :: 0 <= i < |schema| ==>
              Get(Kept(schema, decided).value, schema[i].key) ==
                if decided[i].value then Some(schema[i].val) else None
    ensures forall k :: k !in Keys(schema) ==> Get(Kept(schema, decided).value, k) == None
    decreases |schema|
  {
    KeptOkIff(schema, decided);
    if schema != [] {
      var n := |schema| - 1;
      var init, field := schema[..n], schema[n];
      assert DistinctKeys(init);
      KeptSpec(init, decided[..n]);
      var before := Kept(init, decided[..n]).value;
      var after := Kept(schema, decided).value;
      assert forall k :: k != field.key ==> Get(after, k) == Get(before, k);
      DistinctKeysFresh(schema, n);
      assert Keys(schema) == Keys(init) + [field.key];
      assert Get(before, field.key) == None;
      forall i | 0 <= i < n
        ensures Get(after, schema[i].key) == if decided[i].value then Some(schema[i].val) else None
      {
        assert init[i] == schema[i] && decided[..n][i] == decided[i];
        assert Keys(init)[i] == init[i].key;
      }
    }
  }

  /** Fields keep their schema order: with distinct names, a field kept comes after the
      fields kept before it. */
  lemma KeptAppends(schema: seq<Entry>, field: Entry, decided: seq<Result<bool>>, d: Result<bool>)
    requires |decided| == |schema| && DistinctKeys(schema + [field])
    requires Kept(schema + [field], decided + [d]).Ok?
    ensures Kept(schema, decided).Ok? && d.Ok?
    ensures Kept(schema + [field], decided + [d]).value ==
              Kept(schema, decided).value + (if d.value then [field] else [])
  {
    var whole := schema + [field];
    assert whole[..|schema|] == schema && whole[|schema|] == field;
    assert (decided + [d])[..|schema|] == decided;
    assert DistinctKeys(schema);
    KeptSpec(schema, decided);
    DistinctKeysFresh(whole, |schema|);
    var before := Kept(schema, decided).value;
    HasIffKey(before, field.key);
    if d.value {
      SetNew(before, field.key, field.val);
    }
  }
}

=== FILE: compose_generator.dfy ===
/** The legacy compose generator (services/compose_generator.py): short-form
    environment, volume and port lists, and the single-service compose file around
    them. The settings row comes in as a value; a missing row means a new row with
    the column defaults. */
module ComposeGenerator {
  import opened Text
  import opened Values
  import opened Models

  /** The three lines every environment starts with. */
  function GlobalEnv(settings: GlobalSettings): seq<string> {
    ["PUID=" + IntToString(settings.puid),
     "PGID=" + IntToString(settings.pgid),
     "TZ=" + settings.timezone]
  }

  /** What a value renders as after `KEY=`: booleans in lower case, the rest by `str`. */
  function EnvText(v: Value): string {
    if v.Bool? then (if v.b then "true" else "false") else Display(v)
  }

  /** An input is left out of the environment when it is `None` or `""`. */
  predicate Omitted(v: Value) {
    !v.Bool? && (v == Null || v == Str(""))
  }

  /** The environment lines of the user inputs, in insertion order. */
  function EnvLines(inputs: seq<Entry>): seq<string> {
    if inputs == [] then []
    else
      var last := inputs[|inputs| - 1];
      EnvLines(inputs[..|inputs| - 1]) +
      (if Omitted(last.val) then [] else [Upper(last.key) + "=" + EnvText(last.val)])
  }

  /** `_build_environment`. */
  method BuildEnvironment(inputs: seq<Entry>, settings: GlobalSettings) returns (env: seq<string>)
    ensures env == GlobalEnv(settings) + EnvLines(inputs)
  {
    env := [];
    env := env + ["PUID=" + IntToString(settings.puid)];
    env := env + ["PGID=" + IntToString(settings.pgid)];
    env := env + ["TZ=" + settings.timezone];
    for i := 0 to |inputs|
      invariant env == GlobalEnv(settings) + EnvLines(inputs[..i])
    {
      var key, value := inputs[i].key, inputs[i].val;
      assert inputs[..i + 1][..i] == inputs[..i];
      if value.Bool? {
        env := env + [Upper(key) + "=" + (if value.b then "true" else "false")];
      } else if value != Null && value != Str("") {
        env := env + [Upper(key) + "=" + Display(value)];
      }
    }
    assert inputs[..|inputs|] == inputs;
  }

  /** Environment lines follow the inputs' order: the lines of a concatenation are the
      concatenation of the lines. */
  lemma {:induction false} EnvLinesConcat(a: seq<Entry>, b: seq<Entry>)
    ensures EnvLines(a + b) == EnvLines(a) + EnvLines(b)
    decreases |b|
  {
    if b != [] {
      var b' := b[..|b| - 1];
      assert (a + b)[..|a + b| - 1] == a + b';
      EnvLinesConcat(a, b');
    } else {
      assert a + b == a;
    }
  }

  /** At most one line per input. */
  lemma {:induction false} EnvLinesCount(inputs: seq<Entry>)
    ensures |EnvLines(inputs)| <= |inputs|
    decreases |inputs|
  {
    if inputs != [] {
      EnvLinesCount(inputs[..|inputs| - 1]);
    }
  }

  /** When no input is `None` or `""`, there is exactly one line per input, in order, so
      `False` and `0` are kept. */
  lemma {:induction false} EnvLinesAllKept(inputs: seq<Entry>)
    requires forall i :: 0 <= i < |inputs| ==> !Omitted(inputs[i].val)
    ensures |EnvLines(inputs)| == |inputs|
    ensures forall i :: 0 <= i < |inputs| ==>
              EnvLines(inputs)[i] == Upper(inputs[i].key) + "=" + EnvText(inputs[i].val)
    decreases |inputs|
  {
    if inputs != [] {
      var init, last := inputs[..|inputs| - 1], inputs[|inputs| - 1];
      assert forall i :: 0 <= i < |init| ==> !Omitted(init[i].val) by {
        assert forall i :: 0 <= i < |init| ==> init[i] == inputs[i];
      }
      EnvLinesAllKept(init);
      assert !Omitted(last.val);
      var lines := EnvLines(inputs);
      assert lines == EnvLines(init) + [Upper(last.key) + "=" + EnvText(last.val)];
      forall i | 0 <= i < |inputs|
        ensures lines[i] == Upper(inputs[i].key) + "=" + EnvText(inputs[i].val)
      {
        if i < |init| {
          assert inputs[i] == init[i];
        }
      }
    }
  }

  /** Every line is `KEY=...` for the upper-cased key of some input. */
  lemma {:induction false} EnvLinesKeyed(inputs: seq<Entry>)
    ensures forall line :: line in EnvLines(inputs) ==>
              exists i :: 0 <= i < |inputs| && StartsWith(line, Upper(inputs[i].key) + "=")
    decreases |inputs|
  {
    if inputs != [] {
      var init := inputs[..|inputs| - 1];
      EnvLinesKeyed(init);
      var last := inputs[|inputs| - 1];
      forall line | line in EnvLines(inputs)
        ensures exists i :: 0 <= i < |inputs| && StartsWith(line, Upper(inputs[i].key) + "=")
      {
        if line in EnvLines(init) {
          var i :| 0 <= i < |init| && StartsWith(line, Upper(init[i].key) + "=");
          assert inputs[i] == init[i];
        } else {
          var p := Upper(last.key) + "=";
          assert line == p + EnvText(last.val);
          assert line[..|p|] == p;
          assert StartsWith(line, Upper(inputs[|inputs| - 1].key) + "=");
        }
      }
    }
  }

  /** A boolean input is kept as `true`/`false`; `None` and `""` give no line. */
  lemma EnvLineOfScalar(key: string, v: Value)
    ensures v.Bool? ==> EnvLines([Entry(key, v)]) == [Upper(key) + "=" + (if v.b then "true" else "false")]
    ensures v == Null || v == Str("") ==> EnvLines([Entry(key, v)]) == []
    ensures v.Int? ==> EnvLines([Entry(key, v)]) == [Upper(key) + "=" + IntToString(v.i)]
  {
    assert [Entry(key, v)][..0] == [];
  }

  /** One `host:container:mode` line per dict item with a truthy host and container path. */
  function VolumeLines(items: seq<Value>): seq<string> {
    if items == [] then []
    else
      var vol := items[|items| - 1];
      VolumeLines(items[..|items| - 1]) +
      (if vol.Obj? && Truthy(GetOr(vol.fields, "host_path", Null))
          && Truthy(GetOr(vol.fields, "container_path", Null))
       then [Display(GetOr(vol.fields, "host_path", Null)) + ":" +
             Display(GetOr(vol.fields, "container_path", Null)) + ":" +
             Display(GetOr(vol.fields, "mode", Str("rw")))]
       else [])
  }

  /** The user's volume lines: only a list under `volumes` contributes. */
  function UserVolumes(inputs: seq<Entry>): seq<string> {
    match Get(inputs, "volumes")
    case Some(List(items)) => VolumeLines(items)
    case _ => []
  }

  /** `_build_volumes`. */
  method BuildVolumes(inputs: seq<Entry>) returns (volumes: seq<string>)
    ensures volumes == ["./config:/config"] + UserVolumes(inputs)
  {
    volumes := ["./config:/config"];
    var given := Get(inputs, "volumes");
    if given.Some? && given.value.List? {
      var items := given.value.items;
      for i := 0 to |items|
        invariant volumes == ["./config:/config"] + VolumeLines(items[..i])
      {
        assert items[..i + 1][..i] == items[..i];
        var vol := items[i];
        if vol.Obj? {
          var host := GetOr(vol.fields, "host_path", Null);
          var container := GetOr(vol.fields, "container_path", Null);
          var mode := GetOr(vol.fields, "mode", Str("rw"));
          if Truthy(host) && Truthy(container) {
            volumes := volumes + [Display(host) + ":" + Display(container) + ":" + Display(mode)];
          }
        }
      }
      assert items[..|items|] == items;
    }
  }

  /** The config volume always comes first; a `volumes` input that is not a list adds
      nothing; a list adds at most one line per item, and exactly one per dict item with
      a truthy host and container path (mode defaulting to `rw`). */
  lemma {:induction false} VolumeLinesShape(items: seq<Value>)
    ensures |VolumeLines(items)| <= |items|
    ensures (forall i :: 0 <= i < |items| ==>
               items[i].Obj? && Truthy(GetOr(items[i].fields, "host_path", Null))
               && Truthy(GetOr(items[i].fields, "container_path", Null))) ==>
            |VolumeLines(items)| == |items|
    ensures (forall i :: 0 <= i < |items| ==> !items[i].Obj?) ==> VolumeLines(items) == []
    decreases |items|
  {
    if items != [] {
      VolumeLinesShape(items[..|items| - 1]);
    }
  }

  /** A `volumes` input that is absent or not a list leaves only the config volume. */
  lemma NonListVolumesIgnored(inputs: seq<Entry>)
    requires Get(inputs, "volumes").None? || !Get(inputs, "volumes").value.List?
    ensures UserVolumes(inputs) == []
  {
  }

  /** `_build_ports`: at most one short-form mapping, chosen by key presence alone. */
  function BuildPorts(inputs: seq<Entry>): (ports: seq<string>)
    ensures |ports| <= 1
    ensures Has(inputs, "host_port") && Has(inputs, "container_port") ==>
              ports == [Display(Get(inputs, "host_port").value) + ":" +
                        Display(Get(inputs, "container_port").value)]
    ensures !(Has(inputs, "host_port") && Has(inputs, "container_port")) && Has(inputs, "port") ==>
              ports == [Display(Get(inputs, "port").value) + ":" + Display(Get(inputs, "port").value)]
    ensures ports == [] <==>
              !(Has(inputs, "host_port") && Has(inputs, "container_port")) && !Has(inputs, "port")
  {
    if Has(inputs, "host_port") && Has(inputs, "container_port") then
      [Display(GetOr(inputs, "host_port", Null)) + ":" + Display(GetOr(inputs, "container_port", Null))]
    else if Has(inputs, "port") then
      var port := GetOr(inputs, "port", Null);
      [Display(port) + ":" + Display(port)]
    else []
  }

  /** The settings the generator uses: the stored row, or a new row's defaults. */
  function SettingsOf(stored: Option<GlobalSettings>): GlobalSettings {
    match stored
    case Some(s) => s
    case None => DefaultSettings
  }

  /** The image: the `image` input if present, else `<blueprint>:latest`. */
  function ImageOf(bp: Blueprint, inputs: seq<Entry>): Value {
    GetOr(inputs, "image", Str(bp.name + ":latest"))
  }

  /** The container name: the `container_name` input if present, else the blueprint name. */
  function ContainerNameOf(bp: Blueprint, inputs: seq<Entry>): Value {
    GetOr(inputs, "container_name", Str(bp.name))
  }

  /** The inputs `generate` accepts for the blueprint: a dict whose image and container
      name (given or defaulted) are strings. */
  predicate Generable(bp: Blueprint, inputs: Value) {
    inputs.Obj? && ImageOf(bp, inputs.fields).Str? && ContainerNameOf(bp, inputs.fields).Str?
  }

  /** The service record's fields that reject their value: `image` and `container_name`
      must be strings. */
  function InvalidServiceFields(bp: Blueprint, inputs: seq<Entry>): (fs: seq<string>)
    ensures fs == [] <==> ImageOf(bp, inputs).Str? && ContainerNameOf(bp, inputs).Str?
    ensures |fs| <= 2
  {
    (if ImageOf(bp, inputs).Str? then [] else ["image"]) +
    (if ContainerNameOf(bp, inputs).Str? then [] else ["container_name"])
  }

  /** What `generate` raises on inputs it does not accept: a non-dict input set fails
      reading its items, naming its Python type; otherwise the service record's validation
      error counts and names the fields that are not strings. */
  function GenerateError(bp: Blueprint, inputs: Value): string {
    if !inputs.Obj? then "'" + TypeName(inputs) + "' object has no attribute 'items'"
    else
      var bad := InvalidServiceFields(bp, inputs.fields);
      IntToString(|bad|) + (if |bad| == 1 then " validation error" else " validation errors") +
      " for ComposeService\n" + Join("\n", bad)
  }

  /** The compose file `generate` builds from accepted inputs and the settings. */
  function ComposeFileOf(bp: Blueprint, inputs: seq<Entry>, settings: GlobalSettings): ComposeFile
    requires ImageOf(bp, inputs).Str? && ContainerNameOf(bp, inputs).Str?
  {
    var name := ContainerNameOf(bp, inputs).s;
    ComposeFile("3.9",
                map[name := ComposeService(
                  ImageOf(bp, inputs).s, name, "unless-stopped",
                  GlobalEnv(settings) + EnvLines(inputs),
                  ["./config:/config"] + UserVolumes(inputs),
                  BuildPorts(inputs),
                  [settings.networkName])],
                [Entry(settings.networkName, Obj([Entry("external", Bool(true))]))])
  }

  /** `generate`: one service keyed by its container name, attached to the global network,
      which the file declares external. The service record rejects a non-string image or
      container name, and a non-dict input set fails while building the environment. */
  method Generate(bp: Blueprint, inputs: Value, stored: Option<GlobalSettings>)
    returns (r: Result<ComposeFile>)
    ensures r.Ok? <==> Generable(bp, inputs)
    ensures r.Raised? ==> r.error == GenerateError(bp, inputs)
    ensures r.Ok? ==> r.value == ComposeFileOf(bp, inputs.fields, SettingsOf(stored))
    ensures r.Ok? ==>
      var settings := SettingsOf(stored);
      var name := ContainerNameOf(bp, inputs.fields).s;
      && r.value.version == "3.9"
      && r.value.services.Keys == {name}
      && r.value.services[name] == ComposeService(
           ImageOf(bp, inputs.fields).s, name, "unless-stopped",
           GlobalEnv(settings) + EnvLines(inputs.fields),
           ["./config:/config"] + UserVolumes(inputs.fields),
           BuildPorts(inputs.fields),
           [settings.networkName])
      && r.value.networks == [Entry(settings.networkName, Obj([Entry("external", Bool(true))]))]
  {
    var settings := SettingsOf(stored);
    if !inputs.Obj? {
      return Raised("'" + TypeName(inputs) + "' object has no attribute 'items'");
    }
    var environment := BuildEnvironment(inputs.fields, settings);
    var volumes := BuildVolumes(inputs.fields);
    var ports := BuildPorts(inputs.fields);
    var containerName := ContainerNameOf(bp, inputs.fields);
    var image := ImageOf(bp, inputs.fields);
    if !image.Str? || !containerName.Str? {
      return Raised(GenerateError(bp, inputs));
    }
    var service := ComposeService(image.s, containerName.s, "unless-stopped",
                                  environment, volumes, ports, [settings.networkName]);
    r := Ok(ComposeFile("3.9", map[containerName.s := service],
                        [Entry(settings.networkName, Obj([Entry("external", Bool(true))]))]));
  }

  /** Without `image` and `container_name` inputs the service is `<name>:latest`, named
      after the blueprint, and generation succeeds for any dict of inputs. */
  lemma DefaultImageAndName(bp: Blueprint, inputs: seq<Entry>)
    requires !Has(inputs, "image") && !Has(inputs, "container_name")
    ensures ImageOf(bp, inputs) == Str(bp.name + ":latest")
    ensures ContainerNameOf(bp, inputs) == Str(bp.name)
  {
  }
}

=== FILE: compose_transforms.dfy ===
/** The compose transform registry (utils/compose_transforms.py). Each transform
    turns one user input into long-form compose fragments by updating the service
    dict `result` in place, and some also write the shared `transform_cache`.
    The `docker network inspect/create` calls are an oracle `created`: it answers
    whether the network exists or was created without error. */
module ComposeTransforms {
  import opened Text
  import opened Values

  /** A Python dict that the transforms update in place. */
  class Mapping {
    var entries: seq<Entry>

    constructor (entries: seq<Entry>)
      ensures this.entries == entries
    {
      this.entries := entries;
    }
  }

  /** The service dict and the cache after a transform. */
  datatype Outcome = Outcome(result: seq<Entry>, cache: seq<Entry>)

  predicate ListOrAbsent(fs: seq<Entry>, k: string) {
    Get(fs, k).None? || Get(fs, k).value.List?
  }

  predicate ObjOrAbsent(fs: seq<Entry>, k: string) {
    Get(fs, k).None? || Get(fs, k).value.Obj?
  }

  /** What the transforms rely on in a service dict: `ports` and `volumes` are lists and
      `networks` is a dict wherever they exist (otherwise the Python code fails on
      `append` or item assignment). */
  predicate ServiceShaped(result: seq<Entry>) {
    ListOrAbsent(result, "ports") && ListOrAbsent(result, "volumes") && ObjOrAbsent(result, "networks")
  }

  /** What the transforms rely on in the cache: `custom_networks` is a list if present. */
  predicate CacheShaped(cache: seq<Entry>) {
    ListOrAbsent(cache, "custom_networks")
  }

  /** `d[k] = d.get(k, [])` followed by `d[k].append(x)` for each `x` in `xs`. */
  function Appended(fs: seq<Entry>, k: string, xs: seq<Value>): (r: seq<Entry>)
    ensures Get(r, k) == Some(List(ListAt(fs, k) + xs))
    ensures forall k' :: k' != k ==> Get(r, k') == Get(fs, k')
    ensures Keys(r) == if k in Keys(fs) then Keys(fs) else Keys(fs) + [k]
  {
    Set(fs, k, List(ListAt(fs, k) + xs))
  }

  /** Appending in two steps is appending the concatenation. */
  lemma AppendedTwice(fs: seq<Entry>, k: string, xs: seq<Value>, ys: seq<Value>)
    ensures Appended(Appended(fs, k, xs), k, ys) == Appended(fs, k, xs + ys)
  {
    var cur := ListAt(fs, k);
    var a, b := List(cur + xs), List(cur + (xs + ys));
    var once := Set(fs, k, a);
    assert Get(once, k) == Some(a);
    assert ListAt(once, k) + ys == b.items;
    SetSet(fs, k, a, b);
  }

  /** `if k not in d: d[k] = []`. */
  method EnsureList(m: Mapping, k: string)
    requires ListOrAbsent(m.entries, k)
    modifies m
    ensures m.entries == Appended(old(m.entries), k, [])
  {
    if !Has(m.entries, k) {
      assert ListAt(m.entries, k) + [] == [];
      m.entries := Set(m.entries, k, List([]));
    } else {
      var v := Get(m.entries, k).value;
      assert ListAt(m.entries, k) + [] == v.items;
      assert List(v.items) == v;
      SetSame(m.entries, k, v);
    }
  }

  /** `if k not in d: d[k] = {}`. */
  method EnsureObj(m: Mapping, k: string)
    requires ObjOrAbsent(m.entries, k)
    modifies m
    ensures m.entries == Set(old(m.entries), k, Obj(ObjAt(old(m.entries), k)))
  {
    if !Has(m.entries, k) {
      m.entries := Set(m.entries, k, Obj([]));
    } else {
      SetSame(m.entries, k, Get(m.entries, k).value);
    }
  }

  // ---------------------------------------------------------------- ports

  /** A long-form port entry. */
  function PortEntry(published: Value, target: Value, protocol: Value): Value {
    Obj([Entry("published", published), Entry("target", target), Entry("protocol", protocol)])
  }

  /** The three keys of a port entry read back what was put in. */
  lemma PortEntryFields(published: Value, target: Value, protocol: Value)
    ensures var e := PortEntry(published, target, protocol);
      && Get(e.fields, "published") == Some(published)
      && Get(e.fields, "target") == Some(target)
      && Get(e.fields, "protocol") == Some(protocol)
  {
    var fields := PortEntry(published, target, protocol).fields;
    GetFirst(fields, 0);
    GetFirst(fields, 1);
    GetFirst(fields, 2);
  }

  /** A dict holding both `host` and `container`. */
  predicate IsCompoundPort(v: Value) {
    v.Obj? && Has(v.fields, "host") && Has(v.fields, "container")
  }

  /** The entry for a compound port input; the protocol defaults to `tcp`. */
  function CompoundPort(v: Value): Value
    requires IsCompoundPort(v)
  {
    PortEntry(Get(v.fields, "host").value, Get(v.fields, "container").value,
              GetOr(v.fields, "protocol", Str("tcp")))
  }

  /** The legacy path fires when the app's raw `host_port` and `container_port` are both truthy. */
  predicate LegacyPortsGiven(rawInputs: seq<Entry>) {
    Truthy(GetOr(rawInputs, "host_port", Null)) && Truthy(GetOr(rawInputs, "container_port", Null))
  }

  /** The effect of `transform_port_mapping`. `rawInputs` is the app's raw input dict. */
  function PortMappingOutcome(result: seq<Entry>, cache: seq<Entry>, userValue: Value,
                              rawInputs: seq<Entry>): (o: Outcome)
    ensures IsCompoundPort(userValue) ==>
              && Get(o.result, "ports") == Some(List(ListAt(result, "ports") + [CompoundPort(userValue)]))
              && (forall k :: k != "ports" ==> Get(o.result, k) == Get(result, k))
              && o.cache == cache
    ensures !IsCompoundPort(userValue) && !Has(cache, "port_mapping") && LegacyPortsGiven(rawInputs) ==>
              && Get(o.result, "ports") == Some(List(ListAt(result, "ports") +
                   [PortEntry(GetOr(rawInputs, "host_port", Null), GetOr(rawInputs, "container_port", Null),
                              Str("tcp"))]))
              && (forall k :: k != "ports" ==> Get(o.result, k) == Get(result, k))
              && Get(o.cache, "port_mapping") == Some(Bool(true))
              && (forall k :: k != "port_mapping" ==> Get(o.cache, k) == Get(cache, k))
    ensures !IsCompoundPort(userValue) && (Has(cache, "port_mapping") || !LegacyPortsGiven(rawInputs)) ==>
              o == Outcome(result, cache)
  {
    if IsCompoundPort(userValue) then
      Outcome(Appended(result, "ports", [CompoundPort(userValue)]), cache)
    else if !Has(cache, "port_mapping") && LegacyPortsGiven(rawInputs) then
      var entry := PortEntry(GetOr(rawInputs, "host_port", Null), GetOr(rawInputs, "container_port", Null),
                             Str("tcp"));
      Outcome(Appended(result, "ports", [entry]), Set(cache, "port_mapping", Bool(true)))
    else
      Outcome(result, cache)
  }

  /** `transform_port_mapping`. */
  method TransformPortMapping(userValue: Value, rawInputs: seq<Entry>, result: Mapping, cache: Mapping)
    requires result != cache
    requires ListOrAbsent(result.entries, "ports")
    modifies result, cache
    ensures Outcome(result.entries, cache.entries) ==
            PortMappingOutcome(old(result.entries), old(cache.entries), userValue, rawInputs)
  {
    ghost var r0, c0 := result.entries, cache.entries;
    if userValue.Obj? && Has(userValue.fields, "host") && Has(userValue.fields, "container") {
      EnsureList(result, "ports");
      var portDict := PortEntry(GetOr(userValue.fields, "host", Null), GetOr(userValue.fields, "container", Null),
                                GetOr(userValue.fields, "protocol", Str("tcp")));
      assert portDict == CompoundPort(userValue);
      AppendedTwice(r0, "ports", [], [portDict]);
      assert [] + [portDict] == [portDict];
      result.entries := Appended(result.entries, "ports", [portDict]);
      assert PortMappingOutcome(r0, c0, userValue, rawInputs) == Outcome(result.entries, c0);
    } else if !Has(cache.entries, "port_mapping") {
      var hostPort := GetOr(rawInputs, "host_port", Null);
      var containerPort := GetOr(rawInputs, "container_port", Null);
      if Truthy(hostPort) && Truthy(containerPort) {
        EnsureList(result, "ports");
        var portDict := PortEntry(hostPort, containerPort, Str("tcp"));
        AppendedTwice(r0, "ports", [], [portDict]);
        assert [] + [portDict] == [portDict];
        result.entries := Appended(result.entries, "ports", [portDict]);
        cache.entries := Set(cache.entries, "port_mapping", Bool(true));
        assert PortMappingOutcome(r0, c0, userValue, rawInputs) == Outcome(result.entries, cache.entries);
      }
    }
  }

  /** The legacy path runs at most once per cache: after it has fired, any later
      non-compound call changes nothing, whatever the raw inputs then say. */
  lemma LegacyPortMappingAtMostOnce(result: seq<Entry>, cache: seq<Entry>, first: Value, second: Value,
                                    raw1: seq<Entry>, raw2: seq<Entry>)
    requires !IsCompoundPort(first) && !IsCompoundPort(second)
    requires !Has(cache, "port_mapping") && LegacyPortsGiven(raw1)
    ensures var o := PortMappingOutcome(result, cache, first, raw1);
            PortMappingOutcome(o.result, o.cache, second, raw2) == o
  {
  }

  /** Whether `port_array` keeps an item: a compound item with a truthy host and container. */
  predicate PortKept(item: Value) {
    IsCompoundPort(item) && Truthy(Get(item.fields, "host").value) && Truthy(Get(item.fields, "container").value)
  }

  /** The entry a `port_array` item contributes: compound items with a truthy host and container. */
  function PortItem(item: Value): seq<Value> {
    if PortKept(item) then [CompoundPort(item)]
    else []
  }

  /** The entries `port_array` appends, in input order. */
  function PortArrayEntries(items: seq<Value>): seq<Value> {
    if items == [] then [] else PortArrayEntries(items[..|items| - 1]) + PortItem(items[|items| - 1])
  }

  /** The effect of `transform_port_array` (it never writes the cache). */
  function PortArrayOutcome(result: seq<Entry>, userValue: Value): (r: seq<Entry>)
    ensures !userValue.List? ==> r == result
    ensures userValue.List? ==>
              && Get(r, "ports") == Some(List(ListAt(result, "ports") + PortArrayEntries(userValue.items)))
              && forall k :: k != "ports" ==> Get(r, k) == Get(result, k)
  {
    if userValue.List? then Appended(result, "ports", PortArrayEntries(userValue.items)) else result
  }

  /** One more item of the input adds that item's entry after the entries so far. */
  lemma PortArraySnoc(items: seq<Value>, i: nat)
    requires i < |items|
    ensures PortArrayEntries(items[..i + 1]) == PortArrayEntries(items[..i]) + PortItem(items[i])
  {
    assert items[..i + 1][..i] == items[..i];
  }

  /** `transform_port_array`. */
  method TransformPortArray(userValue: Value, result: Mapping)
    requires ListOrAbsent(result.entries, "ports")
    modifies result
    ensures result.entries == PortArrayOutcome(old(result.entries), userValue)
  {
    if !userValue.List? {
      return;
    }
    ghost var r0 := result.entries;
    EnsureList(result, "ports");
    var items := userValue.items;
    for i := 0 to |items|
      invariant result.entries == Appended(r0, "ports", PortArrayEntries(items[..i]))
    {
      PortArraySnoc(items, i);
      var portItem := items[i];
      if portItem.Obj? && Has(portItem.fields, "host") && Has(portItem.fields, "container") {
        var host := GetOr(portItem.fields, "host", Null);
        var container := GetOr(portItem.fields, "container", Null);
        if !Truthy(host) || !Truthy(container) || host == Str("") || container == Str("") {
          assert PortItem(portItem) == [];
          assert PortArrayEntries(items[..i + 1]) == PortArrayEntries(items[..i]);
          continue;
        }
        var portDict := PortEntry(host, container, GetOr(portItem.fields, "protocol", Str("tcp")));
        assert PortItem(portItem) == [portDict];
        AppendedTwice(r0, "ports", PortArrayEntries(items[..i]), [portDict]);
        result.entries := Appended(result.entries, "ports", [portDict]);
      } else {
        assert PortItem(portItem) == [];
        assert PortArrayEntries(items[..i + 1]) == PortArrayEntries(items[..i]);
      }
    }
    assert items[..|items|] == items;
  }

  /** The entries of a concatenation are the concatenated entries: order is kept. */
  lemma {:induction false} PortArrayEntriesConcat(a: seq<Value>, b: seq<Value>)
    ensures PortArrayEntries(a + b) == PortArrayEntries(a) + PortArrayEntries(b)
    decreases |b|
  {
    if b == [] {
      assert a + b == a;
    } else {
      assert (a + b)[..|a + b| - 1] == a + b[..|b| - 1];
      PortArrayEntriesConcat(a, b[..|b| - 1]);
    }
  }

  /** Every appended entry has a truthy published and target port, and there is at most
      one entry per item. */
  lemma {:induction false} PortArrayEntriesShape(items: seq<Value>)
    ensures |PortArrayEntries(items)| <= |items|
    ensures forall e :: e in PortArrayEntries(items) ==>
              e.Obj? && Truthy(GetOr(e.fields, "published", Null)) && Truthy(GetOr(e.fields, "target", Null))
    decreases |items|
  {
    if items != [] {
      PortArrayEntriesShape(items[..|items| - 1]);
      var last := items[|items| - 1];
      if PortItem(last) != [] {
        var c := CompoundPort(last);
        PortEntryFields(c.fields[0].val, c.fields[1].val, c.fields[2].val);
      }
    }
  }

  /** When every item is kept, the entries are exactly the compound entries of the items,
      one per item and in order. */
  lemma {:induction false} PortArrayEntriesAllKept(items: seq<Value>)
    requires forall i :: 0 <= i < |items| ==> IsCompoundPort(items[i]) && PortKept(items[i])
    ensures |PortArrayEntries(items)| == |items|
    ensures forall i :: 0 <= i < |items| ==> PortArrayEntries(items)[i] == CompoundPort(items[i])
    decreases |items|
  {
    if items != [] {
      var init := items[..|items| - 1];
      assert forall i :: 0 <= i < |init| ==> init[i] == items[i];
      PortArrayEntriesAllKept(init);
      var last := items[|items| - 1];
      assert PortItem(last) == [CompoundPort(last)];
      assert PortArrayEntries(items) == PortArrayEntries(init) + [CompoundPort(last)];
    }
  }

  /** `port_mapping` keeps a compound input with an empty host that `port_array` skips. */
  lemma PortMappingKeepsWhatPortArraySkips(result: seq<Entry>, cache: seq<Entry>, container: Value)
    ensures var item := Obj([Entry("host", Str("")), Entry("container", container)]);
            && PortArrayEntries([item]) == []
            && ListAt(PortMappingOutcome(result, cache, item, []).result, "ports") ==
               ListAt(result, "ports") + [PortEntry(Str(""), container, Str("tcp"))]
  {
    var item := Obj([Entry("host", Str("")), Entry("container", container)]);
    assert [item][..0] == [];
    GetFirst(item.fields, 0);
    GetFirst(item.fields, 1);
    GetMissing(item.fields, "protocol");
    assert CompoundPort(item) == PortEntry(Str(""), container, Str("tcp"));
  }

  // -------------------------------------------------------------- volumes

  /** The `bind` options of a volume input: a truthy propagation, and a
      `create_host_path` that is present and not None (so `False` is kept). */
  function BindOptions(fields: seq<Entry>): seq<Entry> {
    (if Truthy(GetOr(fields, "bind_propagation", Null))
     then [Entry("propagation", GetOr(fields, "bind_propagation", Null))] else []) +
    (if GetOr(fields, "bind_create_host_path", Null) != Null
     then [Entry("create_host_path", GetOr(fields, "bind_create_host_path", Null))] else [])
  }

  /** A long-form volume entry built from a volume input dict and its (possibly rewritten) source. */
  function VolumeEntry(fields: seq<Entry>, source: Value): Value {
    var volumeType := GetOr(fields, "type", Str("bind"));
    var readOnly := if Truthy(GetOr(fields, "read_only", Null)) then [Entry("read_only", Bool(true))] else [];
    var options := BindOptions(fields);
    var bind := if volumeType == Str("bind") && options != [] then [Entry("bind", Obj(options))] else [];
    Obj([Entry("type", volumeType), Entry("source", source), Entry("target", GetOr(fields, "target", Null))]
        + readOnly + bind)
  }

  /** The entry starts with `type`, `source` and `target`: the type defaults to `bind`,
      the source is the one given and the target is the input's. */
  lemma VolumeEntryBase(fields: seq<Entry>, source: Value)
    ensures var v := VolumeEntry(fields, source);
      && v.Obj? && |v.fields| >= 3 && Keys(v.fields)[..3] == ["type", "source", "target"]
      && Get(v.fields, "type") == Some(GetOr(fields, "type", Str("bind")))
      && Get(v.fields, "source") == Some(source)
      && Get(v.fields, "target") == Some(GetOr(fields, "target", Null))
  {
    var v := VolumeEntry(fields, source);
    var base := v.fields[..3];
    assert v.fields == base + v.fields[3..];
    GetFirst(base, 0);
    GetFirst(base, 1);
    GetFirst(base, 2);
    GetAppend(base, v.fields[3..], "type");
    GetAppend(base, v.fields[3..], "source");
    GetAppend(base, v.fields[3..], "target");
  }

  /** `read_only: True` is present exactly when the input's `read_only` is truthy; a `bind`
      sub-dict is present exactly for bind volumes with a truthy propagation or a
      `create_host_path` that is not None, and then keeps that value even when it is False. */
  lemma VolumeEntryOptions(fields: seq<Entry>, source: Value)
    ensures var v := VolumeEntry(fields, source);
      && v.Obj?
      && Get(v.fields, "read_only") ==
           (if Truthy(GetOr(fields, "read_only", Null)) then Some(Bool(true)) else None)
      && (Has(v.fields, "bind") <==>
           GetOr(fields, "type", Str("bind")) == Str("bind") &&
           (Truthy(GetOr(fields, "bind_propagation", Null)) ||
            GetOr(fields, "bind_create_host_path", Null) != Null))
      && (Has(v.fields, "bind") ==>
           Get(v.fields, "bind") == Some(Obj(BindOptions(fields))) &&
           Get(BindOptions(fields), "create_host_path") ==
             if GetOr(fields, "bind_create_host_path", Null) != Null
             then Some(GetOr(fields, "bind_create_host_path", Null)) else None)
  {
    var volumeType := GetOr(fields, "type", Str("bind"));
    var base := [Entry("type", volumeType), Entry("source", source), Entry("target", GetOr(fields, "target", Null))];
    var readOnly := if Truthy(GetOr(fields, "read_only", Null)) then [Entry("read_only", Bool(true))] else [];
    var options := BindOptions(fields);
    var bind := if volumeType == Str("bind") && options != [] then [Entry("bind", Obj(options))] else [];
    var v := VolumeEntry(fields, source);
    assert v.fields == base + (readOnly + bind);
    GetMissing(base, "read_only");
    GetMissing(base, "bind");
    GetAppend(base, readOnly + bind, "read_only");
    GetAppend(base, readOnly + bind, "bind");
    GetAppend(readOnly, bind, "read_only");
    GetAppend(readOnly, bind, "bind");
    BindOptionsSpec(fields);
  }

  /** The bind options are present exactly when a propagation or a host-path flag is
      given, and the host-path flag is kept as given. */
  lemma BindOptionsSpec(fields: seq<Entry>)
    ensures BindOptions(fields) != [] <==>
              Truthy(GetOr(fields, "bind_propagation", Null)) || GetOr(fields, "bind_create_host_path", Null) != Null
    ensures Get(BindOptions(fields), "create_host_path") ==
              if GetOr(fields, "bind_create_host_path", Null) != Null
              then Some(GetOr(fields, "bind_create_host_path", Null)) else None
  {
    var options := BindOptions(fields);
    var propagation := if Truthy(GetOr(fields, "bind_propagation", Null))
                       then [Entry("propagation", GetOr(fields, "bind_propagation", Null))] else [];
    assert options == propagation + options[|propagation|..];
    GetAppend(propagation, options[|propagation|..], "create_host_path");
  }

  /** A dict holding both `source` and `target`. */
  predicate IsCompoundVolume(v: Value) {
    v.Obj? && Has(v.fields, "source") && Has(v.fields, "target")
  }

  /** The legacy entry for a plain-string volume input. */
  function LegacyVolume(source: string, fieldSchema: seq<Entry>): Value {
    Obj([Entry("type", Str("bind")), Entry("source", Str(source)),
         Entry("target", GetOr(fieldSchema, "volume_target", Str("/data"))), Entry("read_only", Bool(false))])
  }

  /** The effect of `transform_volume_mapping` (it never writes the cache). */
  function VolumeMappingOutcome(result: seq<Entry>, userValue: Value, fieldSchema: seq<Entry>): (r: seq<Entry>)
    ensures IsCompoundVolume(userValue) ==>
              Get(r, "volumes") == Some(List(ListAt(result, "volumes") +
                                        [VolumeEntry(userValue.fields, Get(userValue.fields, "source").value)]))
    ensures !IsCompoundVolume(userValue) && userValue.Str? ==>
              Get(r, "volumes") == Some(List(ListAt(result, "volumes") + [LegacyVolume(userValue.s, fieldSchema)]))
    ensures !IsCompoundVolume(userValue) && !userValue.Str? ==> r == result
    ensures forall k :: k != "volumes" ==> Get(r, k) == Get(result, k)
  {
    if IsCompoundVolume(userValue) then
      Appended(result, "volumes", [VolumeEntry(userValue.fields, Get(userValue.fields, "source").value)])
    else if userValue.Str? then
      Appended(result, "volumes", [LegacyVolume(userValue.s, fieldSchema)])
    else
      result
  }

  /** `transform_volume_mapping`. */
  method TransformVolumeMapping(userValue: Value, fieldSchema: seq<Entry>, result: Mapping)
    requires ListOrAbsent(result.entries, "volumes")
    modifies result
    ensures result.entries == VolumeMappingOutcome(old(result.entries), userValue, fieldSchema)
  {
    ghost var r0 := result.entries;
    if userValue.Obj? && Has(userValue.fields, "source") && Has(userValue.fields, "target") {
      EnsureList(result, "volumes");
      var volumeDict := VolumeEntry(userValue.fields, GetOr(userValue.fields, "source", Null));
      AppendedTwice(r0, "volumes", [], [volumeDict]);
      assert [] + [volumeDict] == [volumeDict];
      result.entries := Appended(result.entries, "volumes", [volumeDict]);
    } else if userValue.Str? {
      var volumeTarget := GetOr(fieldSchema, "volume_target", Str("/data"));
      EnsureList(result, "volumes");
      var volumeDict := Obj([Entry("type", Str("bind")), Entry("source", userValue),
                             Entry("target", volumeTarget), Entry("read_only", Bool(false))]);
      AppendedTwice(r0, "volumes", [], [volumeDict]);
      assert [] + [volumeDict] == [volumeDict];
      result.entries := Appended(result.entries, "volumes", [volumeDict]);
    }
  }

  /** `"./x"` becomes `"${HOST_PATH}/x"`; any other source is kept. */
  function RewriteSource(source: string): string {
    if StartsWith(source, "./") then "${HOST_PATH}/" + source[2..] else source
  }

  /** A `volume_array` item that is kept: compound with a truthy source and target. */
  predicate VolumeItemKept(item: Value) {
    IsCompoundVolume(item) && Truthy(Get(item.fields, "source").value) && Truthy(Get(item.fields, "target").value)
  }

  /** The source of a kept bind item must be a string (`startswith` is called on it). */
  predicate VolumeItemTyped(item: Value) {
    VolumeItemKept(item) && GetOr(item.fields, "type", Str("bind")) == Str("bind") ==>
      Get(item.fields, "source").value.Str?
  }

  /** The source a kept item's entry carries. */
  function ArraySource(item: Value): Value
    requires VolumeItemKept(item) && VolumeItemTyped(item)
  {
    var source := Get(item.fields, "source").value;
    if GetOr(item.fields, "type", Str("bind")) == Str("bind") then Str(RewriteSource(source.s)) else source
  }

  /** The entry a `volume_array` item contributes. */
  function VolumeItem(item: Value): seq<Value>
    requires VolumeItemTyped(item)
  {
    if VolumeItemKept(item) then [VolumeEntry(item.fields, ArraySource(item))] else []
  }

  /** The entries `volume_array` appends, in input order. */
  function VolumeArrayEntries(items: seq<Value>): seq<Value>
    requires VolumeItemsTyped(items)
  {
    if items == [] then []
    else VolumeArrayEntries(items[..|items| - 1]) + VolumeItem(items[|items| - 1])
  }

  /** Every item satisfies `VolumeItemTyped`. */
  predicate VolumeItemsTyped(items: seq<Value>) {
    forall item | item in items :: VolumeItemTyped(item)
  }

  /** A `volume_array` input whose items all satisfy `VolumeItemTyped`. */
  predicate VolumeArrayTyped(userValue: Value) {
    userValue.List? ==> VolumeItemsTyped(userValue.items)
  }

  /** The effect of `transform_volume_array` (it never writes the cache). */
  function VolumeArrayOutcome(result: seq<Entry>, userValue: Value): (r: seq<Entry>)
    requires VolumeArrayTyped(userValue)
    ensures !userValue.List? ==> r == result
    ensures userValue.List? ==>
              && Get(r, "volumes") == Some(List(ListAt(result, "volumes") + VolumeArrayEntries(userValue.items)))
              && forall k :: k != "volumes" ==> Get(r, k) == Get(result, k)
  {
    if userValue.List? then Appended(result, "volumes", VolumeArrayEntries(userValue.items)) else result
  }

  /** One more item of the input adds that item's entry after the entries so far. */
  lemma VolumeArraySnoc(items: seq<Value>, i: nat)
    requires VolumeItemsTyped(items) && i < |items|
    ensures VolumeItemTyped(items[i]) && VolumeItemsTyped(items[..i]) && VolumeItemsTyped(items[..i + 1])
    ensures VolumeArrayEntries(items[..i + 1]) == VolumeArrayEntries(items[..i]) + VolumeItem(items[i])
  {
    assert items[i] in items;
    assert forall item | item in items[..i + 1] :: item in items;
    assert forall item | item in items[..i] :: item in items;
    assert items[..i + 1][..i] == items[..i];
  }

  /** `transform_volume_array`. */
  method TransformVolumeArray(userValue: Value, result: Mapping)
    requires VolumeArrayTyped(userValue)
    requires ListOrAbsent(result.entries, "volumes")
    modifies result
    ensures result.entries == VolumeArrayOutcome(old(result.entries), userValue)
  {
    if !userValue.List? {
      return;
    }
    ghost var r0 := result.entries;
    EnsureList(result, "volumes");
    var items := userValue.items;
    for i := 0 to |items|
      invariant result.entries == Appended(r0, "volumes", VolumeArrayEntries(items[..i]))
    {
      VolumeArraySnoc(items, i);
      var volumeItem := items[i];
      if volumeItem.Obj? && Has(volumeItem.fields, "source") && Has(volumeItem.fields, "target") {
        var source := GetOr(volumeItem.fields, "source", Null);
        var target := GetOr(volumeItem.fields, "target", Null);
        if !Truthy(source) || !Truthy(target) || source == Str("") || target == Str("") {
          assert VolumeItem(volumeItem) == [];
          assert VolumeArrayEntries(items[..i + 1]) == VolumeArrayEntries(items[..i]);
          continue;
        }
        var volumeType := GetOr(volumeItem.fields, "type", Str("bind"));
        assert VolumeItemKept(volumeItem) && VolumeItemTyped(volumeItem);
        if volumeType == Str("bind") && StartsWith(source.s, "./") {
          source := Str("${HOST_PATH}/" + source.s[2..]);
        }
        assert source == ArraySource(volumeItem);
        var volumeDict := VolumeEntry(volumeItem.fields, source);
        assert VolumeItem(volumeItem) == [volumeDict];
        AppendedTwice(r0, "volumes", VolumeArrayEntries(items[..i]), [volumeDict]);
        result.entries := Appended(result.entries, "volumes", [volumeDict]);
      } else {
        assert VolumeItem(volumeItem) == [];
        assert VolumeArrayEntries(items[..i + 1]) == VolumeArrayEntries(items[..i]);
      }
    }
    assert items[..|items|] == items;
  }

  /** The entries of a concatenation are the concatenated entries: order is kept. */
  lemma {:induction false} VolumeArrayEntriesConcat(a: seq<Value>, b: seq<Value>)
    requires VolumeItemsTyped(a) && VolumeItemsTyped(b)
    ensures VolumeItemsTyped(a + b)
    ensures VolumeArrayEntries(a + b) == VolumeArrayEntries(a) + VolumeArrayEntries(b)
    decreases |b|
  {
    if b == [] {
      assert a + b == a;
    } else {
      assert (a + b)[..|a + b| - 1] == a + b[..|b| - 1];
      VolumeArrayEntriesConcat(a, b[..|b| - 1]);
    }
  }

  /** Items with a falsy source or target are skipped; a kept item gives the very entry
      `volume_mapping` builds, except that a bind source starting with `./` is rewritten to
      start with `${HOST_PATH}/`; non-bind and other sources pass through unchanged. */
  lemma VolumeItemAgainstMapping(item: Value)
    requires VolumeItemTyped(item)
    ensures !VolumeItemKept(item) ==> VolumeItem(item) == []
    ensures VolumeItemKept(item) ==>
              var source := Get(item.fields, "source").value;
              var isBind := GetOr(item.fields, "type", Str("bind")) == Str("bind");
              && (isBind && StartsWith(source.s, "./") ==>
                    VolumeItem(item) == [VolumeEntry(item.fields, Str("${HOST_PATH}/" + source.s[2..]))])
              && (!(isBind && StartsWith(source.s, "./")) ==>
                    VolumeItem(item) == [VolumeEntry(item.fields, source)])
  {
  }

  /** One entry per kept item and none for the others. */
  lemma {:induction false} VolumeArrayEntriesCount(items: seq<Value>)
    requires VolumeItemsTyped(items)
    ensures |VolumeArrayEntries(items)| <= |items|
    ensures (forall i :: 0 <= i < |items| ==> !VolumeItemKept(items[i])) ==> VolumeArrayEntries(items) == []
    ensures (forall i :: 0 <= i < |items| ==> VolumeItemKept(items[i])) ==>
              |VolumeArrayEntries(items)| == |items|
    decreases |items|
  {
    if items != [] {
      var init := items[..|items| - 1];
      assert forall i :: 0 <= i < |init| ==> init[i] == items[i];
      VolumeArrayEntriesCount(init);
    }
  }

  // ------------------------------------------------------------- networks

  /** A truthy `network_name` must be a string: it becomes a key of the networks dict. */
  predicate NetworkNameTyped(v: Value) {
    v.Obj? && Truthy(GetOr(v.fields, "network_name", Null)) ==> GetOr(v.fields, "network_name", Null).Str?
  }

  /** The configuration `network_config` gives a network: its address if truthy, else `{}`. */
  function NetworkSettings(fields: seq<Entry>): Value {
    var ip := GetOr(fields, "ipv4_address", Null);
    if Truthy(ip) then Obj([Entry("ipv4_address", ip)]) else Obj([])
  }

  /** The effect of `transform_network_config` (it never writes the cache). */
  function NetworkConfigOutcome(result: seq<Entry>, userValue: Value): (r: seq<Entry>)
    requires NetworkNameTyped(userValue)
    ensures !userValue.Obj? || !Truthy(GetOr(userValue.fields, "network_name", Null)) ==> r == result
    ensures userValue.Obj? && Truthy(GetOr(userValue.fields, "network_name", Null)) ==>
              var name := GetOr(userValue.fields, "network_name", Null).s;
              && Get(r, "networks").Some? && Get(r, "networks").value.Obj?
              && Get(ObjAt(r, "networks"), name) == Some(NetworkSettings(userValue.fields))
              && (forall n :: n != name ==> Get(ObjAt(r, "networks"), n) == Get(ObjAt(result, "networks"), n))
    ensures forall k :: k != "networks" ==> Get(r, k) == Get(result, k)
  {
    if userValue.Obj? && Truthy(GetOr(userValue.fields, "network_name", Null)) then
      var name := GetOr(userValue.fields, "network_name", Null).s;
      Set(result, "networks", Obj(Set(ObjAt(result, "networks"), name, NetworkSettings(userValue.fields))))
    else
      result
  }

  /** `transform_network_config`. */
  method TransformNetworkConfig(userValue: Value, result: Mapping)
    requires NetworkNameTyped(userValue)
    requires ObjOrAbsent(result.entries, "networks")
    modifies result
    ensures result.entries == NetworkConfigOutcome(old(result.entries), userValue)
  {
    if !userValue.Obj? {
      return;
    }
    ghost var r0 := result.entries;
    var networkName := GetOr(userValue.fields, "network_name", Null);
    var ipv4Address := GetOr(userValue.fields, "ipv4_address", Null);
    if Truthy(networkName) {
      EnsureObj(result, "networks");
      var networks := ObjAt(result.entries, "networks");
      var settings := if Truthy(ipv4Address) then Obj([Entry("ipv4_address", ipv4Address)]) else Obj([]);
      SetSet(r0, "networks", Obj(ObjAt(r0, "networks")), Obj(Set(networks, networkName.s, settings)));
      result.entries := Set(result.entries, "networks", Obj(Set(networks, networkName.s, settings)));
    }
  }

  /** Every item satisfies `NetworkNameTyped`. */
  predicate NetworkItemsTyped(items: seq<Value>) {
    forall item | item in items :: NetworkNameTyped(item)
  }

  /** A `custom_networks_array` input whose items all satisfy `NetworkNameTyped`. */
  predicate CustomNetworksTyped(userValue: Value) {
    userValue.List? ==> NetworkItemsTyped(userValue.items)
  }

  /** The mode of a network item, `existing` by default. */
  function ModeOf(item: Value): Value
    requires item.Obj?
  {
    GetOr(item.fields, "mode", Str("existing"))
  }

  /** What a `custom_networks_array` item attaches: its name and mode, or nothing when
      it is not a dict with a truthy `network_name`, or when creating it failed. */
  function Attachment(item: Value, created: string -> bool): (a: seq<Entry>)
    requires NetworkNameTyped(item)
    ensures |a| <= 1
    ensures a != [] <==>
              item.Obj? && Truthy(GetOr(item.fields, "network_name", Null)) &&
              (ModeOf(item) != Str("create") || created(GetOr(item.fields, "network_name", Null).s))
    ensures a != [] ==> a[0] == Entry(GetOr(item.fields, "network_name", Null).s, ModeOf(item))
  {
    if !item.Obj? || !Has(item.fields, "network_name") then []
    else
      var name := Get(item.fields, "network_name").value;
      if !Truthy(name) then []
      else if ModeOf(item) == Str("create") && !created(name.s) then []
      else [Entry(name.s, ModeOf(item))]
  }

  /** The attachments of all items, in input order. */
  function Attachments(items: seq<Value>, created: string -> bool): seq<Entry>
    requires NetworkItemsTyped(items)
  {
    if items == [] then []
    else Attachments(items[..|items| - 1], created) + Attachment(items[|items| - 1], created)
  }

  /** The service networks after attaching each name with an empty configuration. */
  function AttachAll(networks: seq<Entry>, names: seq<string>): seq<Entry> {
    if names == [] then networks
    else Set(AttachAll(networks, names[..|names| - 1]), names[|names| - 1], Obj([]))
  }

  /** The record the cache keeps of an attachment. */
  function CacheRecord(a: Entry): Value {
    Obj([Entry("name", Str(a.key)), Entry("mode", a.val)])
  }

  function CacheRecords(atts: seq<Entry>): seq<Value> {
    seq(|atts|, i requires 0 <= i < |atts| => CacheRecord(atts[i]))
  }

  /** The effect of `transform_custom_networks_array`. */
  function CustomNetworksOutcome(result: seq<Entry>, cache: seq<Entry>, userValue: Value,
                                 created: string -> bool): (o: Outcome)
    requires CustomNetworksTyped(userValue)
    ensures !userValue.List? ==> o == Outcome(result, cache)
    ensures userValue.List? ==>
              var atts := Attachments(userValue.items, created);
              && Get(o.result, "networks") == Some(Obj(AttachAll(ObjAt(result, "networks"), Keys(atts))))
              && Get(o.cache, "custom_networks") ==
                 Some(List(ListAt(cache, "custom_networks") + CacheRecords(atts)))
              && (forall k :: k != "networks" ==> Get(o.result, k) == Get(result, k))
              && (forall k :: k != "custom_networks" ==> Get(o.cache, k) == Get(cache, k))
  {
    if userValue.List? then
      var atts := Attachments(userValue.items, created);
      Outcome(Set(result, "networks", Obj(AttachAll(ObjAt(result, "networks"), Keys(atts)))),
              Appended(cache, "custom_networks", CacheRecords(atts)))
    else
      Outcome(result, cache)
  }

  lemma KeysSnoc(atts: seq<Entry>, a: seq<Entry>)
    ensures Keys(atts + a) == Keys(atts) + Keys(a)
  {
  }

  lemma CacheRecordsSnoc(atts: seq<Entry>, a: seq<Entry>)
    ensures CacheRecords(atts + a) == CacheRecords(atts) + CacheRecords(a)
  {
  }

  /** The attachments of one more item of the input are the attachments so far and then
      that item's. */
  lemma AttachmentsSnoc(items: seq<Value>, i: nat, created: string -> bool)
    requires NetworkItemsTyped(items) && i < |items|
    ensures NetworkNameTyped(items[i]) && NetworkItemsTyped(items[..i]) && NetworkItemsTyped(items[..i + 1])
    ensures Attachments(items[..i + 1], created) == Attachments(items[..i], created) + Attachment(items[i], created)
  {
    assert items[i] in items;
    assert forall item | item in items[..i + 1] :: item in items;
    assert forall item | item in items[..i] :: item in items;
    assert items[..i + 1][..i] == items[..i];
  }

  /** `transform_custom_networks_array`. */
  method TransformCustomNetworksArray(userValue: Value, created: string -> bool, result: Mapping, cache: Mapping)
    requires result != cache
    requires CustomNetworksTyped(userValue)
    requires ObjOrAbsent(result.entries, "networks") && CacheShaped(cache.entries)
    modifies result, cache
    ensures Outcome(result.entries, cache.entries) ==
            CustomNetworksOutcome(old(result.entries), old(cache.entries), userValue, created)
  {
    if !userValue.List? {
      return;
    }
    ghost var r0, c0 := result.entries, cache.entries;
    EnsureObj(result, "networks");
    EnsureList(cache, "custom_networks");
    var items := userValue.items;
    assert items[..0] == [];
    assert CacheRecords(Attachments([], created)) == [];
    for i := 0 to |items|
      invariant result.entries ==
                Set(r0, "networks", Obj(AttachAll(ObjAt(r0, "networks"), Keys(Attachments(items[..i], created)))))
      invariant cache.entries == Appended(c0, "custom_networks", CacheRecords(Attachments(items[..i], created)))
    {
      AttachmentsSnoc(items, i, created);
      ghost var before := Attachments(items[..i], created);
      ghost var att := Attachment(items[i], created);
      if att == [] {
        assert before + [] == before;
      } else {
        assert att == [att[0]];
        AttachNetworkStep(r0, before, att[0]);
        AttachRecordStep(c0, before, att[0]);
      }
      AttachItem(items[i], created, result, cache);
    }
    assert items[..|items|] == items;
  }

  /** One pass of the loop body of `transform_custom_networks_array`. */
  method AttachItem(networkItem: Value, created: string -> bool, result: Mapping, cache: Mapping)
    requires result != cache
    requires NetworkNameTyped(networkItem)
    requires Get(result.entries, "networks").Some? && Get(result.entries, "networks").value.Obj?
    requires ListOrAbsent(cache.entries, "custom_networks")
    modifies result, cache
    ensures Attachment(networkItem, created) == [] ==>
              result.entries == old(result.entries) && cache.entries == old(cache.entries)
    ensures Attachment(networkItem, created) != [] ==>
              var att := Attachment(networkItem, created)[0];
              && result.entries == Set(old(result.entries), "networks",
                                       Obj(Set(ObjAt(old(result.entries), "networks"), att.key, Obj([]))))
              && cache.entries == Appended(old(cache.entries), "custom_networks", [CacheRecord(att)])
  {
    if !networkItem.Obj? || !Has(networkItem.fields, "network_name") {
      return;
    }
    var networkName := GetOr(networkItem.fields, "network_name", Null);
    var mode := GetOr(networkItem.fields, "mode", Str("existing"));
    if !Truthy(networkName) || networkName == Str("") {
      return;
    }
    if mode == Str("create") && !created(networkName.s) {
      return;
    }
    var networks := ObjAt(result.entries, "networks");
    result.entries := Set(result.entries, "networks", Obj(Set(networks, networkName.s, Obj([]))));
    cache.entries := Appended(cache.entries, "custom_networks", [CacheRecord(Entry(networkName.s, mode))]);
  }

  /** One attachment, as the loop performs it, extends the networks invariant by one name. */
  lemma AttachNetworkStep(r0: seq<Entry>, before: seq<Entry>, att: Entry)
    ensures var now := Set(r0, "networks", Obj(AttachAll(ObjAt(r0, "networks"), Keys(before))));
            Set(now, "networks", Obj(Set(ObjAt(now, "networks"), att.key, Obj([])))) ==
            Set(r0, "networks", Obj(AttachAll(ObjAt(r0, "networks"), Keys(before + [att]))))
  {
    var networks := AttachAll(ObjAt(r0, "networks"), Keys(before));
    var now := Set(r0, "networks", Obj(networks));
    assert ObjAt(now, "networks") == networks;
    var names := Keys(before);
    var names' := Keys(before + [att]);
    KeysSnoc(before, [att]);
    assert names' == names + [att.key];
    assert names'[..|names'| - 1] == names;
    assert AttachAll(ObjAt(r0, "networks"), names') == Set(networks, att.key, Obj([]));
    SetSet(r0, "networks", Obj(networks), Obj(Set(networks, att.key, Obj([]))));
  }

  /** One attachment, as the loop performs it, extends the cache invariant by one record. */
  lemma AttachRecordStep(c0: seq<Entry>, before: seq<Entry>, att: Entry)
    ensures Appended(Appended(c0, "custom_networks", CacheRecords(before)), "custom_networks", [CacheRecord(att)]) ==
            Appended(c0, "custom_networks", CacheRecords(before + [att]))
  {
    CacheRecordsSnoc(before, [att]);
    assert CacheRecords([att]) == [CacheRecord(att)];
    AppendedTwice(c0, "custom_networks", CacheRecords(before), [CacheRecord(att)]);
  }

  /** Every attached name maps to `{}`; every other network is left as it was. */
  lemma {:induction false} AttachAllSpec(networks: seq<Entry>, names: seq<string>)
    ensures forall n :: n in names ==> Get(AttachAll(networks, names), n) == Some(Obj([]))
    ensures forall n :: n !in names ==> Get(AttachAll(networks, names), n) == Get(networks, n)
    decreases |names|
  {
    if names != [] {
      var init := names[..|names| - 1];
      AttachAllSpec(networks, init);
      assert forall n :: n in names ==> n in init || n == names[|names| - 1];
      assert forall n :: n in init ==> n in names;
    }
  }

  /** Typed items stay typed when concatenated or cut short. */
  lemma ItemsTypedConcat(a: seq<Value>, b: seq<Value>)
    requires NetworkItemsTyped(a) && NetworkItemsTyped(b)
    ensures NetworkItemsTyped(a + b)
    ensures b != [] ==> NetworkItemsTyped(b[..|b| - 1])
  {
    assert forall item | item in a + b :: item in a || item in b;
    if b != [] {
      assert forall item | item in b[..|b| - 1] :: item in b;
    }
  }

  /** Attachments follow the input order: those of a concatenation are concatenated. */
  lemma {:induction false} AttachmentsConcat(a: seq<Value>, b: seq<Value>, created: string -> bool)
    requires NetworkItemsTyped(a) && NetworkItemsTyped(b)
    ensures NetworkItemsTyped(a + b)
    ensures Attachments(a + b, created) == Attachments(a, created) + Attachments(b, created)
    decreases |b|
  {
    ItemsTypedConcat(a, b);
    if b == [] {
      assert a + b == a;
    } else {
      var init := b[..|b| - 1];
      ItemsTypedConcat(a, init);
      assert (a + b)[..|a + b| - 1] == a + init;
      AttachmentsConcat(a, init, created);
    }
  }

  /** A name is attached exactly when some item attaches it (a dict with that truthy
      `network_name` that either does not ask for creation or was created). */
  lemma AttachedNames(items: seq<Value>, created: string -> bool, n: string)
    requires NetworkItemsTyped(items)
    ensures n in Keys(Attachments(items, created)) <==>
              exists i :: 0 <= i < |items| && Keys(Attachment(items[i], created)) == [n]
  {
    if n in Keys(Attachments(items, created)) {
      AttachedNamesFrom(items, created, n);
    }
    if exists i :: 0 <= i < |items| && Keys(Attachment(items[i], created)) == [n] {
      var i :| 0 <= i < |items| && Keys(Attachment(items[i], created)) == [n];
      AttachedNamesOf(items, created, n, i);
    }
  }

  /** Splitting off the last network item keeps the items typed. */
  lemma NetworkItemsInit(items: seq<Value>)
    requires NetworkItemsTyped(items) && items != []
    ensures NetworkItemsTyped(items[..|items| - 1]) && NetworkNameTyped(items[|items| - 1])
  {
    var init := items[..|items| - 1];
    assert forall item | item in init :: item in items;
    assert items[|items| - 1] in items;
  }

  /** An attached name comes from some item. */
  lemma {:induction false} AttachedNamesFrom(items: seq<Value>, created: string -> bool, n: string)
    requires NetworkItemsTyped(items)
    requires n in Keys(Attachments(items, created))
    ensures exists i :: 0 <= i < |items| && Keys(Attachment(items[i], created)) == [n]
    decreases |items|
  {
    var init := items[..|items| - 1];
    var last := items[|items| - 1];
    NetworkItemsInit(items);
    KeysSnoc(Attachments(init, created), Attachment(last, created));
    if n in Keys(Attachments(init, created)) {
      AttachedNamesFrom(init, created, n);
      var i :| 0 <= i < |init| && Keys(Attachment(init[i], created)) == [n];
      assert items[i] == init[i];
    } else {
      assert Keys(Attachment(last, created)) == [n];
    }
  }

  /** The name an item attaches is attached. */
  lemma {:induction false} AttachedNamesOf(items: seq<Value>, created: string -> bool, n: string, i: nat)
    requires NetworkItemsTyped(items)
    requires i < |items| && Keys(Attachment(items[i], created)) == [n]
    ensures n in Keys(Attachments(items, created))
    decreases |items|
  {
    var init := items[..|items| - 1];
    var last := items[|items| - 1];
    NetworkItemsInit(items);
    KeysSnoc(Attachments(init, created), Attachment(last, created));
    if i < |init| {
      assert init[i] == items[i];
      AttachedNamesOf(init, created, n, i);
    }
  }

  // ------------------------------------------------------------- registry

  datatype Transform = PortMapping | PortArray | VolumeMapping | VolumeArray | NetworkConfig | CustomNetworksArray

  /** `TRANSFORM_REGISTRY`, in declaration order. */
  const Registry: seq<(string, Transform)> := [
    ("port_mapping", PortMapping),
    ("port_array", PortArray),
    ("volume_mapping", VolumeMapping),
    ("volume_array", VolumeArray),
    ("network_config", NetworkConfig),
    ("custom_networks_array", CustomNetworksArray)
  ]

  /** `TRANSFORM_REGISTRY.get(name)`. */
  function Lookup(name: string): Option<Transform> {
    LookupIn(Registry, name)
  }

  function LookupIn(entries: seq<(string, Transform)>, name: string): Option<Transform> {
    if entries == [] then None
    else if entries[0].0 == name then Some(entries[0].1)
    else LookupIn(entries[1..], name)
  }

  /** `get_available_transforms`: the registry's names in order. */
  function AvailableTransforms(): (names: seq<string>)
    ensures |names| == |Registry|
    ensures forall i :: 0 <= i < |names| ==> names[i] == Registry[i].0
  {
    seq(|Registry|, i requires 0 <= i < |Registry| => Registry[i].0)
  }

  /** A lookup succeeds exactly on the listed names, and with distinct names each name
      finds its own transform. */
  lemma {:induction false} LookupInSpec(entries: seq<(string, Transform)>, name: string)
    ensures LookupIn(entries, name).Some? <==> exists i :: 0 <= i < |entries| && entries[i].0 == name
    ensures (forall i, j :: 0 <= i < j < |entries| ==> entries[i].0 != entries[j].0) ==>
              forall i :: 0 <= i < |entries| && entries[i].0 == name ==> LookupIn(entries, name) == Some(entries[i].1)
    decreases |entries|
  {
    if entries != [] {
      LookupInSpec(entries[1..], name);
      assert forall i :: 1 <= i < |entries| ==> entries[i] == entries[1..][i - 1];
      if exists i :: 0 <= i < |entries| && entries[i].0 == name {
        var i :| 0 <= i < |entries| && entries[i].0 == name;
        if i > 0 && entries[0].0 != name {
          assert entries[1..][i - 1].0 == name;
        }
      }
    }
  }

  /** The registry lists each name once. */
  lemma RegistryDistinct()
    ensures forall i, j :: 0 <= i < j < |Registry| ==> Registry[i].0 != Registry[j].0
  {
    forall i, j | 0 <= i < j < |Registry|
      ensures Registry[i].0 != Registry[j].0
    {
      assert |Registry[i].0| != |Registry[j].0| || Registry[i].0[0] != Registry[j].0[0];
    }
  }

  /** A name resolves exactly when it is listed as available, and each listed name
      resolves to its own transform. */
  lemma RegistryConsistent(name: string)
    ensures Lookup(name).Some? <==> name in AvailableTransforms()
    ensures forall i :: 0 <= i < |Registry| ==> Lookup(Registry[i].0) == Some(Registry[i].1)
  {
    RegistryDistinct();
    LookupInSpec(Registry, name);
    forall i | 0 <= i < |Registry|
      ensures Lookup(Registry[i].0) == Some(Registry[i].1)
    {
      LookupInSpec(Registry, Registry[i].0);
    }
    var names := AvailableTransforms();
    if name in names {
      var i :| 0 <= i < |names| && names[i] == name;
      assert Registry[i].0 == name;
    }
  }

  /** What a transform needs of its input besides the service and cache shapes. */
  predicate InputTyped(t: Transform, userValue: Value) {
    match t
    case VolumeArray => VolumeArrayTyped(userValue)
    case NetworkConfig => NetworkNameTyped(userValue)
    case CustomNetworksArray => CustomNetworksTyped(userValue)
    case _ => true
  }

  /** The effect of one transform on the service dict and the cache. */
  function TransformOutcome(t: Transform, userValue: Value, fieldSchema: seq<Entry>, rawInputs: seq<Entry>,
                            created: string -> bool, result: seq<Entry>, cache: seq<Entry>): Outcome
    requires InputTyped(t, userValue)
  {
    match t
    case PortMapping => PortMappingOutcome(result, cache, userValue, rawInputs)
    case PortArray => Outcome(PortArrayOutcome(result, userValue), cache)
    case VolumeMapping => Outcome(VolumeMappingOutcome(result, userValue, fieldSchema), cache)
    case VolumeArray => Outcome(VolumeArrayOutcome(result, userValue), cache)
    case NetworkConfig => Outcome(NetworkConfigOutcome(result, userValue), cache)
    case CustomNetworksArray => CustomNetworksOutcome(result, cache, userValue, created)
  }

  /** The effect of `apply_transform`. An unknown name changes nothing and raises nothing. */
  function ApplyOutcome(name: string, userValue: Value, fieldSchema: seq<Entry>, rawInputs: seq<Entry>,
                        created: string -> bool, result: seq<Entry>, cache: seq<Entry>): (o: Outcome)
    requires Lookup(name).Some? ==> InputTyped(Lookup(name).value, userValue)
    ensures Lookup(name).None? ==> o == Outcome(result, cache)
  {
    match Lookup(name)
    case None => Outcome(result, cache)
    case Some(t) => TransformOutcome(t, userValue, fieldSchema, rawInputs, created, result, cache)
  }

  /** Changing one of the shaped keys to a value of its shape keeps the service shaped. */
  lemma ShapedAfter(result: seq<Entry>, r: seq<Entry>, k: string)
    requires ServiceShaped(result)
    requires k == "ports" || k == "volumes" || k == "networks"
    requires if k == "networks" then ObjOrAbsent(r, k) else ListOrAbsent(r, k)
    requires forall k' :: k' != k ==> Get(r, k') == Get(result, k')
    ensures ServiceShaped(r)
  {
    assert "ports" != "volumes" && "ports" != "networks" && "volumes" != "networks";
  }

  /** Changing one key of the cache keeps it shaped, provided a changed
      `custom_networks` stays a list. */
  lemma CacheShapedAfter(cache: seq<Entry>, c: seq<Entry>, k: string)
    requires CacheShaped(cache)
    requires k == "custom_networks" ==> ListOrAbsent(c, k)
    requires forall k' :: k' != k ==> Get(c, k') == Get(cache, k')
    ensures CacheShaped(c)
  {
  }

  /** Every transform keeps the service and the cache well shaped. */
  lemma TransformOutcomeShaped(t: Transform, userValue: Value, fieldSchema: seq<Entry>, rawInputs: seq<Entry>,
                               created: string -> bool, result: seq<Entry>, cache: seq<Entry>)
    requires InputTyped(t, userValue)
    requires ServiceShaped(result) && CacheShaped(cache)
    ensures var o := TransformOutcome(t, userValue, fieldSchema, rawInputs, created, result, cache);
            ServiceShaped(o.result) && CacheShaped(o.cache)
  {
    var o := TransformOutcome(t, userValue, fieldSchema, rawInputs, created, result, cache);
    match t
    case PortMapping =>
      if IsCompoundPort(userValue) {
        ShapedAfter(result, o.result, "ports");
      } else if !Has(cache, "port_mapping") && LegacyPortsGiven(rawInputs) {
        ShapedAfter(result, o.result, "ports");
        CacheShapedAfter(cache, o.cache, "port_mapping");
      }
    case PortArray =>
      if userValue.List? {
        ShapedAfter(result, o.result, "ports");
      }
    case VolumeMapping =>
      ShapedAfter(result, o.result, "volumes");
    case VolumeArray =>
      if userValue.List? {
        ShapedAfter(result, o.result, "volumes");
      }
    case NetworkConfig =>
      ShapedAfter(result, o.result, "networks");
    case CustomNetworksArray =>
      if userValue.List? {
        ShapedAfter(result, o.result, "networks");
        CacheShapedAfter(cache, o.cache, "custom_networks");
      }
  }

  /** `apply_transform`: dispatch through the registry. */
  method ApplyTransform(name: string, userValue: Value, fieldSchema: seq<Entry>, rawInputs: seq<Entry>,
                        created: string -> bool, result: Mapping, cache: Mapping)
    requires result != cache
    requires ServiceShaped(result.entries) && CacheShaped(cache.entries)
    requires Lookup(name).Some? ==> InputTyped(Lookup(name).value, userValue)
    modifies result, cache
    ensures Outcome(result.entries, cache.entries) ==
            ApplyOutcome(name, userValue, fieldSchema, rawInputs, created, old(result.entries), old(cache.entries))
  {
    var transform := Lookup(name);
    match transform
    case None =>
    case Some(PortMapping) => TransformPortMapping(userValue, rawInputs, result, cache);
    case Some(PortArray) => TransformPortArray(userValue, result);
    case Some(VolumeMapping) => TransformVolumeMapping(userValue, fieldSchema, result);
    case Some(VolumeArray) => TransformVolumeArray(userValue, result);
    case Some(NetworkConfig) => TransformNetworkConfig(userValue, result);
    case Some(CustomNetworksArray) => TransformCustomNetworksArray(userValue, created, result, cache);
  }
}

=== FILE: install_order.dfy ===
/** The install planner's pure part (services/installer.py): which prerequisites a
    batch lacks, and the order Kahn's algorithm installs the batch in, with the
    blueprints' `install_order` breaking ties among ready apps. Apps are identified by
    their blueprint names; blueprint rows arrive as a map from name to row. */
module InstallOrder {
  import opened Values
  import opened Models

  predicate Distinct(s: seq<string>) {
    forall i, j :: 0 <= i < j < |s| ==> s[i] != s[j]
  }

  /** A list extended at the front is distinct when the old list is and lacks the new name. */
  lemma DistinctCons(a: string, s: seq<string>)
    ensures Distinct([a] + s) <==> a !in s && Distinct(s)
  {
    var t := [a] + s;
    if a !in s && Distinct(s) {
      forall i, j | 0 <= i < j < |t|
        ensures t[i] != t[j]
      {
        assert t[j] == s[j - 1];
        if i > 0 {
          assert t[i] == s[i - 1];
        }
      }
    }
    if Distinct(t) {
      forall i, j | 0 <= i < j < |s|
        ensures s[i] != s[j]
      {
        assert s[i] == t[i + 1] && s[j] == t[j + 1];
      }
      forall j | 0 <= j < |s|
        ensures s[j] != a
      {
        assert s[j] == t[j + 1] && t[0] == a;
        assert t[0] != t[j + 1];
      }
    }
  }

  /** A list extended at the back is distinct when the old list is and lacks the new name. */
  lemma DistinctSnoc(s: seq<string>, a: string)
    ensures Distinct(s + [a]) <==> a !in s && Distinct(s)
  {
    var t := s + [a];
    if a !in s && Distinct(s) {
      forall i, j | 0 <= i < j < |t|
        ensures t[i] != t[j]
      {
        assert t[i] == s[i];
        if j < |s| {
          assert t[j] == s[j];
        }
      }
    }
    if Distinct(t) {
      forall i, j | 0 <= i < j < |s|
        ensures s[i] != s[j]
      {
        assert s[i] == t[i] && s[j] == t[j];
      }
      forall j | 0 <= j < |s|
        ensures s[j] != a
      {
        assert s[j] == t[j] && t[|s|] == a;
        assert t[j] != t[|s|];
      }
    }
  }

  /** Two lists without repetitions and without a common name concatenate to one. */
  lemma DistinctConcat(a: seq<string>, b: seq<string>)
    requires Distinct(a) && Distinct(b)
    requires forall x :: x in b ==> x !in a
    ensures Distinct(a + b)
  {
    var t := a + b;
    forall i, j | 0 <= i < j < |t|
      ensures t[i] != t[j]
    {
      if j < |a| {
        assert t[i] == a[i] && t[j] == a[j];
      } else if i >= |a| {
        assert t[i] == b[i - |a|] && t[j] == b[j - |a|];
      } else {
        assert t[i] == a[i] && t[j] == b[j - |a|] && b[j - |a|] in b;
      }
    }
  }

  function SetOf(s: seq<string>): set<string> {
    set x | x in s
  }

  /** A list has at most as many distinct elements as positions, and exactly as many
      when no element repeats. */
  lemma {:induction false} SetOfCard(s: seq<string>)
    ensures |SetOf(s)| <= |s|
    ensures |SetOf(s)| == |s| <==> Distinct(s)
    decreases |s|
  {
    if s != [] {
      var init, c := s[..|s| - 1], s[|s| - 1];
      SetOfCard(init);
      assert SetOf(s) == SetOf(init) + {c};
      if c in init {
        assert SetOf(s) == SetOf(init);
        var j :| 0 <= j < |init| && init[j] == c;
        assert s[j] == s[|s| - 1];
      } else {
        assert |SetOf(s)| == |SetOf(init)| + 1;
        if Distinct(init) {
          forall i, j | 0 <= i < j < |s|
            ensures s[i] != s[j]
          {
            if j < |s| - 1 {
              assert s[i] == init[i] && s[j] == init[j];
            } else {
              assert s[i] == init[i];
            }
          }
        }
        if Distinct(s) {
          forall i, j | 0 <= i < j < |init|
            ensures init[i] != init[j]
          {
            assert init[i] == s[i] && init[j] == s[j];
          }
        }
      }
    }
  }

  /** A subset is no larger, and a subset of the same size is the whole set. */
  lemma SubsetCard(a: set<string>, b: set<string>)
    requires a <= b
    ensures |a| <= |b|
    ensures |a| == |b| ==> a == b
  {
    assert b == a + (b - a);
    assert |b| == |a| + |b - a|;
    if |a| == |b| {
      assert b - a == {};
    }
  }

  // ---------------------------------------------------------- missing prerequisites

  /** The blueprint names of the apps the database lists as running or stopped. */
  function InstalledBlueprints(rows: seq<(string, Status)>): set<string> {
    set r | r in rows && (r.1 == Running || r.1 == Stopped) :: r.0
  }

  /** Prerequisites of the apps in `done` that are neither installed nor in the batch. */
  function MissingAmong(done: seq<string>, batch: seq<string>, bps: map<string, Blueprint>,
                        installed: set<string>): set<string>
    requires forall a :: a in done ==> a in bps
  {
    set a, d | a in done && d in bps[a].prerequisites && d !in installed && d !in batch :: d
  }

  /** `_check_missing_prerequisites`: exactly the prerequisites of the batch's blueprints
      found neither among the installed apps nor in the batch. */
  function MissingPrerequisites(batch: seq<string>, bps: map<string, Blueprint>,
                                installed: set<string>): set<string>
    requires forall a :: a in batch ==> a in bps
  {
    MissingAmong(batch, batch, bps, installed)
  }

  /** `_check_missing_prerequisites`, loop by loop. */
  method CheckMissingPrerequisites(batch: seq<string>, bps: map<string, Blueprint>,
                                   rows: seq<(string, Status)>) returns (missing: set<string>)
    requires forall a :: a in batch ==> a in bps
    ensures missing == MissingPrerequisites(batch, bps, InstalledBlueprints(rows))
    ensures forall d :: d in missing <==>
              d !in InstalledBlueprints(rows) && d !in batch &&
              exists a :: a in batch && d in bps[a].prerequisites
  {
    var installed := InstalledBlueprints(rows);
    var selected := SetOf(batch);
    var available := installed + selected;
    missing := {};
    for i := 0 to |batch|
      invariant missing == MissingAmong(batch[..i], batch, bps, installed)
    {
      var prereqs := bps[batch[i]].prerequisites;
      ghost var before := missing;
      for j := 0 to |prereqs|
        invariant missing == before + (set d | d in prereqs[..j] && d !in available)
      {
        if prereqs[j] !in available {
          missing := missing + {prereqs[j]};
        }
        assert prereqs[..j + 1] == prereqs[..j] + [prereqs[j]];
      }
      assert prereqs[..|prereqs|] == prereqs;
      assert batch[..i + 1] == batch[..i] + [batch[i]];
      assert MissingAmong(batch[..i + 1], batch, bps, installed) ==
             MissingAmong(batch[..i], batch, bps, installed) +
             (set d | d in prereqs && d !in available);
    }
    assert batch[..|batch|] == batch;
  }

  // ---------------------------------------------------------- sorting by install order

  /** The blueprint names are in non-decreasing `install_order`. */
  predicate SortedBy(q: seq<string>, bps: map<string, Blueprint>)
    requires forall x :: x in q ==> x in bps
  {
    forall i, j :: 0 <= i < j < |q| ==> bps[q[i]].installOrder <= bps[q[j]].installOrder
  }

  /** A list extended at the front stays sorted when its new head is not greater. */
  lemma SortedCons(a: string, s: seq<string>, bps: map<string, Blueprint>)
    requires a in bps && forall y :: y in s ==> y in bps
    requires SortedBy(s, bps)
    requires forall y :: y in s ==> bps[a].installOrder <= bps[y].installOrder
    ensures SortedBy([a] + s, bps)
  {
    var t := [a] + s;
    forall i, j | 0 <= i < j < |t|
      ensures bps[t[i]].installOrder <= bps[t[j]].installOrder
    {
      assert t[j] == s[j - 1];
      if i > 0 {
        assert t[i] == s[i - 1];
      }
    }
  }

  /** Inserts `x` after every element whose install order is not greater. */
  function Insert(x: string, q: seq<string>, bps: map<string, Blueprint>): (r: seq<string>)
    requires x in bps && forall y :: y in q ==> y in bps
    ensures |r| == |q| + 1 && multiset(r) == multiset(q) + multiset{x}
    ensures forall y :: y in r <==> y == x || y in q
  {
    if q == [] then [x]
    else if bps[x].installOrder < bps[q[0]].installOrder then [x] + q
    else
      assert q == [q[0]] + q[1..];
      [q[0]] + Insert(x, q[1..], bps)
  }

  /** Insertion keeps a sorted list sorted. */
  lemma {:induction false} InsertSorted(x: string, q: seq<string>, bps: map<string, Blueprint>)
    requires x in bps && forall y :: y in q ==> y in bps
    requires SortedBy(q, bps)
    ensures SortedBy(Insert(x, q, bps), bps)
    decreases |q|
  {
    if q == [] {
    } else if bps[x].installOrder < bps[q[0]].installOrder {
      SortedCons(x, q, bps);
    } else {
      assert q == [q[0]] + q[1..];
      assert SortedBy(q[1..], bps);
      InsertSorted(x, q[1..], bps);
      SortedCons(q[0], Insert(x, q[1..], bps), bps);
    }
  }

  /** Inserting a new name into a list without repetitions gives one without repetitions. */
  lemma {:induction false} InsertDistinct(x: string, q: seq<string>, bps: map<string, Blueprint>)
    requires x in bps && forall y :: y in q ==> y in bps
    requires Distinct(q) && x !in q
    ensures Distinct(Insert(x, q, bps))
    decreases |q|
  {
    if q == [] {
    } else if bps[x].installOrder < bps[q[0]].installOrder {
      DistinctCons(x, q);
    } else {
      assert q == [q[0]] + q[1..];
      DistinctCons(q[0], q[1..]);
      InsertDistinct(x, q[1..], bps);
      DistinctCons(q[0], Insert(x, q[1..], bps));
    }
  }

  /** The names of `q` whose install order is `v`, in the order `q` lists them. */
  function WithOrder(q: seq<string>, bps: map<string, Blueprint>, v: real): seq<string>
    requires forall y :: y in q ==> y in bps
  {
    if q == [] then []
    else (if bps[q[0]].installOrder == v then [q[0]] else []) + WithOrder(q[1..], bps, v)
  }

  /** Picking the names of one install order distributes over concatenation. */
  lemma {:induction false} WithOrderConcat(a: seq<string>, b: seq<string>, bps: map<string, Blueprint>, v: real)
    requires forall y :: y in a ==> y in bps
    requires forall y :: y in b ==> y in bps
    ensures WithOrder(a + b, bps, v) == WithOrder(a, bps, v) + WithOrder(b, bps, v)
    decreases |a|
  {
    if a == [] {
      assert a + b == b;
    } else {
      assert (a + b)[1..] == a[1..] + b;
      WithOrderConcat(a[1..], b, bps, v);
    }
  }

  /** A list whose install orders are all above `v` has no name of order `v`. */
  lemma {:induction false} WithOrderAbove(q: seq<string>, bps: map<string, Blueprint>, v: real)
    requires forall y :: y in q ==> y in bps && v < bps[y].installOrder
    ensures WithOrder(q, bps, v) == []
    decreases |q|
  {
    if q != [] {
      WithOrderAbove(q[1..], bps, v);
    }
  }

  /** Every name of a sorted list has an install order at least its head's. */
  lemma SortedAbove(q: seq<string>, bps: map<string, Blueprint>, v: real)
    requires q != [] && forall y :: y in q ==> y in bps
    requires SortedBy(q, bps) && v < bps[q[0]].installOrder
    ensures forall y :: y in q ==> y in bps && v < bps[y].installOrder
  {
    forall y | y in q
      ensures v < bps[y].installOrder
    {
      var k :| 0 <= k < |q| && q[k] == y;
      if k > 0 {
        assert bps[q[0]].installOrder <= bps[q[k]].installOrder;
      }
    }
  }

  /** Insertion into a sorted list places the new name after every name of its own
      install order: for each order, the names of that order keep their relative order
      and the new one comes last among them. */
  lemma {:induction false} InsertStable(x: string, q: seq<string>, bps: map<string, Blueprint>, v: real)
    requires x in bps && forall y :: y in q ==> y in bps
    requires SortedBy(q, bps)
    ensures WithOrder(Insert(x, q, bps), bps, v) ==
            WithOrder(q, bps, v) + (if bps[x].installOrder == v then [x] else [])
    decreases |q|
  {
    if q == [] {
      assert [x][1..] == [];
    } else if bps[x].installOrder < bps[q[0]].installOrder {
      InsertStableFront(x, q, bps, v);
    } else {
      assert SortedBy(q[1..], bps);
      InsertStable(x, q[1..], bps, v);
      InsertStableAfter(x, q, bps, v);
    }
  }

  /** A name of lower install order than a sorted list's head goes in front of it, and
      the list holds no name of its order. */
  lemma InsertStableFront(x: string, q: seq<string>, bps: map<string, Blueprint>, v: real)
    requires x in bps && q != [] && forall y :: y in q ==> y in bps
    requires SortedBy(q, bps) && bps[x].installOrder < bps[q[0]].installOrder
    ensures WithOrder(Insert(x, q, bps), bps, v) ==
            WithOrder(q, bps, v) + (if bps[x].installOrder == v then [x] else [])
  {
    assert ([x] + q)[1..] == q;
    if bps[x].installOrder == v {
      SortedAbove(q, bps, v);
      WithOrderAbove(q, bps, v);
    }
  }

  /** A name inserted past the head of the list: the head keeps its place in front. */
  lemma InsertStableAfter(x: string, q: seq<string>, bps: map<string, Blueprint>, v: real)
    requires x in bps && q != [] && forall y :: y in q ==> y in bps
    requires bps[q[0]].installOrder <= bps[x].installOrder
    requires WithOrder(Insert(x, q[1..], bps), bps, v) ==
             WithOrder(q[1..], bps, v) + (if bps[x].installOrder == v then [x] else [])
    ensures WithOrder(Insert(x, q, bps), bps, v) ==
            WithOrder(q, bps, v) + (if bps[x].installOrder == v then [x] else [])
  {
    var rest := Insert(x, q[1..], bps);
    assert ([q[0]] + rest)[1..] == rest;
  }

  /** Inserting the last name into a sorted list that is stable for the others gives a
      list stable for them all. */
  lemma InsertLastStable(init: seq<string>, last: string, s: seq<string>, bps: map<string, Blueprint>)
    requires last in bps && forall y :: y in init ==> y in bps
    requires forall y :: y in s ==> y in bps
    requires SortedBy(s, bps)
    requires forall v :: WithOrder(s, bps, v) == WithOrder(init, bps, v)
    ensures forall v :: WithOrder(Insert(last, s, bps), bps, v) == WithOrder(init + [last], bps, v)
  {
    forall v
      ensures WithOrder(Insert(last, s, bps), bps, v) == WithOrder(init + [last], bps, v)
    {
      InsertStable(last, s, bps, v);
      WithOrderConcat(init, [last], bps, v);
      assert WithOrder([last], bps, v) == (if bps[last].installOrder == v then [last] else []) by {
        assert [last][1..] == [];
      }
    }
  }

  /** `list.sort(key=install_order)`: a stable sort (insertion sort, elements taken in
      order, each placed after its equals). The result is a sorted permutation, and for
      every install order the names of that order appear in the same relative order as
      in the input: when `q[i]` comes before `q[j]` and both have the same order, the
      same holds in the result. */
  function SortByOrder(q: seq<string>, bps: map<string, Blueprint>): (r: seq<string>)
    requires forall y :: y in q ==> y in bps
    ensures |r| == |q| && multiset(r) == multiset(q)
    ensures forall y :: y in r <==> y in q
    ensures SortedBy(r, bps)
    ensures Distinct(q) ==> Distinct(r)
    ensures forall v :: WithOrder(r, bps, v) == WithOrder(q, bps, v)
  {
    if q == [] then []
    else
      var init, last := q[..|q| - 1], q[|q| - 1];
      FrontLast(q);
      var sortedInit := SortByOrder(init, bps);
      InsertSorted(last, sortedInit, bps);
      DistinctSnoc(init, last);
      assert Distinct(q) ==> Distinct(Insert(last, sortedInit, bps)) by {
        if Distinct(q) {
          InsertDistinct(last, sortedInit, bps);
        }
      }
      InsertLastStable(init, last, sortedInit, bps);
      Insert(last, sortedInit, bps)
  }

  // ---------------------------------------------------------- Kahn's algorithm

  /** How many names of `s` are prerequisites in `deps`: the decrements an app's
      in-degree receives once the apps of `s` are sorted. */
  function Hits(deps: seq<string>, s: seq<string>): nat {
    if s == [] then 0
    else Hits(deps, s[..|s| - 1]) + (if s[|s| - 1] in deps then 1 else 0)
  }

  /** The prerequisites in `deps` that are in `k`. */
  function InBatch(deps: seq<string>, k: set<string>): set<string> {
    set d | d in deps && d in k
  }

  /** For distinct `s`, the decrements are the prerequisites that are among `s`. */
  lemma {:induction false} HitsCard(deps: seq<string>, s: seq<string>)
    requires Distinct(s)
    ensures Hits(deps, s) == |InBatch(deps, SetOf(s))|
    decreases |s|
  {
    if s != [] {
      var init, c := s[..|s| - 1], s[|s| - 1];
      assert Distinct(init);
      HitsCard(deps, init);
      assert c !in init;
      if c in deps {
        assert InBatch(deps, SetOf(s)) == InBatch(deps, SetOf(init)) + {c};
      } else {
        assert InBatch(deps, SetOf(s)) == InBatch(deps, SetOf(init));
      }
    }
  }

  /** Hits of a one-longer prefix. */
  lemma HitsSnoc(deps: seq<string>, s: seq<string>, c: string)
    ensures Hits(deps, s + [c]) == Hits(deps, s) + (if c in deps then 1 else 0)
  {
    assert (s + [c])[..|s|] == s;
  }

  /** Every in-batch prerequisite of the app is among `s`. */
  predicate DepsDone(deps: seq<string>, k: set<string>, s: seq<string>) {
    forall d :: d in deps && d in k ==> d in s
  }

  /** An in-degree that started at no less than the number of in-batch prerequisites and
      reached zero means every in-batch prerequisite has been sorted. */
  lemma CountedDone(deps: seq<string>, k: set<string>, s: seq<string>, need: int)
    requires Distinct(s) && SetOf(s) <= k
    requires need >= |InBatch(deps, k)|
    requires Hits(deps, s) == need
    ensures DepsDone(deps, k, s)
  {
    HitsCard(deps, s);
    var sub, all := InBatch(deps, SetOf(s)), InBatch(deps, k);
    assert sub <= all;
    SubsetCard(sub, all);
    assert sub == all;
    forall d | d in deps && d in k
      ensures d in s
    {
      assert d in all;
      assert d in SetOf(s);
    }
  }

  /** Names of `keys` whose in-degree is zero, in order (the initial queue). */
  function Zeros(keys: seq<string>, inDegree: map<string, int>): seq<string>
    requires forall x :: x in keys ==> x in inDegree
  {
    if keys == [] then []
    else
      var init, k := keys[..|keys| - 1], keys[|keys| - 1];
      Zeros(init, inDegree) + (if inDegree[k] == 0 then [k] else [])
  }

  /** The initial queue holds exactly the apps without prerequisites to wait for, once each. */
  lemma {:induction false} ZerosSpec(keys: seq<string>, inDegree: map<string, int>)
    requires forall x :: x in keys ==> x in inDegree
    ensures forall x :: x in Zeros(keys, inDegree) <==> x in keys && inDegree[x] == 0
    ensures Distinct(keys) ==> Distinct(Zeros(keys, inDegree))
    decreases |keys|
  {
    if keys != [] {
      var init, k := keys[..|keys| - 1], keys[|keys| - 1];
      FrontLast(keys);
      ZerosSpec(init, inDegree);
      DistinctSnoc(init, k);
      if inDegree[k] == 0 {
        DistinctSnoc(Zeros(init, inDegree), k);
      }
    }
  }

  /** Names of `keys`, in order, that list `c` as a prerequisite and whose in-degree is 1:
      they reach zero when `c` is sorted and are appended to the queue. */
  function Released(keys: seq<string>, bps: map<string, Blueprint>, inDegree: map<string, int>,
                    c: string): seq<string>
    requires forall x :: x in keys ==> x in bps && x in inDegree
  {
    if keys == [] then []
    else
      var init, k := keys[..|keys| - 1], keys[|keys| - 1];
      Released(init, bps, inDegree, c) +
      (if c in bps[k].prerequisites && inDegree[k] - 1 == 0 then [k] else [])
  }

  /** The released apps are exactly the apps that list `c` and were one short of ready,
      once each. */
  lemma {:induction false} ReleasedSpec(keys: seq<string>, bps: map<string, Blueprint>,
                                        inDegree: map<string, int>, c: string)
    requires forall x :: x in keys ==> x in bps && x in inDegree
    ensures forall x :: x in Released(keys, bps, inDegree, c) <==>
              x in keys && c in bps[x].prerequisites && inDegree[x] == 1
    ensures Distinct(keys) ==> Distinct(Released(keys, bps, inDegree, c))
    decreases |keys|
  {
    if keys != [] {
      var init, k := keys[..|keys| - 1], keys[|keys| - 1];
      FrontLast(keys);
      ReleasedSpec(init, bps, inDegree, c);
      DistinctSnoc(init, k);
      if c in bps[k].prerequisites && inDegree[k] - 1 == 0 {
        DistinctSnoc(Released(init, bps, inDegree, c), k);
      }
    }
  }

  /** The in-degrees once every app of `keys` that lists `c` has lost one, one app
      after the other. */
  function Decremented(keys: seq<string>, bps: map<string, Blueprint>, inDegree: map<string, int>,
                       c: string): (r: map<string, int>)
    requires forall x :: x in keys ==> x in bps && x in inDegree
    ensures r.Keys == inDegree.Keys
  {
    if keys == [] then inDegree
    else
      var init, k := keys[..|keys| - 1], keys[|keys| - 1];
      var m := Decremented(init, bps, inDegree, c);
      if c in bps[k].prerequisites then m[k := m[k] - 1] else m
  }

  /** For distinct `keys`, each app that lists `c` loses exactly one and no other changes. */
  lemma {:induction false} DecrementedSpec(keys: seq<string>, bps: map<string, Blueprint>,
                                           inDegree: map<string, int>, c: string)
    requires forall x :: x in keys ==> x in bps && x in inDegree
    requires Distinct(keys)
    ensures forall x :: x in inDegree ==>
              Decremented(keys, bps, inDegree, c)[x] ==
              if x in keys && c in bps[x].prerequisites then inDegree[x] - 1 else inDegree[x]
    decreases |keys|
  {
    if keys != [] {
      var init, k := keys[..|keys| - 1], keys[|keys| - 1];
      FrontLast(keys);
      DistinctSnoc(init, k);
      DecrementedSpec(init, bps, inDegree, c);
    }
  }

  /** An app outside `keys` keeps its in-degree. */
  lemma {:induction false} DecrementedUntouched(keys: seq<string>, a: string, bps: map<string, Blueprint>,
                                                inDegree: map<string, int>, c: string)
    requires forall x :: x in keys ==> x in bps && x in inDegree
    requires a in inDegree && a !in keys
    ensures Decremented(keys, bps, inDegree, c)[a] == inDegree[a]
    decreases |keys|
  {
    if keys != [] {
      var init := keys[..|keys| - 1];
      FrontLast(keys);
      DecrementedUntouched(init, a, bps, inDegree, c);
    }
  }

  /** One more app of distinct `keys`: it still has its initial in-degree, loses one if
      it lists `c`, and is released if that brings it to zero. */
  lemma ReleaseStep(keys: seq<string>, j: nat, bps: map<string, Blueprint>,
                    inDegree: map<string, int>, c: string)
    requires Distinct(keys) && j < |keys|
    requires forall x :: x in keys ==> x in bps && x in inDegree
    ensures forall x :: x in keys[..j + 1] ==> x in bps && x in inDegree
    ensures var m, k := Decremented(keys[..j], bps, inDegree, c), keys[j];
            && m[k] == inDegree[k]
            && Decremented(keys[..j + 1], bps, inDegree, c) ==
               (if c in bps[k].prerequisites then m[k := m[k] - 1] else m)
            && Released(keys[..j + 1], bps, inDegree, c) ==
               Released(keys[..j], bps, inDegree, c) +
               (if c in bps[k].prerequisites && inDegree[k] - 1 == 0 then [k] else [])
  {
    assert keys[..j + 1] == keys[..j] + [keys[j]];
    assert keys[j] !in keys[..j];
    assert keys[..j + 1][..j] == keys[..j];
    DecrementedUntouched(keys[..j], keys[j], bps, inDegree, c);
  }

  /** One pass of the inner loop over `graph.items()`: the app loses one if it lists
      `c`, and joins the queue if that brings it to zero. */
  method ReleaseOne(c: string, a: string, bps: map<string, Blueprint>,
                    inDegree: map<string, int>, queue: seq<string>)
    returns (inDegree': map<string, int>, queue': seq<string>)
    requires a in bps && a in inDegree
    ensures inDegree' == if c in bps[a].prerequisites then inDegree[a := inDegree[a] - 1] else inDegree
    ensures queue' == queue + if c in bps[a].prerequisites && inDegree[a] - 1 == 0 then [a] else []
  {
    inDegree', queue' := inDegree, queue;
    if c in bps[a].prerequisites {
      inDegree' := inDegree'[a := inDegree'[a] - 1];
      if inDegree'[a] == 0 {
        queue' := queue' + [a];
      }
    }
  }

  /** The inner loop over `graph.items()` after `c` is sorted: every app that lists `c`
      loses one from its in-degree, and those that reach zero join the queue. */
  method Release(c: string, keys: seq<string>, bps: map<string, Blueprint>,
                 inDegree: map<string, int>, queue: seq<string>)
    returns (inDegree': map<string, int>, queue': seq<string>)
    requires Distinct(keys)
    requires forall x :: x in keys ==> x in bps && x in inDegree
    ensures inDegree' == Decremented(keys, bps, inDegree, c)
    ensures queue' == queue + Released(keys, bps, inDegree, c)
  {
    inDegree', queue' := inDegree, queue;
    for j := 0 to |keys|
      invariant inDegree' == Decremented(keys[..j], bps, inDegree, c)
      invariant queue' == queue + Released(keys[..j], bps, inDegree, c)
    {
      ReleaseStep(keys, j, bps, inDegree, c);
      inDegree', queue' := ReleaseOne(c, keys[j], bps, inDegree', queue');
    }
    assert keys[..|keys|] == keys;
  }

  /** At each step the app taken had the lowest install order among all apps ready then
      (those whose in-degree had reached zero). */
  predicate MinFirst(k: set<string>, bps: map<string, Blueprint>, need: map<string, int>, sorted: seq<string>)
    requires forall x :: x in k ==> x in bps && x in need
    requires forall x :: x in sorted ==> x in k
  {
    forall i, x :: 0 <= i < |sorted| && x in k && x !in sorted[..i + 1] &&
                   need[x] == Hits(bps[x].prerequisites, sorted[..i]) ==>
                   bps[sorted[i]].installOrder <= bps[x].installOrder
  }

  /** Every sorted app comes after each of its in-batch prerequisites. */
  predicate Precedes(k: set<string>, bps: map<string, Blueprint>, sorted: seq<string>)
    requires forall x :: x in sorted ==> x in bps
  {
    forall i :: 0 <= i < |sorted| ==> DepsDone(bps[sorted[i]].prerequisites, k, sorted[..i])
  }

  /** Every app of the batch has a blueprint, an initial and a current in-degree. */
  predicate Framed(k: set<string>, bps: map<string, Blueprint>, need: map<string, int>,
                   inDegree: map<string, int>)
  {
    forall x :: x in k ==> x in bps && x in need && x in inDegree
  }

  /** Sorted and queued apps are apps of the batch, each listed once, none in both. */
  predicate Members(k: set<string>, queue: seq<string>, sorted: seq<string>) {
    Distinct(sorted) && Distinct(queue) &&
    (forall x :: x in sorted ==> x in k) &&
    (forall x :: x in queue ==> x in k && x !in sorted)
  }

  /** Each in-degree is the initial one less the prerequisites sorted so far. */
  predicate Degrees(k: set<string>, bps: map<string, Blueprint>, need: map<string, int>,
                    inDegree: map<string, int>, sorted: seq<string>)
    requires Framed(k, bps, need, inDegree)
  {
    forall x :: x in k ==> inDegree[x] == need[x] - Hits(bps[x].prerequisites, sorted)
  }

  /** An app neither sorted nor queued still waits: its in-degree is not zero. */
  predicate Waiting(k: set<string>, inDegree: map<string, int>, queue: seq<string>, sorted: seq<string>)
    requires forall x :: x in k ==> x in inDegree
  {
    forall x :: x in k && x !in sorted && x !in queue ==> inDegree[x] != 0
  }

  /** A queued app has in-degree zero and all its in-batch prerequisites sorted. */
  predicate Ready(k: set<string>, bps: map<string, Blueprint>, inDegree: map<string, int>,
                  queue: seq<string>, sorted: seq<string>)
    requires forall x :: x in queue ==> x in bps && x in inDegree
  {
    forall x :: x in queue ==> inDegree[x] == 0 && DepsDone(bps[x].prerequisites, k, sorted)
  }

  /** A sorted app has in-degree zero. */
  predicate Done(inDegree: map<string, int>, sorted: seq<string>)
    requires forall x :: x in sorted ==> x in inDegree
  {
    forall x :: x in sorted ==> inDegree[x] == 0
  }

  /** The state of the `while queue` loop at its head. */
  predicate KahnInv(k: set<string>, bps: map<string, Blueprint>, need: map<string, int>,
                    inDegree: map<string, int>, queue: seq<string>, sorted: seq<string>)
  {
    Framed(k, bps, need, inDegree) && Members(k, queue, sorted) &&
    Degrees(k, bps, need, inDegree, sorted) &&
    Waiting(k, inDegree, queue, sorted) &&
    Ready(k, bps, inDegree, queue, sorted) &&
    Done(inDegree, sorted) &&
    Precedes(k, bps, sorted) &&
    SortedBy(queue, bps) &&
    MinFirst(k, bps, need, sorted)
  }

  /** The app at the head of the queue is a prerequisite of no sorted or queued app: all
      their in-batch prerequisites are sorted already, and it is not. */
  lemma NotWaitingOn(k: set<string>, bps: map<string, Blueprint>, inDegree: map<string, int>,
                     queue: seq<string>, sorted: seq<string>, x: string)
    requires forall y :: y in sorted || y in queue ==> y in bps && y in inDegree
    requires Members(k, queue, sorted) && queue != []
    requires Ready(k, bps, inDegree, queue, sorted) && Precedes(k, bps, sorted)
    requires x in sorted || x in queue
    ensures queue[0] !in bps[x].prerequisites
  {
    var c := queue[0];
    assert c in k && c !in sorted;
    if x in sorted {
      var i :| 0 <= i < |sorted| && sorted[i] == x;
      assert DepsDone(bps[x].prerequisites, k, sorted[..i]);
      assert c !in sorted[..i];
    } else {
      assert DepsDone(bps[x].prerequisites, k, sorted);
    }
  }

  /** The in-degree relation of one loop turn: apps listing `c` lose one. */
  predicate StepDegree(k: set<string>, bps: map<string, Blueprint>, c: string,
                       inDegree: map<string, int>, inDegree': map<string, int>)
  {
    forall x :: x in k ==>
      x in bps && x in inDegree && x in inDegree' &&
      inDegree'[x] == if c in bps[x].prerequisites then inDegree[x] - 1 else inDegree[x]
  }

  /** Sorting `c` keeps each in-degree equal to the initial one less the sorted prerequisites. */
  lemma StepDegrees(k: set<string>, bps: map<string, Blueprint>, need: map<string, int>,
                    inDegree: map<string, int>, inDegree': map<string, int>, sorted: seq<string>, c: string)
    requires Framed(k, bps, need, inDegree) && Framed(k, bps, need, inDegree')
    requires Degrees(k, bps, need, inDegree, sorted)
    requires StepDegree(k, bps, c, inDegree, inDegree')
    ensures Degrees(k, bps, need, inDegree', sorted + [c])
  {
    forall x | x in k
      ensures inDegree'[x] == need[x] - Hits(bps[x].prerequisites, sorted + [c])
    {
      HitsSnoc(bps[x].prerequisites, sorted, c);
    }
  }

  /** The apps released by sorting the queue's head were neither sorted nor queued. */
  lemma StepReleasedFresh(k: set<string>, bps: map<string, Blueprint>, inDegree: map<string, int>,
                          queue: seq<string>, sorted: seq<string>, released: seq<string>)
    requires forall y :: y in sorted || y in queue ==> y in bps && y in inDegree
    requires Members(k, queue, sorted) && queue != []
    requires Ready(k, bps, inDegree, queue, sorted) && Precedes(k, bps, sorted)
    requires forall x :: x in released ==> x in bps && queue[0] in bps[x].prerequisites
    ensures forall x :: x in released ==> x !in sorted && x !in queue
  {
    forall x | x in released
      ensures x !in sorted && x !in queue
    {
      if x in sorted || x in queue {
        NotWaitingOn(k, bps, inDegree, queue, sorted, x);
      }
    }
  }

  /** An app stays waiting unless it is released now. */
  lemma StepWaiting(k: set<string>, bps: map<string, Blueprint>, inDegree: map<string, int>,
                    inDegree': map<string, int>, queue: seq<string>, sorted: seq<string>,
                    released: seq<string>, queue': seq<string>)
    requires queue != []
    requires StepDegree(k, bps, queue[0], inDegree, inDegree')
    requires Waiting(k, inDegree, queue, sorted)
    requires forall x :: x in released <==>
               x in k && queue[0] in bps[x].prerequisites && inDegree[x] == 1
    requires forall x :: x in queue' <==> x in queue[1..] || x in released
    ensures Waiting(k, inDegree', queue', sorted + [queue[0]])
  {
    forall x | x in k && x !in sorted + [queue[0]] && x !in queue'
      ensures inDegree'[x] != 0
    {
      assert queue == [queue[0]] + queue[1..];
      assert x !in queue;
    }
  }

  /** Every app of the new queue is ready. */
  lemma StepReady(k: set<string>, bps: map<string, Blueprint>, need: map<string, int>,
                  inDegree: map<string, int>, inDegree': map<string, int>,
                  queue: seq<string>, sorted: seq<string>, released: seq<string>, queue': seq<string>)
    requires Framed(k, bps, need, inDegree) && Framed(k, bps, need, inDegree')
    requires Members(k, queue, sorted) && queue != []
    requires Ready(k, bps, inDegree, queue, sorted) && Precedes(k, bps, sorted)
    requires forall x :: x in k ==> need[x] >= |InBatch(bps[x].prerequisites, k)|
    requires StepDegree(k, bps, queue[0], inDegree, inDegree')
    requires Degrees(k, bps, need, inDegree', sorted + [queue[0]])
    requires forall x :: x in released ==>
               x in k && queue[0] in bps[x].prerequisites && inDegree[x] == 1
    requires forall x :: x in queue' <==> x in queue[1..] || x in released
    ensures Ready(k, bps, inDegree', queue', sorted + [queue[0]])
  {
    var c := queue[0];
    var sorted' := sorted + [c];
    DistinctSnoc(sorted, c);
    SetOfCard(sorted');
    forall x | x in queue'
      ensures inDegree'[x] == 0 && DepsDone(bps[x].prerequisites, k, sorted')
    {
      if x in queue[1..] {
        NotWaitingOn(k, bps, inDegree, queue, sorted, x);
        assert DepsDone(bps[x].prerequisites, k, sorted);
      } else {
        CountedDone(bps[x].prerequisites, k, sorted', need[x]);
      }
    }
  }

  /** Every sorted app, the one taken now included, has in-degree zero. */
  lemma StepDone(k: set<string>, bps: map<string, Blueprint>, inDegree: map<string, int>,
                 inDegree': map<string, int>, queue: seq<string>, sorted: seq<string>)
    requires forall y :: y in sorted || y in queue ==> y in bps && y in inDegree
    requires Members(k, queue, sorted) && queue != []
    requires Ready(k, bps, inDegree, queue, sorted) && Precedes(k, bps, sorted)
    requires Done(inDegree, sorted)
    requires StepDegree(k, bps, queue[0], inDegree, inDegree')
    ensures forall x :: x in sorted + [queue[0]] ==> x in inDegree' && inDegree'[x] == 0
  {
    forall x | x in sorted + [queue[0]]
      ensures x in inDegree' && inDegree'[x] == 0
    {
      NotWaitingOn(k, bps, inDegree, queue, sorted, x);
    }
  }

  /** The app taken now follows its in-batch prerequisites. */
  lemma StepPrecedes(k: set<string>, bps: map<string, Blueprint>, sorted: seq<string>, c: string)
    requires c in bps && forall x :: x in sorted ==> x in bps
    requires Precedes(k, bps, sorted)
    requires DepsDone(bps[c].prerequisites, k, sorted)
    ensures Precedes(k, bps, sorted + [c])
  {
    var sorted' := sorted + [c];
    forall i | 0 <= i < |sorted'|
      ensures DepsDone(bps[sorted'[i]].prerequisites, k, sorted'[..i])
    {
      if i < |sorted| {
        assert sorted'[..i] == sorted[..i];
      } else {
        assert sorted'[..i] == sorted;
      }
    }
  }

  /** The app taken now has the lowest install order of the apps ready now. */
  lemma StepMinFirst(k: set<string>, bps: map<string, Blueprint>, need: map<string, int>,
                     inDegree: map<string, int>, queue: seq<string>, sorted: seq<string>)
    requires Framed(k, bps, need, inDegree)
    requires Members(k, queue, sorted) && queue != []
    requires Degrees(k, bps, need, inDegree, sorted)
    requires Waiting(k, inDegree, queue, sorted)
    requires SortedBy(queue, bps)
    requires MinFirst(k, bps, need, sorted)
    ensures MinFirst(k, bps, need, sorted + [queue[0]])
  {
    var sorted' := sorted + [queue[0]];
    forall i, x | 0 <= i < |sorted'| && x in k && x !in sorted'[..i + 1] &&
                  need[x] == Hits(bps[x].prerequisites, sorted'[..i])
      ensures bps[sorted'[i]].installOrder <= bps[x].installOrder
    {
      if i < |sorted| {
        assert sorted'[..i + 1] == sorted[..i + 1] && sorted'[..i] == sorted[..i];
      } else {
        assert sorted'[..i] == sorted && sorted'[..i + 1] == sorted';
        assert x !in sorted && x != queue[0];
        assert x in queue;
        var j :| 0 <= j < |queue| && queue[j] == x;
      }
    }
  }

  /** The taken app moves from the queue to the sorted list, the released apps join the
      queue, and no app is listed twice. */
  lemma StepMembers(k: set<string>, bps: map<string, Blueprint>, queue: seq<string>,
                    sorted: seq<string>, released: seq<string>)
    requires Members(k, queue, sorted) && queue != []
    requires Distinct(released)
    requires forall x :: x in released ==> x in k && x !in sorted && x !in queue
    requires forall y :: y in queue[1..] + released ==> y in bps
    ensures Members(k, SortByOrder(queue[1..] + released, bps), sorted + [queue[0]])
  {
    var c, rest := queue[0], queue[1..];
    assert queue == [c] + rest;
    DistinctCons(c, rest);
    DistinctSnoc(sorted, c);
    DistinctConcat(rest, released);
  }

  /** One turn of the `while queue` loop keeps the invariant. */
  lemma KahnStep(keys: seq<string>, k: set<string>, bps: map<string, Blueprint>, need: map<string, int>,
                 inDegree: map<string, int>, queue: seq<string>, sorted: seq<string>,
                 inDegree': map<string, int>, released: seq<string>)
    requires KahnInv(k, bps, need, inDegree, queue, sorted) && queue != []
    requires Distinct(keys) && SetOf(keys) == k
    requires forall x :: x in k ==> need[x] >= |InBatch(bps[x].prerequisites, k)|
    requires forall x :: x in keys ==> x in bps && x in inDegree
    requires inDegree' == Decremented(keys, bps, inDegree, queue[0])
    requires released == Released(keys, bps, inDegree, queue[0])
    ensures forall y :: y in queue[1..] + released ==> y in bps
    ensures KahnInv(k, bps, need, inDegree', SortByOrder(queue[1..] + released, bps), sorted + [queue[0]])
  {
    var c := queue[0];
    DecrementedSpec(keys, bps, inDegree, c);
    ReleasedSpec(keys, bps, inDegree, c);
    assert StepDegree(k, bps, c, inDegree, inDegree');
    var sorted' := sorted + [c];
    var rest := queue[1..];
    var pending := rest + released;
    assert forall y :: y in pending ==> y in k;
    var queue' := SortByOrder(pending, bps);
    assert Framed(k, bps, need, inDegree');
    StepReleasedFresh(k, bps, inDegree, queue, sorted, released);
    StepMembers(k, bps, queue, sorted, released);
    StepDegrees(k, bps, need, inDegree, inDegree', sorted, c);
    StepWaiting(k, bps, inDegree, inDegree', queue, sorted, released, queue');
    StepReady(k, bps, need, inDegree, inDegree', queue, sorted, released, queue');
    StepDone(k, bps, inDegree, inDegree', queue, sorted);
    StepPrecedes(k, bps, sorted, c);
    StepMinFirst(k, bps, need, inDegree, queue, sorted);
  }

  /** A prefix of a precedence order is one too, and a prefix of a list without repeats
      has none. */
  lemma PrecedesPrefix(k: set<string>, bps: map<string, Blueprint>, s: seq<string>, n: nat)
    requires n <= |s| && forall x :: x in s ==> x in bps
    requires Precedes(k, bps, s)
    ensures Precedes(k, bps, s[..n])
    ensures Distinct(s) ==> Distinct(s[..n])
  {
    forall i | 0 <= i < n
      ensures DepsDone(bps[s[..n][i]].prerequisites, k, s[..n][..i])
    {
      assert s[..n][..i] == s[..i];
    }
  }

  /** A non-empty set of batch apps each of which has a prerequisite in the set. */
  predicate StuckSet(batch: seq<string>, bps: map<string, Blueprint>, r: set<string>)
    requires forall a :: a in batch ==> a in bps
  {
    r != {} && r <= SetOf(batch) && forall x :: x in r ==> WaitsWithin(bps[x].prerequisites, r)
  }

  predicate WaitsWithin(deps: seq<string>, r: set<string>) {
    exists d :: d in deps && d in r
  }

  /** Some apps of the batch each wait on another app among them: none of them can
      ever be ordered (a dependency cycle, or a chain leading into one). */
  ghost predicate Stuck(batch: seq<string>, bps: map<string, Blueprint>)
    requires forall a :: a in batch ==> a in bps
  {
    exists r: set<string> :: StuckSet(batch, bps, r)
  }

  /** A precedence order of the whole batch rules out a stuck set: its earliest member
      would have to come after another member. */
  lemma PrecedesNotStuck(batch: seq<string>, bps: map<string, Blueprint>, sorted: seq<string>)
    requires forall a :: a in batch ==> a in bps
    requires forall x :: x in sorted ==> x in bps
    requires SetOf(sorted) == SetOf(batch)
    requires Precedes(SetOf(batch), bps, sorted)
    ensures !Stuck(batch, bps)
  {
    forall r: set<string> | r != {} && r <= SetOf(batch)
      ensures !StuckSet(batch, bps, r)
    {
      var y :| y in r;
      assert y in SetOf(sorted);
      FirstIn(sorted, r, y);
      var i :| 0 <= i < |sorted| && sorted[i] in r &&
               forall j :: 0 <= j < i ==> sorted[j] !in r;
      var x := sorted[i];
      assert DepsDone(bps[x].prerequisites, SetOf(batch), sorted[..i]);
      forall d | d in bps[x].prerequisites
        ensures d !in r
      {
        if d in SetOf(batch) {
          assert d in sorted[..i];
        }
      }
      assert !WaitsWithin(bps[x].prerequisites, r);
    }
  }

  /** A list holding a member of `r` has a first position holding one. */
  lemma FirstIn(s: seq<string>, r: set<string>, y: string)
    requires y in s && y in r
    ensures exists i :: 0 <= i < |s| && s[i] in r && forall j :: 0 <= j < i ==> s[j] !in r
  {
    var n := 0;
    while s[n] !in r
      invariant 0 <= n < |s|
      invariant forall j :: 0 <= j < n ==> s[j] !in r
      invariant y in s[n..]
      decreases |s| - n
    {
      n := n + 1;
    }
  }

  /** The state before the first turn of the `while queue` loop satisfies the invariant. */
  lemma KahnInit(keys: seq<string>, k: set<string>, bps: map<string, Blueprint>, need: map<string, int>,
                 inDegree: map<string, int>)
    requires Distinct(keys) && SetOf(keys) == k
    requires forall x :: x in k ==> x in bps && x in need && x in inDegree && inDegree[x] == need[x]
    requires forall x :: x in k ==> need[x] >= |InBatch(bps[x].prerequisites, k)|
    ensures forall y :: y in Zeros(keys, inDegree) ==> y in bps
    ensures KahnInv(k, bps, need, inDegree, SortByOrder(Zeros(keys, inDegree), bps), [])
  {
    ZerosSpec(keys, inDegree);
    var queue := SortByOrder(Zeros(keys, inDegree), bps);
    forall x | x in queue
      ensures DepsDone(bps[x].prerequisites, k, [])
    {
      CountedDone(bps[x].prerequisites, k, [], need[x]);
    }
  }

  /** A non-empty set of batch apps none of which started from the number of its
      prerequisites among the other apps of the batch: what Kahn's algorithm never reaches. */
  predicate Unreached(batch: seq<string>, bps: map<string, Blueprint>, need: map<string, int>,
                      rest: set<string>)
    requires forall a :: a in batch ==> a in bps && a in need
  {
    rest != {} && rest <= SetOf(batch) &&
    forall x :: x in rest ==> need[x] != |InBatch(bps[x].prerequisites, SetOf(batch) - rest)|
  }

  /** When the queue runs dry before the whole batch is sorted, the batch repeats an
      app, or the unsorted apps each start from an in-degree other than the count of their
      prerequisites among the sorted ones. */
  lemma KahnStalled(batch: seq<string>, bps: map<string, Blueprint>, need: map<string, int>,
                    inDegree: map<string, int>, sorted: seq<string>)
    requires Framed(SetOf(batch), bps, need, inDegree) && Members(SetOf(batch), [], sorted)
    requires Degrees(SetOf(batch), bps, need, inDegree, sorted)
    requires Waiting(SetOf(batch), inDegree, [], sorted)
    requires |sorted| != |batch|
    ensures !Distinct(batch) || exists rest :: Unreached(batch, bps, need, rest)
  {
    var k := SetOf(batch);
    SetOfCard(sorted);
    SetOfCard(batch);
    SubsetCard(SetOf(sorted), k);
    assert SetOf(sorted) <= k;
    if Distinct(batch) {
      var rest := k - SetOf(sorted);
      assert k == SetOf(sorted) + rest;
      assert |rest| == |k| - |SetOf(sorted)|;
      assert k - rest == SetOf(sorted);
      forall x | x in rest
        ensures need[x] != |InBatch(bps[x].prerequisites, k - rest)|
      {
        HitsCard(bps[x].prerequisites, sorted);
      }
      assert Unreached(batch, bps, need, rest);
    }
  }

  /** When the whole batch is sorted, the batch has no repeats, the result is a
      permutation of it, and each app started from the count of its in-batch
      prerequisites. */
  lemma KahnFinished(batch: seq<string>, bps: map<string, Blueprint>, need: map<string, int>,
                     inDegree: map<string, int>, sorted: seq<string>)
    requires KahnInv(SetOf(batch), bps, need, inDegree, [], sorted)
    requires |sorted| == |batch|
    ensures Distinct(batch) && forall x :: x in sorted <==> x in batch
    ensures forall a :: a in batch ==> need[a] == |InBatch(bps[a].prerequisites, SetOf(batch))|
  {
    var k := SetOf(batch);
    SetOfCard(sorted);
    SetOfCard(batch);
    SubsetCard(SetOf(sorted), k);
    assert SetOf(sorted) == k;
    forall a | a in batch
      ensures need[a] == |InBatch(bps[a].prerequisites, k)|
    {
      assert a in k;
      HitsCard(bps[a].prerequisites, sorted);
    }
  }

  /** The first loop of `_resolve_install_order`: `graph` and `in_degree` get one key per
      distinct app, in first-occurrence order, with the initial in-degree `need`. */
  method BuildGraph(batch: seq<string>, need: map<string, int>)
    returns (keys: seq<string>, inDegree: map<string, int>)
    requires forall a :: a in batch ==> a in need
    ensures Distinct(keys) && SetOf(keys) == SetOf(batch)
    ensures inDegree.Keys == SetOf(batch)
    ensures forall x :: x in inDegree ==> inDegree[x] == need[x]
  {
    keys, inDegree := [], map[];
    for i := 0 to |batch|
      invariant Distinct(keys) && SetOf(keys) == SetOf(batch[..i])
      invariant inDegree.Keys == SetOf(keys)
      invariant forall x :: x in inDegree ==> x in need && inDegree[x] == need[x]
    {
      var name := batch[i];
      assert batch[..i + 1] == batch[..i] + [name];
      assert SetOf(batch[..i + 1]) == SetOf(batch[..i]) + {name};
      assert SetOf(keys + [name]) == SetOf(keys) + {name};
      if name !in inDegree {
        DistinctSnoc(keys, name);
        keys := keys + [name];
      }
      inDegree := inDegree[name := need[name]];
    }
    assert batch[..|batch|] == batch;
  }

  /** `_resolve_install_order` with the in-degree each app starts from given as `need`:
      Kahn's algorithm, taking the ready app with the lowest install order first. It
      succeeds exactly when every app of the batch gets sorted, and then returns a
      permutation of the batch in which each app follows its in-batch prerequisites. */
  method Kahn(batch: seq<string>, bps: map<string, Blueprint>, need: map<string, int>)
    returns (r: Result<seq<string>>)
    requires forall a :: a in batch ==> a in bps && a in need
    requires forall a :: a in batch ==> need[a] >= |InBatch(bps[a].prerequisites, SetOf(batch))|
    ensures r.Ok? ==> Distinct(batch) && Distinct(r.value) && |r.value| == |batch|
    ensures r.Ok? ==> forall x :: x in r.value <==> x in batch
    ensures r.Ok? ==> Precedes(SetOf(batch), bps, r.value)
    ensures r.Ok? ==> MinFirst(SetOf(batch), bps, need, r.value)
    ensures r.Ok? ==> forall a :: a in batch ==> need[a] == |InBatch(bps[a].prerequisites, SetOf(batch))|
    ensures r.Raised? ==> !Distinct(batch) || exists rest :: Unreached(batch, bps, need, rest)
  {
    ghost var k := SetOf(batch);
    var keys, inDegree := BuildGraph(batch, need);
    var sorted: seq<string> := [];
    KahnInit(keys, k, bps, need, inDegree);
    var queue := SortByOrder(Zeros(keys, inDegree), bps);
    while queue != []
      invariant KahnInv(k, bps, need, inDegree, queue, sorted)
      invariant forall x :: x in keys ==> x in bps && x in inDegree
      invariant |sorted| <= |k|
      decreases |k| - |sorted|
    {
      var current := queue[0];
      var released;
      ghost var d0, q0 := inDegree, queue;
      inDegree, released := Release(current, keys, bps, inDegree, []);
      KahnStep(keys, k, bps, need, d0, q0, sorted, inDegree, released);
      sorted := sorted + [current];
      queue := SortByOrder(queue[1..] + released, bps);
      SetOfCard(sorted);
      SubsetCard(SetOf(sorted), k);
    }
    if |sorted| != |batch| {
      KahnStalled(batch, bps, need, inDegree, sorted);
      return Raised("Circular dependency detected");
    }
    KahnFinished(batch, bps, need, inDegree, sorted);
    r := Ok(sorted);
  }

  // ---------------------------------------------------------- the two initial in-degrees

  /** The in-batch prerequisites are at most all prerequisites, and all of them exactly
      when the list has no repeats and names only apps of the batch. */
  lemma InBatchCard(deps: seq<string>, k: set<string>)
    ensures |InBatch(deps, k)| <= |deps|
    ensures |InBatch(deps, k)| == |deps| <==> Distinct(deps) && forall d :: d in deps ==> d in k
  {
    SetOfCard(deps);
    var inb := InBatch(deps, k);
    assert inb <= SetOf(deps);
    SubsetCard(inb, SetOf(deps));
    if Distinct(deps) && forall d :: d in deps ==> d in k {
      assert inb == SetOf(deps);
    }
    if |inb| == |deps| {
      assert inb == SetOf(deps);
      forall d | d in deps
        ensures d in k
      {
        assert d in SetOf(deps);
      }
    }
  }

  /** Each app's prerequisites are listed once and are all in the batch. */
  predicate AllWithin(batch: seq<string>, bps: map<string, Blueprint>)
    requires forall a :: a in batch ==> a in bps
  {
    forall a :: a in batch ==>
      Distinct(bps[a].prerequisites) && forall d :: d in bps[a].prerequisites ==> d in batch
  }

  /** A failed run of Kahn's algorithm whose apps started from the count of their in-batch
      prerequisites leaves behind a stuck set: the apps it never reached. */
  lemma ExactCountStuck(batch: seq<string>, bps: map<string, Blueprint>, need: map<string, int>,
                        rest: set<string>)
    requires forall a :: a in batch ==> a in bps && a in need
    requires forall a :: a in batch ==> need[a] == |InBatch(bps[a].prerequisites, SetOf(batch))|
    requires Unreached(batch, bps, need, rest)
    ensures StuckSet(batch, bps, rest)
  {
    var k := SetOf(batch);
    forall x | x in rest
      ensures WaitsWithin(bps[x].prerequisites, rest)
    {
      var deps := bps[x].prerequisites;
      assert InBatch(deps, k - rest) <= InBatch(deps, k);
      if InBatch(deps, k - rest) == InBatch(deps, k) {
        assert false;
      }
      var d :| d in InBatch(deps, k) && d !in InBatch(deps, k - rest);
      assert d in deps && d in rest;
    }
  }

  /** Each app of the batch with the length of its whole prerequisite list. */
  function ListedCounts(batch: seq<string>, bps: map<string, Blueprint>): (need: map<string, int>)
    requires forall a :: a in batch ==> a in bps
    ensures forall a :: a in batch ==> a in need && need[a] == |bps[a].prerequisites|
  {
    map a | a in batch :: |bps[a].prerequisites|
  }

  /** `_resolve_install_order` as written: every app starts from the length of its whole
      prerequisite list, installed prerequisites outside the batch included. It succeeds
      exactly when the batch has no repeats, no app is stuck, and every app's
      prerequisites are listed once and all in the batch; its order then always takes
      the ready app with the lowest install order. */
  method ResolveInstallOrderAsWritten(batch: seq<string>, bps: map<string, Blueprint>)
    returns (r: Result<seq<string>>)
    requires forall a :: a in batch ==> a in bps
    ensures r.Ok? <==> Distinct(batch) && AllWithin(batch, bps) && !Stuck(batch, bps)
    ensures r.Ok? ==> |r.value| == |batch| && Distinct(r.value) &&
                      (forall x :: x in r.value <==> x in batch) &&
                      Precedes(SetOf(batch), bps, r.value)
    ensures r.Ok? ==> MinFirst(SetOf(batch), bps, ListedCounts(batch, bps), r.value)
  {
    var need := ListedCounts(batch, bps);
    forall a | a in batch
      ensures need[a] >= |InBatch(bps[a].prerequisites, SetOf(batch))|
    {
      InBatchCard(bps[a].prerequisites, SetOf(batch));
    }
    r := Kahn(batch, bps, need);
    if r.Ok? {
      forall a | a in batch
        ensures Distinct(bps[a].prerequisites) && forall d :: d in bps[a].prerequisites ==> d in batch
      {
        InBatchCard(bps[a].prerequisites, SetOf(batch));
      }
      PrecedesNotStuck(batch, bps, r.value);
    } else if Distinct(batch) && AllWithin(batch, bps) {
      forall a | a in batch
        ensures need[a] == |InBatch(bps[a].prerequisites, SetOf(batch))|
      {
        InBatchCard(bps[a].prerequisites, SetOf(batch));
      }
      var rest :| Unreached(batch, bps, need, rest);
      ExactCountStuck(batch, bps, need, rest);
    }
  }

  /** `_resolve_install_order` with each app starting from the number of distinct
      prerequisites it has inside the batch, so that prerequisites already installed do
      not hold it back. It succeeds exactly when the batch has no repeats and no app is
      stuck, and then orders the whole batch, each app after its in-batch prerequisites,
      always taking the ready app with the lowest install order. */
  method ResolveInstallOrder(batch: seq<string>, bps: map<string, Blueprint>)
    returns (r: Result<seq<string>>)
    requires forall a :: a in batch ==> a in bps
    ensures r.Ok? <==> Distinct(batch) && !Stuck(batch, bps)
    ensures r.Ok? ==> |r.value| == |batch| && Distinct(r.value) &&
                      (forall x :: x in r.value <==> x in batch) &&
                      Precedes(SetOf(batch), bps, r.value)
    ensures r.Ok? ==> MinFirst(SetOf(batch), bps, InBatchCounts(batch, bps), r.value)
  {
    var need := InBatchCounts(batch, bps);
    r := Kahn(batch, bps, need);
    if r.Ok? {
      PrecedesNotStuck(batch, bps, r.value);
    } else if Distinct(batch) {
      var rest :| Unreached(batch, bps, need, rest);
      ExactCountStuck(batch, bps, need, rest);
    }
  }

  /** Each app of the batch with the number of its distinct prerequisites in the batch. */
  function InBatchCounts(batch: seq<string>, bps: map<string, Blueprint>): (need: map<string, int>)
    requires forall a :: a in batch ==> a in bps
    ensures forall a :: a in batch ==> a in need && need[a] == |InBatch(bps[a].prerequisites, SetOf(batch))|
  {
    map a | a in batch :: |InBatch(bps[a].prerequisites, SetOf(batch))|
  }

  /** A single app of the batch whose prerequisites all lie outside it is never stuck. */
  lemma OutsidePrerequisitesNotStuck(a: string, bps: map<string, Blueprint>)
    requires a in bps && a !in bps[a].prerequisites
    ensures !Stuck([a], bps)
  {
    forall r: set<string> | r != {} && r <= SetOf([a])
      ensures !StuckSet([a], bps, r)
    {
      assert r == {a};
      assert !WaitsWithin(bps[a].prerequisites, r);
    }
  }

  /** Installing Sonarr alone while its prerequisite Prowlarr is already running: the
      missing-prerequisite check passes, the order as written still raises, and the
      corrected order installs Sonarr. */
  method InstalledPrerequisiteExample()
    returns (missing: set<string>, asWritten: Result<seq<string>>, corrected: Result<seq<string>>)
    ensures missing == {} && asWritten.Raised? && corrected == Ok(["sonarr"])
  {
    var bps := map["sonarr" := Blueprint("sonarr", 20.0, ["prowlarr"], []),
                   "prowlarr" := Blueprint("prowlarr", 10.0, [], [])];
    var batch := ["sonarr"];
    var rows := [("prowlarr", Running)];
    assert "prowlarr" in InstalledBlueprints(rows);
    missing := CheckMissingPrerequisites(batch, bps, rows);
    assert "prowlarr" !in batch;
    asWritten := ResolveInstallOrderAsWritten(batch, bps);
    OutsidePrerequisitesNotStuck("sonarr", bps);
    assert Distinct(batch);
    corrected := ResolveInstallOrder(batch, bps);
    assert |corrected.value| == 1 && corrected.value[0] in batch;
    assert corrected.value == [corrected.value[0]];
  }
}

=== FILE: installer.dfy ===
/** The installer's status transitions (services/installer.py): one app at a time, and
    a batch in prerequisite order that halts at the first failure. What happens outside
    the process (creating the stack directory, writing the compose file, `docker
    compose up`) is one step whose outcome per stack directory is given as `deploy`:
    `None` when it succeeds, else the text of the exception it raises. */
module Installer {
  import opened Text
  import opened Values
  import opened Models
  import opened InstallOrder
  import opened ComposeGenerator
  import opened PathResolver

  /** Where `install_single_app` writes the app's compose file. */
  function ComposeFilePath(dbName: string): string {
    PathJoin(StackPath(dbName), "docker-compose.yml")
  }

  /** The text of the exception installing an app raises, or `None` when its install
      succeeds: generation's error for inputs it rejects, else what deployment raises. */
  function InstallFailure(bp: Blueprint, inputs: Value, dbName: string,
                          deploy: string -> Option<string>): Option<string>
  {
    if !Generable(bp, inputs) then Some(GenerateError(bp, inputs)) else deploy(StackPath(dbName))
  }

  /** `install_single_app`: the app is committed as installing, then as running with its
      compose data once generation and deployment succeed, or as failed with the
      exception's text, which is raised again. */
  method InstallSingleApp(app: App, bp: Blueprint, stored: Option<GlobalSettings>,
                          deploy: string -> Option<string>)
    returns (r: Result<()>)
    modifies app
    ensures r.Ok? <==> Generable(bp, old(app.inputs)) && deploy(StackPath(app.dbName)) == None
    ensures r.Raised? ==> Some(r.error) == InstallFailure(bp, old(app.inputs), app.dbName, deploy)
    ensures app.inputs == old(app.inputs)
    ensures r.Ok? ==> app.status == Running && app.history == old(app.history) + [Installing, Running]
    ensures r.Ok? ==> app.composeFilePath == Some(ComposeFilePath(app.dbName))
    ensures r.Ok? ==> app.errorMessage == old(app.errorMessage) &&
                      app.composeData == Some(ComposeFileOf(bp, app.inputs.fields, SettingsOf(stored))) &&
                      app.composeData.value.services.Keys == {ContainerNameOf(bp, app.inputs.fields).s}
    ensures r.Raised? ==> app.status == Error && app.history == old(app.history) + [Installing, Error]
    ensures r.Raised? ==> app.errorMessage == Some(r.error) &&
                          app.composeData == old(app.composeData) &&
                          app.composeFilePath == old(app.composeFilePath)
  {
    app.Commit(Installing);
    var compose := Generate(bp, app.inputs, stored);
    var failure := if compose.Raised? then Some(compose.error) else deploy(StackPath(app.dbName));
    assert failure == InstallFailure(bp, app.inputs, app.dbName, deploy);
    if failure.None? {
      app.composeFilePath := Some(ComposeFilePath(app.dbName));
      app.composeData := Some(compose.value);
      app.Commit(Running);
      r := Ok(());
    } else {
      app.errorMessage := Some(failure.value);
      app.Commit(Error);
      r := Raised(failure.value);
    }
  }

  /** The blueprint names of the apps, in order. */
  function Names(apps: seq<App>): (names: seq<string>)
    ensures |names| == |apps| && forall i :: 0 <= i < |apps| ==> names[i] == apps[i].blueprintName
    ensures forall a :: a in apps ==> a.blueprintName in names
  {
    var names := seq(|apps|, i requires 0 <= i < |apps| => apps[i].blueprintName);
    assert forall i :: 0 <= i < |apps| ==> names[i] == apps[i].blueprintName;
    names
  }

  /** The position of a name in a list holding it, the first one. */
  function Position(s: seq<string>, x: string): (i: nat)
    requires x in s
    ensures i < |s| && s[i] == x && x !in s[..i]
  {
    if s[0] == x then 0
    else
      var j := Position(s[1..], x);
      assert s[..j + 1] == [s[0]] + s[1..][..j];
      j + 1
  }

  /** The first blueprint name without a blueprint row, if any: `blueprints[name]`
      raises `KeyError` there. */
  method FindUnknown(names: seq<string>, bps: map<string, Blueprint>) returns (unknown: Option<nat>)
    ensures unknown.None? <==> forall a :: a in names ==> a in bps
    ensures unknown.Some? ==> unknown.value < |names| && names[unknown.value] !in bps &&
                              forall j :: 0 <= j < unknown.value ==> names[j] in bps
  {
    for i := 0 to |names|
      invariant forall j :: 0 <= j < i ==> names[j] in bps
    {
      if names[i] !in bps {
        return Some(i);
      }
    }
    unknown := None;
  }

  /** The names of a set in some order, as iterating a Python set lists them. */
  method ListSet(s: set<string>) returns (listed: seq<string>)
    ensures forall x :: x in listed <==> x in s
    ensures |listed| == |s|
  {
    listed := [];
    var rest := s;
    while rest != {}
      invariant rest <= s
      invariant forall x :: x in listed <==> x in s && x !in rest
      invariant |listed| + |rest| == |s|
      decreases |rest|
    {
      var d :| d in rest;
      listed := listed + [d];
      rest := rest - {d};
    }
  }

  /** Installing the app succeeds: the inputs it holds now are accepted and its stack
      deploys. */
  predicate Installs(app: App, bps: map<string, Blueprint>, deploy: string -> Option<string>)
    reads app
    requires app.blueprintName in bps
  {
    InstallFailure(bps[app.blueprintName], app.inputs, app.dbName, deploy) == None
  }

  /** What the install loop leaves on an app it attempted, `last` being the last one
      attempted: when the loop raised, that app does not install, is failed with the text
      of its own exception and is named in the halt message; every other attempted app is running and
      installs. */
  predicate Attempted(a: App, bps: map<string, Blueprint>, deploy: string -> Option<string>,
                      r: Result<()>, last: string)
    reads a
    requires a.blueprintName in bps
  {
    if r.Raised? && a.blueprintName == last
    then a.status == Error && !Installs(a, bps, deploy) &&
         a.errorMessage == InstallFailure(bps[a.blueprintName], a.inputs, a.dbName, deploy) &&
         r.error == "Installation halted due to failure in " + a.name
    else a.status == Running && Installs(a, bps, deploy)
  }

  /** One turn of the install loop of `install_apps_batch`: a failure is recorded on the
      app, which is committed as failed, and the batch's halt message is raised. */
  method InstallNext(app: App, bps: map<string, Blueprint>, stored: Option<GlobalSettings>,
                     deploy: string -> Option<string>)
    returns (r: Result<()>)
    requires app.blueprintName in bps
    modifies app
    ensures app.inputs == old(app.inputs)
    ensures r.Ok? <==> Installs(app, bps, deploy)
    ensures Attempted(app, bps, deploy, r, app.blueprintName)
  {
    var bp := bps[app.blueprintName];
    var installed := InstallSingleApp(app, bp, stored, deploy);
    if installed.Raised? {
      app.errorMessage := Some(installed.error);
      app.Commit(Error);
      return Raised("Installation halted due to failure in " + app.name);
    }
    r := Ok(());
  }

  /** Apps with the same blueprint name are the same app. */
  predicate UniqueNames(apps: seq<App>) {
    forall a, b :: a in apps && b in apps && a.blueprintName == b.blueprintName ==> a == b
  }

  /** Distinct blueprint names make the apps unique by name. */
  lemma DistinctUniqueNames(apps: seq<App>)
    requires Distinct(Names(apps))
    ensures UniqueNames(apps)
  {
    forall a, b | a in apps && b in apps && a.blueprintName == b.blueprintName
      ensures a == b
    {
      var i :| 0 <= i < |apps| && apps[i] == a;
      var j :| 0 <= j < |apps| && apps[j] == b;
      assert Names(apps)[i] == Names(apps)[j];
    }
  }

  /** One turn of the install loop on the app named `name`, after the apps named in
      `done`: that app alone changes. */
  method InstallTurn(apps: seq<App>, bps: map<string, Blueprint>, name: string, ghost done: seq<string>,
                     stored: Option<GlobalSettings>, deploy: string -> Option<string>)
    returns (r: Result<()>)
    requires UniqueNames(apps) && name in Names(apps) && name in bps && name !in done
    requires forall x :: x in done ==> x in bps
    requires forall a :: a in apps && a.blueprintName in done ==> a.status == Running && Installs(a, bps, deploy)
    modifies set a | a in apps
    ensures forall a :: a in apps ==> a.inputs == old(a.inputs)
    ensures forall a :: a in apps && a.blueprintName != name ==> unchanged(a)
    ensures forall a :: a in apps && a.blueprintName in done + [name] ==> Attempted(a, bps, deploy, r, name)
    ensures r.Ok? <==> forall a :: a in apps && a.blueprintName == name ==> Installs(a, bps, deploy)
  {
    var app := apps[Position(Names(apps), name)];
    r := InstallNext(app, bps, stored, deploy);
  }

  /** The install loop of `install_apps_batch` over an order already resolved: each app
      in turn, halting at the first failure, which marks its app as failed. It succeeds
      exactly when every app of the order installs; otherwise the last app attempted is
      the first that does not, and it carries the text of its exception. `attempted` is
      the part of the order installation was tried on; when the order respects the
      prerequisites within the batch `k`, so does that part. */
  method InstallInOrder(apps: seq<App>, bps: map<string, Blueprint>, sorted: seq<string>,
                        ghost k: set<string>, stored: Option<GlobalSettings>,
                        deploy: string -> Option<string>)
    returns (r: Result<()>, ghost attempted: seq<string>)
    requires Distinct(Names(apps)) && Distinct(sorted)
    requires forall x :: x in sorted ==> x in Names(apps) && x in bps
    requires forall x :: x in Names(apps) ==> x in sorted
    requires Precedes(k, bps, sorted)
    modifies set a | a in apps
    ensures |attempted| <= |sorted| && attempted == sorted[..|attempted|]
    ensures Distinct(attempted) && Precedes(k, bps, attempted)
    ensures forall x :: x in attempted ==> x in sorted
    ensures r.Ok? ==> attempted == sorted &&
                      forall a :: a in apps ==> a.status == Running && a.blueprintName in attempted
    ensures r.Raised? ==> attempted != []
    ensures forall a :: a in apps && a.blueprintName !in attempted ==> unchanged(a)
    ensures forall a :: a in apps ==> a.inputs == old(a.inputs)
    ensures r.Ok? <==> forall a :: a in apps ==> Installs(a, bps, deploy)
    ensures forall a :: a in apps && a.blueprintName in attempted ==>
              Attempted(a, bps, deploy, r, attempted[|attempted| - 1])
  {
    DistinctUniqueNames(apps);
    attempted := [];
    for t := 0 to |sorted|
      invariant attempted == sorted[..t]
      invariant forall a :: a in apps ==> a.inputs == old(a.inputs)
      invariant forall a :: a in apps && a.blueprintName in attempted ==>
                  a.status == Running && Installs(a, bps, deploy)
      invariant forall a :: a in apps && a.blueprintName !in attempted ==> unchanged(a)
    {
      assert sorted[..t + 1] == attempted + [sorted[t]];
      assert sorted[t] !in attempted;
      r := InstallTurn(apps, bps, sorted[t], attempted, stored, deploy);
      attempted := sorted[..t + 1];
      if r.Raised? {
        PrecedesPrefix(k, bps, sorted, t + 1);
        return;
      }
    }
    assert sorted[..|sorted|] == sorted;
    r := Ok(());
  }

  /** The checks `install_apps_batch` makes before touching any app: every blueprint
      exists, no prerequisite is missing, and the batch can be ordered. The answer is the
      install order, or the exception raised. */
  method PlanBatch(names: seq<string>, bps: map<string, Blueprint>, rows: seq<(string, Status)>)
    returns (r: Result<seq<string>>)
    ensures ((forall a :: a in names ==> a in bps) &&
             MissingPrerequisites(names, bps, InstalledBlueprints(rows)) != {}) ==> r.Raised?
    ensures r.Ok? ==> (forall a :: a in names ==> a in bps) &&
                      MissingPrerequisites(names, bps, InstalledBlueprints(rows)) == {} &&
                      Distinct(names) && |r.value| == |names| && Distinct(r.value) &&
                      (forall x :: x in r.value <==> x in names) &&
                      Precedes(SetOf(names), bps, r.value)
    ensures (forall a :: a in names ==> a in bps) &&
            MissingPrerequisites(names, bps, InstalledBlueprints(rows)) == {} ==>
              (r.Ok? <==> Distinct(names) && !Stuck(names, bps))
  {
    var unknown := FindUnknown(names, bps);
    if unknown.Some? {
      return Raised("'" + names[unknown.value] + "'");
    }
    var missing := CheckMissingPrerequisites(names, bps, rows);
    if missing != {} {
      var listed := ListSet(missing);
      return Raised("Missing required apps: " + Join(", ", listed) +
                    ". Please install these first or add them to your selection.");
    }
    r := ResolveInstallOrder(names, bps);
  }

  /** `install_apps_batch` with the corrected install order. An unknown blueprint, a
      missing prerequisite or an unorderable batch raises before any app changes. Then
      the apps are installed in order; the first failure marks its app as failed with
      its exception's text and halts the batch, and the apps after it are never
      touched. The batch succeeds exactly when it can be ordered and every app in it
      installs. `attempted` lists the apps installation was tried on, in order. */
  method InstallAppsBatch(apps: seq<App>, bps: map<string, Blueprint>, rows: seq<(string, Status)>,
                          stored: Option<GlobalSettings>, deploy: string -> Option<string>)
    returns (r: Result<()>, ghost attempted: seq<string>)
    modifies set a | a in apps
    ensures var names := Names(apps);
            (forall a :: a in names ==> a in bps) &&
            MissingPrerequisites(names, bps, InstalledBlueprints(rows)) != {} ==>
              r.Raised? && attempted == []
    ensures var names := Names(apps);
            attempted != [] ==>
              (forall a :: a in names ==> a in bps) && Distinct(attempted) &&
              (forall x :: x in attempted ==> x in names) &&
              Precedes(SetOf(names), bps, attempted)
    ensures forall a :: a in apps && a.blueprintName !in attempted ==> unchanged(a)
    ensures forall a :: a in apps ==> a.inputs == old(a.inputs)
    ensures var names := Names(apps);
            r.Ok? <==> (forall a :: a in names ==> a in bps) &&
                       MissingPrerequisites(names, bps, InstalledBlueprints(rows)) == {} &&
                       Distinct(names) && !Stuck(names, bps) &&
                       forall a :: a in apps ==> Installs(a, bps, deploy)
    ensures r.Ok? ==> forall a :: a in apps ==> a.status == Running && a.blueprintName in attempted
    ensures forall a :: a in apps && a.blueprintName in attempted ==>
              Attempted(a, bps, deploy, r, attempted[|attempted| - 1])
  {
    var names := Names(apps);
    var plan := PlanBatch(names, bps, rows);
    if plan.Ok? {
      r, attempted := InstallInOrder(apps, bps, plan.value, SetOf(names), stored, deploy);
    } else {
      r, attempted := Raised(plan.error), [];
    }
  }
}

=== FILE: models.dfy ===
/** Records the core reads and writes: the app row, its status, the blueprint row,
    the global settings row (models/database.py) and the compose schema the legacy
    generator emits (models/schemas.py). Database sessions and queries are not part
    of this model; rows are passed in as values. */
module Models {
  import opened Values

  /** The statuses the code assigns to `App.status`. */
  datatype Status = Pending | Configured | Installing | Running | Stopped | Error {
    /** The string stored in the database column. */
    function Name(): string {
      match this
      case Pending => "pending"
      case Configured => "configured"
      case Installing => "installing"
      case Running => "running"
      case Stopped => "stopped"
      case Error => "error"
    }
  }

  /** The singleton settings row. */
  datatype GlobalSettings = GlobalSettings(
    puid: int,
    pgid: int,
    timezone: string,
    networkName: string,
    networkSubnet: string,
    networkGateway: string,
    stacksPath: string,
    dataPath: string)

  /** The column defaults a freshly created settings row receives. */
  const DefaultSettings := GlobalSettings(1000, 1000, "UTC", "mastarr_net",
                                          "10.21.12.0/26", "10.21.12.1", "/stacks", "/app/data")

  /** A blueprint row: its name, install order, prerequisite blueprint names and field schema. */
  datatype Blueprint = Blueprint(
    name: string,
    installOrder: real,
    prerequisites: seq<string>,
    schema: seq<Entry>)

  /** A compose service as the legacy generator builds it (short-form lists). */
  datatype ComposeService = ComposeService(
    image: string,
    containerName: string,
    restart: string,
    environment: seq<string>,
    volumes: seq<string>,
    ports: seq<string>,
    networks: seq<string>)

  /** A compose file: version, services by name and top-level networks. */
  datatype ComposeFile = ComposeFile(
    version: string,
    services: map<string, ComposeService>,
    networks: seq<Entry>)

  /** An app row; the installer and the app routes update it in place. No code path
      renames an app or changes its blueprint once the row exists. */
  class App {
    const name: string
    const dbName: string
    const blueprintName: string
    var status: Status
    var errorMessage: Option<string>
    var inputs: Value
    var composeData: Option<ComposeFile>
    var composeFilePath: Option<string>
    /** Every status the row has been committed with, oldest first. */
    ghost var history: seq<Status>

    constructor (name: string, dbName: string, blueprintName: string, inputs: Value, status: Status)
      ensures this.name == name && this.dbName == dbName && this.blueprintName == blueprintName
      ensures this.inputs == inputs && this.status == status
      ensures errorMessage == None && composeData == None && composeFilePath == None
      ensures history == [status]
    {
      this.name := name;
      this.dbName := dbName;
      this.blueprintName := blueprintName;
      this.inputs := inputs;
      this.status := status;
      errorMessage := None;
      composeData := None;
      composeFilePath := None;
      history := [status];
    }

    /** Assigns a status and commits the row. */
    method Commit(s: Status)
      modifies this
      ensures status == s && history == old(history) + [s]
      ensures inputs == old(inputs) && errorMessage == old(errorMessage)
      ensures composeData == old(composeData) && composeFilePath == old(composeFilePath)
    {
      status := s;
      history := history + [s];
    }
  }
}

=== FILE: path_resolver.dfy ===
/** Container-to-host path resolution (utils/path_resolver.py). The mounts of the
    running container arrive as a value: `None` stands for a failed container lookup,
    which the resolver catches and answers with the path unchanged. */
module PathResolver {
  import opened Text
  import opened Values

  /** One entry of the container's `Mounts` list. */
  datatype Mount = Mount(destination: string, source: string)

  /** The mount covers the path exactly, or as a directory above it. */
  predicate Covers(m: Mount, path: string) {
    m.destination == path || StartsWith(path, m.destination + "/")
  }

  /** The host path a covering mount gives: its source, joined with the rest of the
      path below the mount point, leading slashes stripped. */
  function Through(m: Mount, path: string): string
    requires Covers(m, path)
  {
    if m.destination == path then m.source
    else PathJoin(m.source, LStrip(path[|m.destination|..], '/'))
  }

  /** The answer `resolve_host_path` gives: the first covering mount's host path, or the
      path itself when no mount covers it or the container cannot be inspected. */
  function Resolved(mounts: Option<seq<Mount>>, path: string): string {
    match mounts
    case None => path
    case Some(ms) => FirstCovering(ms, path)
  }

  function FirstCovering(ms: seq<Mount>, path: string): string {
    if ms == [] then path
    else if Covers(ms[0], path) then Through(ms[0], path)
    else FirstCovering(ms[1..], path)
  }

  /** The first covering mount decides: mounts before it cover nothing, mounts after it
      are never looked at. */
  lemma {:induction false} FirstCoveringWins(ms: seq<Mount>, path: string, i: nat)
    requires i < |ms| && Covers(ms[i], path)
    requires forall j :: 0 <= j < i ==> !Covers(ms[j], path)
    ensures FirstCovering(ms, path) == Through(ms[i], path)
  {
    if i > 0 {
      FirstCoveringWins(ms[1..], path, i - 1);
    }
  }

  /** With no covering mount the path comes back unchanged. */
  lemma {:induction false} NoCoveringUnchanged(ms: seq<Mount>, path: string)
    requires forall j :: 0 <= j < |ms| ==> !Covers(ms[j], path)
    ensures FirstCovering(ms, path) == path
  {
    if ms != [] {
      NoCoveringUnchanged(ms[1..], path);
    }
  }

  /** A mount does not cover a sibling whose name merely starts like it (a mount on
      `/stacks` and the path `/stacksX`): the match stops at a `/`. */
  lemma SiblingNotCovered(dest: string, source: string, c: char, rest: string)
    requires c != '/'
    ensures !Covers(Mount(dest, source), dest + [c] + rest)
  {
    var path := dest + [c] + rest;
    assert |path| > |dest|;
    assert path[..|dest + "/"|][|dest|] == c;
    assert (dest + "/")[|dest|] == '/';
  }

  /** A path below a mount point resolves to the rest of the path joined to the source. */
  lemma SubdirectoryThrough(dest: string, source: string, rest: string)
    requires rest == [] || rest[0] != '/'
    ensures Covers(Mount(dest, source), dest + "/" + rest)
    ensures Through(Mount(dest, source), dest + "/" + rest) == PathJoin(source, rest)
  {
    var path := dest + "/" + rest;
    assert path[..|dest + "/"|] == dest + "/";
    var below := path[|dest|..];
    assert below == "/" + rest && below[1..] == rest;
    assert LStrip(below, '/') == LStrip(rest, '/');
  }

  /** `get_stack_path`: the app's directory under `/stacks` inside the container. */
  function StackPath(appName: string): (p: string)
    ensures !StartsWith(appName, "/") ==> p == "/stacks/" + appName
    ensures StartsWith(appName, "/") ==> p == appName
  {
    PathJoin("/stacks", appName)
  }

  /** The resolver with its two memo fields. */
  class Resolver {
    /** What the Docker lookup of this container yields (`None`: it raised). */
    const mounts: Option<seq<Mount>>
    var hostStacksPath: Option<string>
    var hostDataPath: Option<string>

    constructor (mounts: Option<seq<Mount>>)
      ensures this.mounts == mounts && hostStacksPath == None && hostDataPath == None
    {
      this.mounts := mounts;
      hostStacksPath := None;
      hostDataPath := None;
    }

    /** `resolve_host_path`: the loop over the mounts with its two early returns. */
    method ResolveHostPath(containerPath: string) returns (hostPath: string)
      ensures hostPath == Resolved(mounts, containerPath)
    {
      if mounts.None? {
        return containerPath;
      }
      var ms := mounts.value;
      for i := 0 to |ms|
        invariant FirstCovering(ms, containerPath) == FirstCovering(ms[i..], containerPath)
      {
        assert ms[i..][1..] == ms[i + 1..];
        var dest, source := ms[i].destination, ms[i].source;
        if dest == containerPath {
          return source;
        }
        if StartsWith(containerPath, dest + "/") {
          var relative := LStrip(containerPath[|dest|..], '/');
          return PathJoin(source, relative);
        }
      }
      assert ms[|ms|..] == [];
      hostPath := containerPath;
    }

    /** `get_host_stacks_path`: resolves `/stacks` while the memo is empty or unset, and
        otherwise answers from the memo without resolving again. */
    method GetHostStacksPath() returns (p: string)
      modifies this
      ensures old(hostStacksPath).Some? && old(hostStacksPath).value != [] ==>
                p == old(hostStacksPath).value
      ensures (old(hostStacksPath).None? || old(hostStacksPath).value == []) ==>
                p == Resolved(mounts, "/stacks")
      ensures hostStacksPath == Some(p) && hostDataPath == old(hostDataPath)
    {
      if hostStacksPath.None? || hostStacksPath.value == [] {
        var resolved := ResolveHostPath("/stacks");
        hostStacksPath := Some(resolved);
      }
      p := hostStacksPath.value;
    }

    /** `get_host_data_path`: the same memoisation for `/app/data`. */
    method GetHostDataPath() returns (p: string)
      modifies this
      ensures old(hostDataPath).Some? && old(hostDataPath).value != [] ==>
                p == old(hostDataPath).value
      ensures (old(hostDataPath).None? || old(hostDataPath).value == []) ==>
                p == Resolved(mounts, "/app/data")
      ensures hostDataPath == Some(p) && hostStacksPath == old(hostStacksPath)
    {
      if hostDataPath.None? || hostDataPath.value == [] {
        var resolved := ResolveHostPath("/app/data");
        hostDataPath := Some(resolved);
      }
      p := hostDataPath.value;
    }

    /** `get_host_stack_path`: the app's directory under the host path of `/stacks`. */
    method GetHostStackPath(appName: string) returns (p: string)
      modifies this
      ensures hostStacksPath.Some? && p == PathJoin(hostStacksPath.value, appName)
      ensures old(hostStacksPath).Some? && old(hostStacksPath).value != [] ==>
                hostStacksPath == old(hostStacksPath)
      ensures (old(hostStacksPath).None? || old(hostStacksPath).value == []) ==>
                hostStacksPath == Some(Resolved(mounts, "/stacks"))
      ensures hostDataPath == old(hostDataPath)
    {
      var stacks := GetHostStacksPath();
      p := PathJoin(stacks, appName);
    }
  }

  /** Asking twice for the host stacks path resolves at most once: the second answer
      equals the first and leaves the memo as it was. */
  method StacksPathTwice(r: Resolver) returns (first: string, second: string)
    modifies r
    ensures first == second && r.hostStacksPath == Some(first)
  {
    first := r.GetHostStacksPath();
    second := r.GetHostStacksPath();
  }
}

=== FILE: preset_service.dfy ===
/** Preset analysis and application (services/preset_service.py). A preset is the
    parsed JSON object of its file, or `None` when the file is missing or unreadable.
    The two database queries become values: the blueprint rows by name, and the
    blueprint names of the existing app rows. */
module PresetService {
  import opened Text
  import opened Values
  import opened Models
  import TemplateExpander
  import InstallOrder

  // ---------------------------------------------------------- required inputs

  /** A field the user has to fill in: a dict whose `required` is truthy and which has
      no non-None `default`. */
  predicate NeedsInput(config: Value) {
    config.Obj? && Truthy(GetOr(config.fields, "required", Bool(false))) &&
    TemplateExpander.DefaultOf(config).None?
  }

  /** The description `_extract_required_inputs` lists for such a field. */
  function RequiredField(name: string, config: seq<Entry>): Value {
    Obj([Entry("field", Str(name)),
         Entry("label", GetOr(config, "label", Str(name))),
         Entry("type", GetOr(config, "type", Str("string"))),
         Entry("ui_component", GetOr(config, "ui_component", Str("text"))),
         Entry("description", GetOr(config, "description", Null)),
         Entry("placeholder", GetOr(config, "placeholder", Null)),
         Entry("is_sensitive", GetOr(config, "is_sensitive", Bool(false))),
         Entry("required", Bool(true))])
  }

  /** The descriptions of the fields needing input, in schema order. */
  function RequiredInputs(schema: seq<Entry>): seq<Value> {
    if schema == [] then []
    else
      var last := schema[|schema| - 1];
      RequiredInputs(schema[..|schema| - 1]) +
      (if NeedsInput(last.val) then [RequiredField(last.key, last.val.fields)] else [])
  }

  /** `_extract_required_inputs`. */
  method ExtractRequiredInputs(schema: seq<Entry>) returns (required: seq<Value>)
    ensures required == RequiredInputs(schema)
  {
    required := [];
    for i := 0 to |schema|
      invariant required == RequiredInputs(schema[..i])
    {
      var fieldName, fieldData := schema[i].key, schema[i].val;
      assert schema[..i + 1][..i] == schema[..i];
      if fieldData.Obj? {
        var isRequired := GetOr(fieldData.fields, "required", Bool(false));
        var hasDefault := Has(fieldData.fields, "default") && GetOr(fieldData.fields, "default", Null) != Null;
        if Truthy(isRequired) && !hasDefault {
          required := required + [RequiredField(fieldName, fieldData.fields)];
        }
      }
    }
    assert schema[..|schema|] == schema;
  }

  /** The fields are listed in schema order: the list for a concatenation of schemas is
      the concatenation of the lists. */
  lemma {:induction false} RequiredInputsConcat(a: seq<Entry>, b: seq<Entry>)
    ensures RequiredInputs(a + b) == RequiredInputs(a) + RequiredInputs(b)
    decreases |b|
  {
    if b != [] {
      var b' := b[..|b| - 1];
      assert (a + b)[..|a + b| - 1] == a + b';
      RequiredInputsConcat(a, b');
    } else {
      assert a + b == a;
    }
  }

  /** Exactly the fields needing input are listed, each described by its own config. */
  lemma {:induction false} RequiredInputsExact(schema: seq<Entry>)
    ensures forall i :: 0 <= i < |schema| && NeedsInput(schema[i].val) ==>
              RequiredField(schema[i].key, schema[i].val.fields) in RequiredInputs(schema)
    ensures forall v :: v in RequiredInputs(schema) ==>
              exists i :: 0 <= i < |schema| && NeedsInput(schema[i].val) &&
                          v == RequiredField(schema[i].key, schema[i].val.fields)
    decreases |schema|
  {
    if schema != [] {
      var init := schema[..|schema| - 1];
      RequiredInputsExact(init);
      forall v | v in RequiredInputs(schema)
        ensures exists i :: 0 <= i < |schema| && NeedsInput(schema[i].val) &&
                            v == RequiredField(schema[i].key, schema[i].val.fields)
      {
        if v in RequiredInputs(init) {
          var i :| 0 <= i < |init| && NeedsInput(init[i].val) &&
                   v == RequiredField(init[i].key, init[i].val.fields);
          assert schema[i] == init[i];
        } else {
          assert schema[|schema| - 1] == schema[|schema| - 1];
        }
      }
      forall i | 0 <= i < |schema| && NeedsInput(schema[i].val)
        ensures RequiredField(schema[i].key, schema[i].val.fields) in RequiredInputs(schema)
      {
        if i < |init| {
          assert schema[i] == init[i];
        }
      }
    }
  }

  /** Each description names its field, says it is required, and falls back to the
      field name for the label, `string` for the type, `text` for the component and
      False for `is_sensitive`. */
  lemma RequiredFieldDefaults(name: string, config: seq<Entry>)
    ensures var f := RequiredField(name, config).fields;
            && Get(f, "field") == Some(Str(name))
            && Get(f, "required") == Some(Bool(true))
            && (!Has(config, "label") ==> Get(f, "label") == Some(Str(name)))
            && (!Has(config, "type") ==> Get(f, "type") == Some(Str("string")))
            && (!Has(config, "ui_component") ==> Get(f, "ui_component") == Some(Str("text")))
            && (!Has(config, "is_sensitive") ==> Get(f, "is_sensitive") == Some(Bool(false)))
  {
    var f := RequiredField(name, config).fields;
    GetFirst(f, 0);
    GetFirst(f, 1);
    GetFirst(f, 2);
    GetFirst(f, 3);
    GetFirst(f, 6);
    GetFirst(f, 7);
  }

  // ---------------------------------------------------------- default values

  /** One field's step: a key the user gave (even as None) stays; a missing key gets the
      field's non-None default. */
  function FillStep(filled: seq<Entry>, field: Entry): seq<Entry> {
    match TemplateExpander.DefaultOf(field.val)
    case Some(d) => if Has(filled, field.key) then filled else Set(filled, field.key, d)
    case None => filled
  }

  /** The inputs after the defaults of every schema field are filled in. */
  function Filled(inputs: seq<Entry>, schema: seq<Entry>): seq<Entry> {
    if schema == [] then inputs
    else FillStep(Filled(inputs, schema[..|schema| - 1]), schema[|schema| - 1])
  }

  /** `_fill_default_values`; the caller's dict is a value and is not changed. */
  method FillDefaultValues(schema: seq<Entry>, userInputs: seq<Entry>) returns (filled: seq<Entry>)
    ensures filled == Filled(userInputs, schema)
  {
    filled := userInputs;
    for i := 0 to |schema|
      invariant filled == Filled(userInputs, schema[..i])
    {
      var fieldName, fieldData := schema[i].key, schema[i].val;
      assert schema[..i + 1][..i] == schema[..i];
      if fieldData.Obj? && !Has(filled, fieldName) {
        if Has(fieldData.fields, "default") && GetOr(fieldData.fields, "default", Null) != Null {
          filled := Set(filled, fieldName, GetOr(fieldData.fields, "default", Null));
        }
      }
    }
    assert schema[..|schema|] == schema;
  }

  /** With distinct field names: a key the user gave is never changed, even when its
      value is None; keys outside the schema are untouched; a missing field receives its
      non-None default and otherwise stays missing. */
  lemma {:induction false} FilledSpec(inputs: seq<Entry>, schema: seq<Entry>)
    requires DistinctKeys(schema)
    ensures forall k :: Has(inputs, k) ==> Get(Filled(inputs, schema), k) == Get(inputs, k)
    ensures forall k :: k !in Keys(schema) ==> Get(Filled(inputs, schema), k) == Get(inputs, k)
    ensures forall i :: 0 <= i < |schema| && !Has(inputs, schema[i].key) ==>
              Get(Filled(inputs, schema), schema[i].key) ==
                TemplateExpander.DefaultOf(schema[i].val)
    decreases |schema|
  {
    if schema != [] {
      var init := schema[..|schema| - 1];
      var field := schema[|schema| - 1];
      assert DistinctKeys(init);
      FilledSpec(inputs, init);
      DistinctKeysFresh(schema, |schema| - 1);
      assert Keys(schema) == Keys(init) + [field.key];
      assert Get(Filled(inputs, init), field.key) == Get(inputs, field.key);
      forall i | 0 <= i < |init|
        ensures init[i].key != field.key && init[i] == schema[i]
      {
      }
    }
  }

  /** Where this differs from the template expander: a key present with None keeps its
      None here, while `apply_defaults_to_inputs` replaces it with the default. */
  lemma NoneKeptUnlikeExpander()
    ensures var schema := [Entry("port", Obj([Entry("default", Int(8080))]))];
            var inputs := [Entry("port", Null)];
            Filled(inputs, schema) == inputs &&
            TemplateExpander.DefaultsApplied(inputs, schema, 1) == [Entry("port", Int(8080))]
  {
    var schema := [Entry("port", Obj([Entry("default", Int(8080))]))];
    var inputs := [Entry("port", Null)];
    assert TemplateExpander.DefaultOf(schema[0].val) == Some(Int(8080));
    assert !TemplateExpander.Provided(inputs, "port");
  }

  // ---------------------------------------------------------- presets

  /** What the code relies on in a preset: `apps`, when present, is a list of names. */
  predicate PresetTyped(preset: seq<Entry>) {
    match Get(preset, "apps")
    case None => true
    case Some(v) => v.List? && forall i :: 0 <= i < |v.items| ==> v.items[i].Str?
  }

  /** `preset.get('apps', [])`. */
  function AppNames(preset: seq<Entry>): (names: seq<string>)
    requires PresetTyped(preset)
    ensures Get(preset, "apps").None? ==> names == []
  {
    match Get(preset, "apps")
    case None => []
    case Some(v) => seq(|v.items|, i requires 0 <= i < |v.items| => v.items[i].s)
  }

  /** `if not preset`: a missing preset and an empty one both count as not found. */
  predicate Found(preset: Option<seq<Entry>>) {
    preset.Some? && preset.value != []
  }

  /** The answer of `analyze_required_inputs`. */
  datatype Analysis = Analysis(availableApps: seq<string>, missingBlueprints: seq<string>,
                               alreadyExists: seq<string>, requiredInputs: seq<Entry>)

  /** The analysis of a list of app names, one name after the other. */
  function Analyzed(names: seq<string>, bps: map<string, Blueprint>, existing: set<string>): Analysis {
    if names == [] then Analysis([], [], [], [])
    else
      var a := Analyzed(names[..|names| - 1], bps, existing);
      var name := names[|names| - 1];
      if name !in bps then a.(missingBlueprints := a.missingBlueprints + [name])
      else if name in existing then a.(alreadyExists := a.alreadyExists + [name])
      else
        var required := RequiredInputs(bps[name].schema);
        a.(availableApps := a.availableApps + [name],
           requiredInputs := if required != [] then Set(a.requiredInputs, name, List(required))
                             else a.requiredInputs)
  }

  /** `analyze_required_inputs`. */
  method AnalyzeRequiredInputs(presetId: string, preset: Option<seq<Entry>>,
                               bps: map<string, Blueprint>, existing: set<string>)
    returns (r: Result<Analysis>)
    requires preset.Some? ==> PresetTyped(preset.value)
    ensures !Found(preset) ==> r == Raised("Preset not found: " + presetId)
    ensures Found(preset) ==> r == Ok(Analyzed(AppNames(preset.value), bps, existing))
  {
    if !Found(preset) {
      return Raised("Preset not found: " + presetId);
    }
    var names := AppNames(preset.value);
    var available, missing, already, required := [], [], [], [];
    for i := 0 to |names|
      invariant Analysis(available, missing, already, required) == Analyzed(names[..i], bps, existing)
    {
      var name := names[i];
      assert names[..i + 1][..i] == names[..i];
      if name !in bps {
        missing := missing + [name];
      } else if name in existing {
        already := already + [name];
      } else {
        available := available + [name];
        var fields := ExtractRequiredInputs(bps[name].schema);
        if fields != [] {
          required := Set(required, name, List(fields));
        }
      }
    }
    assert names[..|names|] == names;
    r := Ok(Analysis(available, missing, already, required));
  }

  /** Every name lands in exactly one list, checked in order: no blueprint, an existing
      app, or available. */
  lemma {:induction false} AnalyzedPartition(names: seq<string>, bps: map<string, Blueprint>,
                                             existing: set<string>)
    ensures var a := Analyzed(names, bps, existing);
            && (forall x :: x in a.missingBlueprints <==> x in names && x !in bps)
            && (forall x :: x in a.alreadyExists <==> x in names && x in bps && x in existing)
            && (forall x :: x in a.availableApps <==> x in names && x in bps && x !in existing)
            && |a.availableApps| + |a.missingBlueprints| + |a.alreadyExists| == |names|
    decreases |names|
  {
    if names != [] {
      AnalyzedPartition(names[..|names| - 1], bps, existing);
      FrontLast(names);
    }
  }

  /** Only available apps with something to fill in appear in `required_inputs`, each
      with its non-empty list. */
  lemma {:induction false} AnalyzedRequired(names: seq<string>, bps: map<string, Blueprint>,
                                            existing: set<string>)
    ensures var a := Analyzed(names, bps, existing);
            forall k :: k in a.availableApps ==>
              && k in bps
              && (Has(a.requiredInputs, k) <==> RequiredInputs(bps[k].schema) != [])
              && (Has(a.requiredInputs, k) ==> Get(a.requiredInputs, k) == Some(List(RequiredInputs(bps[k].schema))))
    ensures var a := Analyzed(names, bps, existing);
            forall k :: Has(a.requiredInputs, k) ==> k in a.availableApps
    decreases |names|
  {
    if names != [] {
      AnalyzedRequired(names[..|names| - 1], bps, existing);
    }
  }

  // ---------------------------------------------------------- applying a preset

  /** The answer of `apply_preset`: the apps created (by name, in creation order; the
      database assigns their ids), the names skipped and the error per skipped name. */
  datatype Applied = Applied(created: seq<string>, skipped: seq<string>, errors: seq<Entry>)

  /** The text of the `TypeError` the declarative constructor raises for a keyword that
      is not a column. */
  const InvalidKeyword := "'raw_inputs' is an invalid keyword argument for App"

  /** The outcome of `apply_preset` over a list of names. `rawInputs` says whether the
      row is built with the keyword `raw_inputs` (which the App row does not have) or
      with its `inputs` column. A created row is visible to the later existence checks. */
  function ApplyOutcome(names: seq<string>, bps: map<string, Blueprint>, existing: set<string>,
                        rawInputs: bool): (o: Applied)
    ensures forall x :: x in o.created ==> x in bps && x !in existing
    ensures forall x :: x in o.created || x in o.skipped ==> x in names
  {
    if names == [] then Applied([], [], [])
    else ApplyOne(ApplyOutcome(names[..|names| - 1], bps, existing, rawInputs), names[|names| - 1],
                  bps, existing, rawInputs)
  }

  /** One turn of the loop of `apply_preset`, over what the earlier turns gave. */
  function ApplyOne(a: Applied, name: string, bps: map<string, Blueprint>, existing: set<string>,
                    rawInputs: bool): Applied
  {
    if name !in bps then
      a.(skipped := a.skipped + [name], errors := Set(a.errors, name, Str("Blueprint not found")))
    else if name in existing || name in a.created then
      a.(skipped := a.skipped + [name], errors := Set(a.errors, name, Str("App already exists")))
    else if rawInputs then
      a.(skipped := a.skipped + [name], errors := Set(a.errors, name, Str(InvalidKeyword)))
    else
      a.(created := a.created + [name])
  }

  /** The inputs of the row created for an app: the user's inputs for it with the
      blueprint's defaults filled in. */
  function CreatedInputs(name: string, bps: map<string, Blueprint>, userInputs: seq<Entry>): seq<Entry>
    requires name in bps
  {
    Filled(ObjAt(userInputs, name), bps[name].schema)
  }

  /** `apply_preset` with the row built from its `inputs` column. Each created app is a
      new row named after its blueprint, with status configured. */
  method ApplyPreset(presetId: string, preset: Option<seq<Entry>>, bps: map<string, Blueprint>,
                     existing: set<string>, userInputs: seq<Entry>)
    returns (r: Result<Applied>, rows: seq<App>)
    requires preset.Some? ==> PresetTyped(preset.value)
    requires forall i :: 0 <= i < |userInputs| ==> userInputs[i].val.Obj?
    ensures !Found(preset) ==> r == Raised("Preset not found: " + presetId) && rows == []
    ensures Found(preset) ==> r == Ok(ApplyOutcome(AppNames(preset.value), bps, existing, false))
    ensures r.Ok? ==> |rows| == |r.value.created|
    ensures r.Ok? ==> forall j :: 0 <= j < |rows| ==>
              var name := r.value.created[j];
              && fresh(rows[j]) && name in bps
              && rows[j].name == name && rows[j].dbName == name && rows[j].blueprintName == name
              && rows[j].status == Configured
              && rows[j].inputs == Obj(CreatedInputs(name, bps, userInputs))
  {
    rows := [];
    if !Found(preset) {
      return Raised("Preset not found: " + presetId), rows;
    }
    var names := AppNames(preset.value);
    var created, skipped, errors := [], [], [];
    for i := 0 to |names|
      invariant Applied(created, skipped, errors) == ApplyOutcome(names[..i], bps, existing, false)
      invariant |rows| == |created|
      invariant forall j :: 0 <= j < |rows| ==>
                  var name := created[j];
                  && fresh(rows[j]) && name in bps
                  && rows[j].name == name && rows[j].dbName == name && rows[j].blueprintName == name
                  && rows[j].status == Configured
                  && rows[j].inputs == Obj(CreatedInputs(name, bps, userInputs))
    {
      var name := names[i];
      assert names[..i + 1][..i] == names[..i];
      if name !in bps {
        skipped := skipped + [name];
        errors := Set(errors, name, Str("Blueprint not found"));
      } else if name in existing || name in created {
        skipped := skipped + [name];
        errors := Set(errors, name, Str("App already exists"));
      } else {
        var inputs := FillDefaultValues(bps[name].schema, ObjAt(userInputs, name));
        var app := new App(name, name, name, Obj(inputs), Configured);
        rows := rows + [app];
        created := created + [name];
      }
    }
    assert names[..|names|] == names;
    r := Ok(Applied(created, skipped, errors));
  }

  /** With the `inputs` column: an app is created exactly when its blueprint exists and
      no app of that blueprint exists yet, once per name; every other name is skipped. */
  lemma {:induction false} AppliedPartition(names: seq<string>, bps: map<string, Blueprint>,
                                            existing: set<string>)
    ensures var a := ApplyOutcome(names, bps, existing, false);
            && (forall x :: x in a.created <==> x in names && x in bps && x !in existing)
            && InstallOrder.Distinct(a.created)
            && |a.created| + |a.skipped| == |names|
    decreases |names|
  {
    if names != [] {
      var init := names[..|names| - 1];
      var name := names[|names| - 1];
      AppliedPartition(init, bps, existing);
      FrontLast(names);
      InstallOrder.DistinctSnoc(ApplyOutcome(init, bps, existing, false).created, name);
    }
  }

  /** Exactly the skipped names have an error. */
  lemma {:induction false} AppliedErrors(names: seq<string>, bps: map<string, Blueprint>,
                                         existing: set<string>)
    ensures forall x :: x in ApplyOutcome(names, bps, existing, false).skipped <==>
                        Has(ApplyOutcome(names, bps, existing, false).errors, x)
    decreases |names|
  {
    if names != [] {
      var init, name := names[..|names| - 1], names[|names| - 1];
      AppliedErrors(init, bps, existing);
      var a, b := ApplyOutcome(init, bps, existing, false), ApplyOutcome(names, bps, existing, false);
      if name in bps && name !in existing && name !in a.created {
        assert b.skipped == a.skipped && b.errors == a.errors;
      } else {
        assert b.skipped == a.skipped + [name] && Has(b.errors, name);
        assert forall x :: x != name ==> Get(b.errors, x) == Get(a.errors, x);
      }
    }
  }

  /** The error says why a name was skipped: its blueprint is missing, or an app of that
      blueprint exists. */
  lemma {:induction false} AppliedErrorTexts(names: seq<string>, bps: map<string, Blueprint>,
                                             existing: set<string>)
    ensures var a := ApplyOutcome(names, bps, existing, false);
            && (forall x :: x in names && x !in bps ==> Get(a.errors, x) == Some(Str("Blueprint not found")))
            && (forall x :: x in a.skipped && x in bps ==> Get(a.errors, x) == Some(Str("App already exists")))
    decreases |names|
  {
    if names != [] {
      AppliedErrorTexts(names[..|names| - 1], bps, existing);
      FrontLast(names);
    }
  }

  /** As written, every app whose blueprint exists and that does not exist yet fails at
      the row's constructor: nothing is ever created, and every name is skipped. */
  lemma {:induction false} RawInputsCreatesNothing(names: seq<string>, bps: map<string, Blueprint>,
                                                   existing: set<string>)
    ensures ApplyOutcome(names, bps, existing, true).created == []
    ensures ApplyOutcome(names, bps, existing, true).skipped == names
    decreases |names|
  {
    if names != [] {
      RawInputsCreatesNothing(names[..|names| - 1], bps, existing);
      FrontLast(names);
    }
  }

  /** As written, each such app is reported with the constructor's invalid-keyword error. */
  lemma {:induction false} RawInputsErrors(names: seq<string>, bps: map<string, Blueprint>,
                                           existing: set<string>)
    ensures forall x :: x in names && x in bps && x !in existing ==>
              Get(ApplyOutcome(names, bps, existing, true).errors, x) == Some(Str(InvalidKeyword))
    decreases |names|
  {
    if names != [] {
      var init, name := names[..|names| - 1], names[|names| - 1];
      RawInputsErrors(init, bps, existing);
      RawInputsCreatesNothing(init, bps, existing);
      forall x | x in names && x in bps && x !in existing
        ensures Get(ApplyOutcome(names, bps, existing, true).errors, x) == Some(Str(InvalidKeyword))
      {
        if x != name {
          assert x in init by {
            FrontLast(names);
          }
        }
      }
    }
  }
}

=== FILE: template_expander.dfy ===
/** The template expander (utils/template_expander.py): placeholder substitution in
    blueprint defaults and schemas, integer coercion of all-digit results, and
    filling schema defaults into user inputs. The host stack path that the expander
    would ask the path resolver for is part of the expander's context. */
module TemplateExpander {
  import opened Text
  import opened Values
  import opened Models

  /** An expander: the settings row, the app's name and the app's host stack path. */
  datatype Expander = Expander(settings: GlobalSettings, appName: string, hostStackPath: string)

  /** The eight placeholders with their values, in the order they are substituted. */
  function Substitutions(e: Expander): seq<(string, string)> {
    [("${GLOBAL.PUID}", IntToString(e.settings.puid)),
     ("${GLOBAL.PGID}", IntToString(e.settings.pgid)),
     ("${GLOBAL.TIMEZONE}", e.settings.timezone),
     ("${GLOBAL.NETWORK_NAME}", e.settings.networkName),
     ("${GLOBAL.NETWORK_SUBNET}", e.settings.networkSubnet),
     ("${GLOBAL.NETWORK_GATEWAY}", e.settings.networkGateway),
     ("${APP.HOST_PATH}", e.hostStackPath),
     ("${APP.NAME}", e.appName)]
  }

  /** Every placeholder starts with `$`. */
  predicate DollarPatterns(subs: seq<(string, string)>) {
    forall i :: 0 <= i < |subs| ==> subs[i].0 != [] && subs[i].0[0] == '$'
  }

  lemma SubstitutionsDollar(e: Expander)
    ensures DollarPatterns(Substitutions(e))
  {
  }

  /** The substitutions applied one after another: each placeholder that occurs is replaced
      everywhere (a value may itself hold a later placeholder, which is then replaced too). */
  function SubstituteAll(text: string, subs: seq<(string, string)>): string
    requires DollarPatterns(subs)
    decreases |subs|
  {
    if subs == [] then text
    else
      var pat := subs[0].0;
      var next := if Contains(text, pat) then Replace(text, pat, subs[0].1) else text;
      SubstituteAll(next, subs[1..])
  }

  /** `_expand_string`: substitute, then turn the result into an int when something was
      substituted and the result is all digits. */
  function ExpandString(e: Expander, text: string): (v: Value)
    ensures v.Str? || v.Int?
    ensures v.Str? ==> v.s == SubstituteAll(text, Substitutions(e))
    ensures v.Int? ==> 0 <= v.i && SubstituteAll(text, Substitutions(e)) != text &&
                       IsDigits(SubstituteAll(text, Substitutions(e)))
    ensures var x := SubstituteAll(text, Substitutions(e));
            x != text && IsDigits(x) ==> v == Int(ParseDigits(x))
    ensures var x := SubstituteAll(text, Substitutions(e));
            v.Str? <==> !(x != text && IsDigits(x))
  {
    var expanded := SubstituteAll(text, Substitutions(e));
    if expanded != text && IsDigits(expanded) then Int(ParseDigits(expanded)) else Str(expanded)
  }

  /** A text holding none of the patterns comes through the substitutions unchanged. */
  lemma {:induction false} SubstituteAllAbsent(text: string, subs: seq<(string, string)>)
    requires DollarPatterns(subs)
    requires forall i :: 0 <= i < |subs| ==> !Contains(text, subs[i].0)
    ensures SubstituteAll(text, subs) == text
    decreases |subs|
  {
    if subs != [] {
      SubstituteAllAbsent(text, subs[1..]);
    }
  }

  /** A text without `$`. */
  predicate Plain(s: string) {
    forall i :: 0 <= i < |s| ==> s[i] != '$'
  }

  /** A text without `$` comes through the substitutions unchanged. */
  lemma SubstituteAllPlain(text: string, subs: seq<(string, string)>)
    requires DollarPatterns(subs) && Plain(text)
    ensures SubstituteAll(text, subs) == text
  {
    forall i | 0 <= i < |subs|
      ensures !Contains(text, subs[i].0)
    {
      NotContainsByFirstChar(text, subs[i].0);
    }
    SubstituteAllAbsent(text, subs);
  }

  /** The first placeholder followed by plain text becomes its value followed by that
      text, when the value is plain too. */
  lemma SubstituteLeading(subs: seq<(string, string)>, rest: string)
    requires DollarPatterns(subs) && subs != []
    requires Plain(rest) && Plain(subs[0].1)
    ensures SubstituteAll(subs[0].0 + rest, subs) == subs[0].1 + rest
  {
    var pat, rep := subs[0].0, subs[0].1;
    var text := pat + rest;
    assert text[..|pat|] == pat && text[|pat|..] == rest;
    assert StartsWith(text, pat) && Contains(text, pat);
    NotContainsByFirstChar(rest, pat);
    ReplaceAbsent(rest, pat, rep);
    assert Replace(text, pat, rep) == rep + rest;
    assert Plain(rep + rest);
    SubstituteAllPlain(rep + rest, subs[1..]);
  }

  /** Whether or not the placeholder occurs, one substitution step replaces it
      everywhere. */
  lemma SubstituteStep(text: string, pat: string, rep: string)
    requires pat != []
    ensures (if Contains(text, pat) then Replace(text, pat, rep) else text) == Replace(text, pat, rep)
  {
    if !Contains(text, pat) {
      ReplaceAbsent(text, pat, rep);
    }
  }

  /** Running the substitutions of `s1 + s2` runs those of `s1`, then those of `s2`. */
  lemma {:induction false} SubstituteAllAppend(text: string, s1: seq<(string, string)>,
                                               s2: seq<(string, string)>)
    requires DollarPatterns(s1) && DollarPatterns(s2)
    ensures DollarPatterns(s1 + s2)
    ensures SubstituteAll(text, s1 + s2) == SubstituteAll(SubstituteAll(text, s1), s2)
    decreases |s1|
  {
    if s1 == [] {
      assert s1 + s2 == s2;
    } else {
      var pat := s1[0].0;
      var next := if Contains(text, pat) then Replace(text, pat, s1[0].1) else text;
      assert (s1 + s2)[1..] == s1[1..] + s2;
      SubstituteAllAppend(next, s1[1..], s2);
    }
  }

  /** A prefix without `$` passes through every substitution untouched: the
      substitutions act on what follows it alone. */
  lemma {:induction false} SubstituteAllPlainPrefix(a: string, b: string, subs: seq<(string, string)>)
    requires DollarPatterns(subs) && Plain(a)
    ensures SubstituteAll(a + b, subs) == a + SubstituteAll(b, subs)
    decreases |subs|
  {
    if subs != [] {
      var pat, rep := subs[0].0, subs[0].1;
      SubstituteStep(a + b, pat, rep);
      SubstituteStep(b, pat, rep);
      ReplacePlainPrefix(a, b, pat, rep);
      SubstituteAllPlainPrefix(a, Replace(b, pat, rep), subs[1..]);
    }
  }

  /** A piece such as `${CUSTOM}` that no placeholder begins, and that begins none of
      them, holding `$` at most at its start. */
  predicate Unknown(c: string, subs: seq<(string, string)>) {
    (forall i :: 1 <= i < |c| ==> c[i] != '$') &&
    forall k :: 0 <= k < |subs| ==> Diverge(c, subs[k].0)
  }

  /** An unknown `${...}` piece passes through every substitution untouched, whatever
      follows it. */
  lemma {:induction false} SubstituteAllUnknownPrefix(c: string, b: string, subs: seq<(string, string)>)
    requires DollarPatterns(subs) && Unknown(c, subs)
    ensures SubstituteAll(c + b, subs) == c + SubstituteAll(b, subs)
    decreases |subs|
  {
    if subs != [] {
      var pat, rep := subs[0].0, subs[0].1;
      assert Diverge(c, pat);
      SubstituteStep(c + b, pat, rep);
      SubstituteStep(b, pat, rep);
      ReplaceForeignPrefix(c, b, pat, rep);
      assert Unknown(c, subs[1..]);
      SubstituteAllUnknownPrefix(c, Replace(b, pat, rep), subs[1..]);
    }
  }

  /** Every placeholder is `${` followed by a name without `$`; the six global ones
      begin `${G`, and the host path one differs from `${APP.NAME}` at its seventh
      character. */
  lemma PlaceholderShapes(e: Expander)
    ensures |Substitutions(e)| == 8
    ensures forall k :: 0 <= k < 8 ==>
              var pat := Substitutions(e)[k].0;
              |pat| > 6 && pat[0] == '$' && pat[1] == '{'
    ensures forall k :: 0 <= k < 6 ==> Substitutions(e)[k].0[2] == 'G'
    ensures Substitutions(e)[6].0 == "${APP.HOST_PATH}"
    ensures Substitutions(e)[7] == ("${APP.NAME}", e.appName)
  {
    var subs := Substitutions(e);
    forall k | 0 <= k < 8
      ensures |subs[k].0| > 6 && subs[k].0[0] == '$' && subs[k].0[1] == '{'
      ensures k < 6 ==> subs[k].0[2] == 'G'
    {
      if k == 0 {} else if k == 1 {} else if k == 2 {} else if k == 3 {}
      else if k == 4 {} else if k == 5 {} else if k == 6 {} else {}
    }
  }

  /** `${APP.NAME}` is unknown to the global and host path placeholders. */
  lemma AppNameUnknownToFirstSeven(e: Expander)
    ensures Unknown("${APP.NAME}", Substitutions(e)[..7])
  {
    var first := Substitutions(e)[..7];
    PlaceholderShapes(e);
    forall k | 0 <= k < 7
      ensures Diverge("${APP.NAME}", first[k].0)
    {
      if k < 6 {
        DivergeAt("${APP.NAME}", first[k].0, 2);
      } else {
        DivergeAt("${APP.NAME}", first[k].0, 6);
      }
    }
  }

  /** The app's name placeholder, a separator without `$` and an unknown piece such as
      `${CUSTOM}`: the placeholder is replaced by the app's name, the separator and the
      unknown piece are kept, and the result stays a string when the separator does not
      start with a digit. */
  lemma UnknownPlaceholderKept(e: Expander, sep: string, u: string)
    requires Plain(sep) && sep != [] && !IsDigit(sep[0])
    requires Unknown(u, Substitutions(e))
    ensures ExpandString(e, "${APP.NAME}" + sep + u) == Str(e.appName + sep + u)
  {
    var subs := Substitutions(e);
    var name := "${APP.NAME}";
    var text := name + (sep + u);
    var expanded := e.appName + (sep + u);
    assert text == name + sep + u && expanded == e.appName + sep + u;
    assert subs == subs[..7] + subs[7..];
    SubstituteAllAppend(text, subs[..7], subs[7..]);
    KeptByFirstSeven(e, sep, u);
    PlaceholderShapes(e);
    assert subs[7..] == [(name, e.appName)];
    SubstituteStep(text, name, e.appName);
    AppNameReplacedBeside(e, sep, u);
    assert SubstituteAll(text, subs) == expanded;
    assert expanded[|e.appName|] == sep[0];
  }

  /** The global and host path substitutions leave `${APP.NAME}`, a plain separator and
      an unknown piece as they are. */
  lemma KeptByFirstSeven(e: Expander, sep: string, u: string)
    requires Plain(sep) && Unknown(u, Substitutions(e))
    ensures DollarPatterns(Substitutions(e)[..7])
    ensures SubstituteAll("${APP.NAME}" + (sep + u), Substitutions(e)[..7]) == "${APP.NAME}" + (sep + u)
  {
    var first := Substitutions(e)[..7];
    AppNameUnknownToFirstSeven(e);
    assert Unknown(u, first);
    SubstituteAllUnknownPrefix("${APP.NAME}", sep + u, first);
    SubstituteAllPlainPrefix(sep, u, first);
    SubstituteAllUnknownPrefix(u, "", first);
    SubstituteAllPlain("", first);
    assert u + "" == u;
  }

  /** Replacing `${APP.NAME}` in front of a plain separator and an unknown piece keeps
      both. */
  lemma AppNameReplacedBeside(e: Expander, sep: string, u: string)
    requires Plain(sep) && Unknown(u, Substitutions(e))
    ensures Replace("${APP.NAME}" + (sep + u), "${APP.NAME}", e.appName) == e.appName + (sep + u)
  {
    var name := "${APP.NAME}";
    var text := name + (sep + u);
    PlaceholderShapes(e);
    assert Diverge(u, Substitutions(e)[7].0);
    assert StartsWith(text, name) && text[|name|..] == sep + u;
    ReplacePlainPrefix(sep, u, name, e.appName);
    ReplaceForeignPrefix(u, "", name, e.appName);
    assert u + "" == u;
  }

  /** Substitution is not repeated: a value that completes a `$` left in front of its
      placeholder forms a placeholder that the result still holds, even though no value
      holds `$`. */
  lemma ReplacementFormsPlaceholder(e: Expander)
    requires e.appName == "{APP.NAME}"
    ensures ExpandString(e, "$${APP.NAME}") == Str("${APP.NAME}")
    ensures Contains(ExpandString(e, "$${APP.NAME}").s, "${APP.NAME}")
  {
    assert "$${APP.NAME}" == "$" + "${APP.NAME}";
    EscapedAppName(e);
    assert "$" + e.appName == "${APP.NAME}";
    assert StartsWith("${APP.NAME}", "${APP.NAME}");
  }

  /** `$${APP.NAME}` becomes `$` followed by the app's name, and stays a string. */
  lemma EscapedAppName(e: Expander)
    ensures ExpandString(e, "$" + "${APP.NAME}") == Str("$" + e.appName)
  {
    var name := "${APP.NAME}";
    PlaceholderShapes(e);
    EscapedAppNameKept(e);
    assert Substitutions(e) == Substitutions(e)[..7] + [(name, e.appName)];
    LastSubstitution("$" + name, Substitutions(e)[..7], name, e.appName);
    EscapedAppNameReplaced(name, e.appName);
    var expanded := "$" + e.appName;
    assert expanded[0] == '$' && !IsDigits(expanded);
  }

  /** A text that the earlier substitutions leave as it is meets only the last one. */
  lemma LastSubstitution(text: string, first: seq<(string, string)>, pat: string, rep: string)
    requires DollarPatterns(first) && pat != [] && pat[0] == '$'
    requires SubstituteAll(text, first) == text
    ensures DollarPatterns(first + [(pat, rep)])
    ensures SubstituteAll(text, first + [(pat, rep)]) == Replace(text, pat, rep)
  {
    SubstituteAllAppend(text, first, [(pat, rep)]);
    SubstituteStep(text, pat, rep);
  }

  /** The global and host path substitutions leave `$${APP.NAME}` as it is. */
  lemma EscapedAppNameKept(e: Expander)
    ensures DollarPatterns(Substitutions(e)[..7])
    ensures SubstituteAll("$" + "${APP.NAME}", Substitutions(e)[..7]) == "$" + "${APP.NAME}"
  {
    PlaceholderShapes(e);
    AppNameUnknownToFirstSeven(e);
    EscapedUnknownKept("${APP.NAME}", Substitutions(e)[..7]);
  }

  /** A `$` written before an unknown `${...}` piece is kept, and so is the piece, when
      no placeholder has `$` as its second character. */
  lemma EscapedUnknownKept(c: string, subs: seq<(string, string)>)
    requires DollarPatterns(subs) && Unknown(c, subs) && c != [] && c[0] == '$'
    requires forall k :: 0 <= k < |subs| ==> |subs[k].0| > 1 && subs[k].0[1] != '$'
    ensures SubstituteAll("$" + c, subs) == "$" + c
  {
    var text := "$" + c;
    forall k | 0 <= k < |subs|
      ensures Replace(text, subs[k].0, subs[k].1) == text
    {
      var pat := subs[k].0;
      assert Diverge(c, pat);
      DivergeAt(text, pat, 1);
      ReplaceForeignPrefix(c, "", pat, subs[k].1);
      assert c + "" == c && text[1..] == c;
    }
    SubstituteAllFixed(text, subs);
  }

  /** In `$` followed by a placeholder whose second character is not `$`, only the
      placeholder is replaced. */
  lemma EscapedAppNameReplaced(pat: string, v: string)
    requires |pat| > 1 && pat[0] == '$' && pat[1] != '$'
    ensures Replace("$" + pat, pat, v) == "$" + v
  {
    var text := "$" + pat;
    DivergeAt(text, pat, 1);
    assert text[1..] == pat;
    ReplaceWhole(pat, v);
  }

  /** A text that every substitution leaves as it is comes through them all unchanged. */
  lemma {:induction false} SubstituteAllFixed(text: string, subs: seq<(string, string)>)
    requires DollarPatterns(subs)
    requires forall k :: 0 <= k < |subs| ==> Replace(text, subs[k].0, subs[k].1) == text
    ensures SubstituteAll(text, subs) == text
    decreases |subs|
  {
    if subs != [] {
      SubstituteStep(text, subs[0].0, subs[0].1);
      SubstituteAllFixed(text, subs[1..]);
    }
  }

  /** Text with no recognised placeholder, including any other `${...}`, is kept verbatim
      and stays a string even when it is all digits. */
  lemma ExpandStringUntouched(e: Expander, text: string)
    requires forall i :: 0 <= i < |Substitutions(e)| ==> !Contains(text, Substitutions(e)[i].0)
    ensures ExpandString(e, text) == Str(text)
  {
    SubstituteAllAbsent(text, Substitutions(e));
  }

  /** A digit string such as a port number is not coerced: nothing was substituted. */
  lemma DigitTextStaysString(e: Expander, text: string)
    requires IsDigits(text)
    ensures ExpandString(e, text) == Str(text)
  {
    SubstituteAllPlain(text, Substitutions(e));
  }

  /** The PUID placeholder followed by digits `rest` (possibly none) becomes an integer:
      the whole string `${GLOBAL.PUID}` is the PUID itself. */
  lemma PuidPlaceholderCoerced(e: Expander, rest: string)
    requires e.settings.puid >= 0
    requires forall i :: 0 <= i < |rest| ==> IsDigit(rest[i])
    ensures ExpandString(e, "${GLOBAL.PUID}" + rest) ==
              Int(ParseDigits(NatToString(e.settings.puid) + rest))
    ensures rest == "" ==> ExpandString(e, "${GLOBAL.PUID}" + rest) == Int(e.settings.puid)
  {
    var subs := Substitutions(e);
    var digits := NatToString(e.settings.puid);
    var text := subs[0].0 + rest;
    var expanded := digits + rest;
    assert subs[0].1 == digits;
    assert Plain(rest) && Plain(digits);
    SubstitutionsDollar(e);
    SubstituteLeading(subs, rest);
    DigitsConcat(digits, rest);
    assert expanded != text by {
      assert text[0] == '$' && expanded[0] == digits[0];
    }
    assert ExpandString(e, text) == Int(ParseDigits(expanded));
    if rest == "" {
      NatToStringRoundTrip(e.settings.puid);
      assert expanded == digits;
    }
  }

  /** The coercion also fires when the placeholder was only part of the string:
      `${GLOBAL.PUID}0` becomes the integer ten times the PUID. */
  lemma PartialPlaceholderCoerced(e: Expander)
    requires e.settings.puid >= 0
    ensures ExpandString(e, "${GLOBAL.PUID}0") == Int(10 * e.settings.puid)
  {
    var digits := NatToString(e.settings.puid);
    PuidPlaceholderCoerced(e, "0");
    assert "${GLOBAL.PUID}" + "0" == "${GLOBAL.PUID}0";
    assert (digits + "0")[..|digits|] == digits;
    NatToStringRoundTrip(e.settings.puid);
  }

  /** A negative PUID stays a string: its text is not all digits. */
  lemma NegativePuidStaysString(e: Expander)
    requires e.settings.puid < 0
    ensures ExpandString(e, "${GLOBAL.PUID}") == Str(IntToString(e.settings.puid))
  {
    var subs := Substitutions(e);
    NatToStringRoundTrip(-e.settings.puid);
    assert Plain(subs[0].1);
    SubstituteLeading(subs, "");
    assert subs[0].0 + "" == subs[0].0 && subs[0].1 + "" == subs[0].1;
    NegativeNotDigits(e.settings.puid);
  }

  /** `expand_value`: strings are expanded, dicts and lists element by element, anything
      else is returned as it is. Dicts keep their keys in order; lists keep their length. */
  function ExpandValue(e: Expander, v: Value): (r: Value)
    ensures v.List? ==> r.List? && |r.items| == |v.items| &&
                        forall i :: 0 <= i < |v.items| ==> r.items[i] == ExpandValue(e, v.items[i])
    ensures v.Obj? ==> r.Obj? && Keys(r.fields) == Keys(v.fields) &&
                       forall i :: 0 <= i < |v.fields| ==> r.fields[i].val == ExpandValue(e, v.fields[i].val)
    ensures !v.Str? && !v.List? && !v.Obj? ==> r == v
    ensures v.Str? ==> r.Str? || r.Int?
    decreases v
  {
    match v
    case Str(s) => ExpandString(e, s)
    case List(items) => List(seq(|items|, i requires 0 <= i < |items| => ExpandValue(e, items[i])))
    case Obj(fields) =>
      Obj(seq(|fields|, i requires 0 <= i < |fields| => Entry(fields[i].key, ExpandValue(e, fields[i].val))))
    case _ => v
  }

  /** No `$` anywhere in a value: no string in it holds a placeholder. */
  predicate NoDollar(v: Value)
    decreases v
  {
    match v
    case Str(s) => forall i :: 0 <= i < |s| ==> s[i] != '$'
    case List(items) => forall i :: 0 <= i < |items| ==> NoDollar(items[i])
    case Obj(fields) => forall i :: 0 <= i < |fields| ==> NoDollar(fields[i].val)
    case _ => true
  }

  /** Expansion leaves a value without `$` exactly as it was, however deeply nested. */
  lemma {:induction false} ExpandValueNoDollar(e: Expander, v: Value)
    requires NoDollar(v)
    ensures ExpandValue(e, v) == v
    decreases v
  {
    match v
    case Str(s) =>
      SubstituteAllPlain(s, Substitutions(e));
    case List(items) =>
      forall i | 0 <= i < |items|
        ensures ExpandValue(e, items[i]) == items[i]
      {
        ExpandValueNoDollar(e, items[i]);
      }
      assert ExpandValue(e, v).items == items;
    case Obj(fields) =>
      forall i | 0 <= i < |fields|
        ensures ExpandValue(e, fields[i].val) == fields[i].val
      {
        ExpandValueNoDollar(e, fields[i].val);
      }
      assert ExpandValue(e, v).fields == fields;
    case _ =>
  }

  // ---------------------------------------------------------- blueprint schemas

  /** A schema `expand_blueprint_schema` can process: a dict whose field configurations
      are dicts, and whose nested `fields` are schemas of the same kind. */
  predicate SchemaTyped(schema: Value)
    decreases schema, 1
  {
    schema.Obj? && forall i :: 0 <= i < |schema.fields| ==> ConfigTyped(schema.fields[i].val)
  }

  predicate ConfigTyped(config: Value)
    decreases config, 0
  {
    config.Obj? &&
    (Has(config.fields, "fields") ==> SchemaTyped(config.fields[IndexOf(config.fields, "fields")].val))
  }

  /** The nested schema of a compound field. */
  function NestedFields(config: Value): (nested: Value)
    requires config.Obj? && Has(config.fields, "fields")
    ensures Get(config.fields, "fields") == Some(nested)
    ensures nested < config
  {
    config.fields[IndexOf(config.fields, "fields")].val
  }

  /** `config[k] = expand_value(config[k])` when `k` is present: same keys, only `k` changes. */
  function ExpandKey(e: Expander, c: seq<Entry>, k: string): (r: seq<Entry>)
    ensures Keys(r) == Keys(c)
    ensures Get(r, k) == if Has(c, k) then Some(ExpandValue(e, Get(c, k).value)) else None
    ensures forall k' :: k' != k ==> Get(r, k') == Get(c, k')
  {
    HasIffKey(c, k);
    if Has(c, k) then Set(c, k, ExpandValue(e, GetOr(c, k, Null))) else c
  }

  /** One field configuration after expansion. */
  function ExpandedConfig(e: Expander, config: Value): seq<Entry>
    requires ConfigTyped(config)
    decreases config, 0
  {
    var c2 := ExpandKey(e, ExpandKey(e, config.fields, "default"), "schema");
    var c3 := if Has(config.fields, "fields")
              then Set(c2, "fields", Obj(ExpandedSchema(e, NestedFields(config))))
              else c2;
    ExpandKey(e, c3, "item_schema")
  }

  /** The expanded dict built from the first `n` fields of a schema. */
  function ExpandedPrefix(e: Expander, schema: Value, n: nat): seq<Entry>
    requires SchemaTyped(schema) && n <= |schema.fields|
    decreases schema, 1, n
  {
    if n == 0 then []
    else
      var field := schema.fields[n - 1];
      Set(ExpandedPrefix(e, schema, n - 1), field.key, Obj(ExpandedConfig(e, field.val)))
  }

  /** The expanded schema. */
  function ExpandedSchema(e: Expander, schema: Value): seq<Entry>
    requires SchemaTyped(schema)
    decreases schema, 2
  {
    ExpandedPrefix(e, schema, |schema.fields|)
  }

  /** `expand_blueprint_schema`. */
  method ExpandBlueprintSchema(e: Expander, schema: Value) returns (expanded: seq<Entry>)
    requires SchemaTyped(schema)
    ensures expanded == ExpandedSchema(e, schema)
    decreases schema
  {
    expanded := [];
    for i := 0 to |schema.fields|
      invariant expanded == ExpandedPrefix(e, schema, i)
    {
      var fieldName, fieldConfig := schema.fields[i].key, schema.fields[i].val;
      assert ConfigTyped(fieldConfig);
      var config := ExpandConfig(e, fieldConfig);
      expanded := Set(expanded, fieldName, Obj(config));
    }
  }

  /** The body of the loop in `expand_blueprint_schema`, for one field configuration. */
  method ExpandConfig(e: Expander, fieldConfig: Value) returns (config: seq<Entry>)
    requires ConfigTyped(fieldConfig)
    ensures config == ExpandedConfig(e, fieldConfig)
    decreases fieldConfig
  {
    ghost var c0 := fieldConfig.fields;
    ghost var c1 := ExpandKey(e, c0, "default");
    ghost var c2 := ExpandKey(e, c1, "schema");
    assert Get(c2, "fields") == Get(c0, "fields") by {
      assert "fields" != "default" && "fields" != "schema";
    }
    config := fieldConfig.fields;
    if Has(config, "default") {
      config := Set(config, "default", ExpandValue(e, GetOr(config, "default", Null)));
    }
    assert config == c1;
    if Has(config, "schema") {
      config := Set(config, "schema", ExpandValue(e, GetOr(config, "schema", Null)));
    }
    assert config == c2;
    if Has(config, "fields") {
      var nested := NestedFields(fieldConfig);
      var nestedExpanded := ExpandBlueprintSchema(e, nested);
      config := Set(config, "fields", Obj(nestedExpanded));
    }
    ghost var c3 := config;
    if Has(config, "item_schema") {
      config := Set(config, "item_schema", ExpandValue(e, GetOr(config, "item_schema", Null)));
    }
    assert config == ExpandKey(e, c3, "item_schema");
  }

  /** A field configuration keeps its keys in order; `default`, `schema` and `item_schema`
      are expanded and `fields` is expanded as a schema; every other key is copied. */
  lemma ExpandedConfigSpec(e: Expander, config: Value)
    requires ConfigTyped(config)
    ensures Keys(ExpandedConfig(e, config)) == Keys(config.fields)
    ensures forall k :: k != "default" && k != "schema" && k != "fields" && k != "item_schema" ==>
              Get(ExpandedConfig(e, config), k) == Get(config.fields, k)
    ensures forall k :: k == "default" || k == "schema" || k == "item_schema" ==>
              Get(ExpandedConfig(e, config), k) ==
                if Has(config.fields, k) then Some(ExpandValue(e, Get(config.fields, k).value)) else None
    ensures Has(config.fields, "fields") ==>
              Get(ExpandedConfig(e, config), "fields") == Some(Obj(ExpandedSchema(e, NestedFields(config))))
  {
    HasIffKey(config.fields, "fields");
  }

  /** Every field of a schema paired with its expanded configuration, in order. */
  function ExpandedEntries(e: Expander, schema: Value): (r: seq<Entry>)
    requires SchemaTyped(schema)
    ensures |r| == |schema.fields| && Keys(r) == Keys(schema.fields)
  {
    seq(|schema.fields|, i requires 0 <= i < |schema.fields| =>
      Entry(schema.fields[i].key, Obj(ExpandedConfig(e, schema.fields[i].val))))
  }

  /** With distinct field names (as in any Python dict), the expanded schema is the
      schema with every configuration expanded: same names, same order. */
  lemma ExpandedSchemaSpec(e: Expander, schema: Value)
    requires SchemaTyped(schema) && DistinctKeys(schema.fields)
    ensures ExpandedSchema(e, schema) == ExpandedEntries(e, schema)
  {
    ExpandedPrefixSpec(e, schema, |schema.fields|);
  }

  lemma {:induction false} ExpandedPrefixSpec(e: Expander, schema: Value, n: nat)
    requires SchemaTyped(schema) && n <= |schema.fields|
    requires DistinctKeys(schema.fields)
    ensures ExpandedPrefix(e, schema, n) == ExpandedEntries(e, schema)[..n]
    decreases n
  {
    if n > 0 {
      ExpandedPrefixSpec(e, schema, n - 1);
      var all := ExpandedEntries(e, schema);
      DistinctKeysFresh(schema.fields, n - 1);
      assert Keys(all[..n - 1]) == Keys(schema.fields[..n - 1]);
      SetNext(all, n - 1);
    }
  }

  // ---------------------------------------------------------- defaults

  /** A value counts as provided when its key is present and it is not None. */
  predicate Provided(inputs: seq<Entry>, k: string) {
    Has(inputs, k) && GetOr(inputs, k, Null) != Null
  }

  /** The non-None default of a field configuration, if it has one. */
  function DefaultOf(config: Value): Option<Value> {
    if config.Obj? && Has(config.fields, "default") && GetOr(config.fields, "default", Null) != Null
    then Some(GetOr(config.fields, "default", Null))
    else None
  }

  /** One field's step: a provided value stays, otherwise a non-None default is assigned. */
  function DefaultStep(complete: seq<Entry>, field: Entry): (r: seq<Entry>)
    ensures forall k :: k != field.key ==> Get(r, k) == Get(complete, k)
    ensures Provided(complete, field.key) ==> r == complete
    ensures !Provided(complete, field.key) ==>
              Get(r, field.key) == match DefaultOf(field.val)
                                   case Some(d) => Some(d)
                                   case None => Get(complete, field.key)
  {
    if Provided(complete, field.key) then complete
    else match DefaultOf(field.val)
      case Some(d) => Set(complete, field.key, d)
      case None => complete
  }

  /** The inputs after the defaults of the first `n` schema fields are applied. */
  function DefaultsApplied(inputs: seq<Entry>, schema: seq<Entry>, n: nat): seq<Entry>
    requires n <= |schema|
  {
    if n == 0 then inputs else DefaultStep(DefaultsApplied(inputs, schema, n - 1), schema[n - 1])
  }

  /** `apply_defaults_to_inputs`; the caller's dict is a value and is not changed. */
  method ApplyDefaultsToInputs(inputs: seq<Entry>, expandedSchema: seq<Entry>) returns (complete: seq<Entry>)
    requires forall i :: 0 <= i < |expandedSchema| ==> expandedSchema[i].val.Obj?
    ensures complete == DefaultsApplied(inputs, expandedSchema, |expandedSchema|)
  {
    complete := inputs;
    for i := 0 to |expandedSchema|
      invariant complete == DefaultsApplied(inputs, expandedSchema, i)
    {
      var fieldName, fieldConfig := expandedSchema[i].key, expandedSchema[i].val;
      var provided := Has(complete, fieldName) && GetOr(complete, fieldName, Null) != Null;
      assert provided == Provided(complete, fieldName);
      var default := GetOr(fieldConfig.fields, "default", Null);
      var hasDefault := Has(fieldConfig.fields, "default") && default != Null;
      assert hasDefault ==> DefaultOf(fieldConfig) == Some(default);
      assert !hasDefault ==> DefaultOf(fieldConfig) == None;
      if !provided && hasDefault {
        complete := Set(complete, fieldName, default);
      }
    }
  }

  /** A provided value (including False and 0) is never overwritten, and keys outside
      the schema are untouched. */
  lemma {:induction false} DefaultsAppliedKeeps(inputs: seq<Entry>, schema: seq<Entry>, n: nat)
    requires n <= |schema|
    ensures forall k :: Provided(inputs, k) ==>
              Get(DefaultsApplied(inputs, schema, n), k) == Get(inputs, k)
    ensures forall k :: k !in Keys(schema[..n]) ==>
              Get(DefaultsApplied(inputs, schema, n), k) == Get(inputs, k)
    decreases n
  {
    if n > 0 {
      DefaultsAppliedKeeps(inputs, schema, n - 1);
      assert Keys(schema[..n]) == Keys(schema[..n - 1]) + [schema[n - 1].key];
    }
  }

  /** With distinct field names, a field that is absent or None gets its non-None
      default, and keeps what it had otherwise (so an absent field without a default
      stays absent). */
  lemma {:induction false} DefaultsAppliedSpec(inputs: seq<Entry>, schema: seq<Entry>, n: nat)
    requires n <= |schema| && DistinctKeys(schema)
    ensures forall i :: 0 <= i < n && !Provided(inputs, schema[i].key) ==>
              Get(DefaultsApplied(inputs, schema, n), schema[i].key) ==
                match DefaultOf(schema[i].val)
                case Some(d) => Some(d)
                case None => Get(inputs, schema[i].key)
    decreases n
  {
    if n > 0 {
      DefaultsAppliedSpec(inputs, schema, n - 1);
      DefaultsAppliedKeeps(inputs, schema, n - 1);
      var field := schema[n - 1];
      DistinctKeysFresh(schema, n - 1);
      forall i | 0 <= i < n - 1
        ensures schema[i].key != field.key
      {
      }
    }
  }
}

=== FILE: text.dfy ===
/** ASCII string helpers shared by the whole model: prefix tests, Python's
    `str.replace`, `str.isdigit`, `int()`/`str()` on integers, `lower`/`upper`,
    `lstrip` and POSIX `os.path.join`. */
module Text {

  predicate IsDigit(c: char) { '0' <= c <= '9' }

  /** Python's `str.isdigit` restricted to ASCII: non-empty and all digits. */
  predicate IsDigits(s: string) {
    |s| > 0 && forall i :: 0 <= i < |s| ==> IsDigit(s[i])
  }

  predicate StartsWith(s: string, prefix: string) {
    |prefix| <= |s| && s[..|prefix|] == prefix
  }

  /** Python's `sub in s`. */
  predicate Contains(s: string, sub: string)
    decreases |s|
  {
    StartsWith(s, sub) || (|s| > 0 && Contains(s[1..], sub))
  }

  /** Python's `s.replace(pat, rep)`: left to right, non-overlapping, every occurrence. */
  function Replace(s: string, pat: string, rep: string): string
    requires pat != []
    decreases |s|
  {
    if |s| == 0 then []
    else if StartsWith(s, pat) then rep + Replace(s[|pat|..], pat, rep)
    else [s[0]] + Replace(s[1..], pat, rep)
  }

  /** A string without the pattern is left alone by `replace`. */
  lemma {:induction false} ReplaceAbsent(s: string, pat: string, rep: string)
    requires pat != []
    requires !Contains(s, pat)
    ensures Replace(s, pat, rep) == s
    decreases |s|
  {
    if |s| > 0 {
      ReplaceAbsent(s[1..], pat, rep);
    }
  }

  /** A string that is exactly the pattern becomes exactly the replacement. */
  lemma ReplaceWhole(pat: string, rep: string)
    requires pat != []
    ensures Replace(pat, pat, rep) == rep
  {
    assert StartsWith(pat, pat);
    assert pat[|pat|..] == [];
  }

  /** `replace` passes over a prefix that never holds the pattern's first character:
      replacing in `a + b` replaces in `b` alone. */
  lemma {:induction false} ReplacePlainPrefix(a: string, b: string, pat: string, rep: string)
    requires pat != []
    requires forall i :: 0 <= i < |a| ==> a[i] != pat[0]
    ensures Replace(a + b, pat, rep) == a + Replace(b, pat, rep)
    decreases |a|
  {
    if a == [] {
      assert a + b == b;
    } else {
      assert (a + b)[0] == a[0];
      assert (a + b)[1..] == a[1..] + b;
      ReplacePlainPrefix(a[1..], b, pat, rep);
      assert a == [a[0]] + a[1..];
    }
  }

  /** Neither of two strings begins with the other: they differ within the shorter. */
  predicate Diverge(c: string, pat: string) {
    !StartsWith(c, pat) && !StartsWith(pat, c)
  }

  /** Two strings that differ at a position both have diverge. */
  lemma DivergeAt(c: string, pat: string, i: nat)
    requires i < |c| && i < |pat| && c[i] != pat[i]
    ensures Diverge(c, pat)
  {
    assert |pat| <= |c| ==> c[..|pat|][i] == c[i];
    assert |c| <= |pat| ==> pat[..|c|][i] == pat[i];
  }

  /** A piece that diverges from the pattern and holds its first character at most at
      its own start is kept as it is, whatever follows it. */
  lemma {:induction false} ReplaceForeignPrefix(c: string, b: string, pat: string, rep: string)
    requires pat != [] && Diverge(c, pat)
    requires forall i :: 1 <= i < |c| ==> c[i] != pat[0]
    ensures Replace(c + b, pat, rep) == c + Replace(b, pat, rep)
  {
    var tail := Replace(c[1..] + b, pat, rep);
    assert Replace(c + b, pat, rep) == [c[0]] + tail by {
      DivergeExtended(c, b, pat);
      assert (c + b)[0] == c[0] && (c + b)[1..] == c[1..] + b;
    }
    assert tail == c[1..] + Replace(b, pat, rep) by {
      ReplacePlainPrefix(c[1..], b, pat, rep);
    }
    assert [c[0]] + c[1..] == c;
  }

  /** A string that diverges from the pattern does not begin it, whatever follows. */
  lemma DivergeExtended(c: string, b: string, pat: string)
    requires Diverge(c, pat)
    ensures c != [] && !StartsWith(c + b, pat)
  {
    if |pat| <= |c| {
      assert (c + b)[..|pat|] == c[..|pat|];
    } else {
      assert |pat| <= |c + b| ==> (c + b)[..|pat|][..|c|] == c;
    }
  }

  /** A pattern that begins with a character the string never holds cannot occur in it. */
  lemma {:induction false} NotContainsByFirstChar(s: string, sub: string)
    requires sub != []
    requires forall i :: 0 <= i < |s| ==> s[i] != sub[0]
    ensures !Contains(s, sub)
    decreases |s|
  {
    if |s| > 0 {
      if |sub| <= |s| {
        assert s[..|sub|][0] == s[0];
      }
      NotContainsByFirstChar(s[1..], sub);
    }
  }

  function DigitChar(d: nat): char
    requires d < 10
  {
    ('0' as int + d) as char
  }

  function DigitValue(c: char): nat
    requires IsDigit(c)
  {
    c as int - '0' as int
  }

  /** Python's `str(n)` for a non-negative integer. */
  function NatToString(n: nat): (s: string)
    ensures IsDigits(s)
    decreases n
  {
    if n < 10 then [DigitChar(n)] else NatToString(n / 10) + [DigitChar(n % 10)]
  }

  /** Python's `str(i)` for any integer. */
  function IntToString(i: int): string {
    if i < 0 then "-" + NatToString(-i) else NatToString(i)
  }

  /** Python's `int(s)` for an all-digit string (leading zeros allowed). */
  function ParseDigits(s: string): nat
    requires forall i :: 0 <= i < |s| ==> IsDigit(s[i])
  {
    if |s| == 0 then 0 else ParseDigits(s[..|s| - 1]) * 10 + DigitValue(s[|s| - 1])
  }

  /** `str` and `int` are inverse on non-negative integers, and `str(n)` is all digits. */
  lemma {:induction false} NatToStringRoundTrip(n: nat)
    ensures IsDigits(NatToString(n))
    ensures ParseDigits(NatToString(n)) == n
    decreases n
  {
    var s := NatToString(n);
    if n >= 10 {
      NatToStringRoundTrip(n / 10);
      assert s[..|s| - 1] == NatToString(n / 10);
    }
  }

  /** Digits followed by digits are digits. */
  lemma DigitsConcat(a: string, b: string)
    requires IsDigits(a)
    requires forall i :: 0 <= i < |b| ==> IsDigit(b[i])
    ensures IsDigits(a + b)
  {
    assert forall i :: |a| <= i < |a + b| ==> (a + b)[i] == b[i - |a|];
  }

  /** The decimal form of a negative integer is not `isdigit`. */
  lemma NegativeNotDigits(i: int)
    requires i < 0
    ensures !IsDigits(IntToString(i))
  {
    assert IntToString(i)[0] == '-';
  }

  function LowerChar(c: char): char {
    if 'A' <= c <= 'Z' then (c as int + 32) as char else c
  }

  function UpperChar(c: char): char {
    if 'a' <= c <= 'z' then (c as int - 32) as char else c
  }

  /** Python's `str.lower` over ASCII. */
  function Lower(s: string): (r: string)
    ensures |r| == |s|
    ensures forall i :: 0 <= i < |s| ==> r[i] == LowerChar(s[i])
  {
    if s == [] then [] else [LowerChar(s[0])] + Lower(s[1..])
  }

  /** Python's `str.upper` over ASCII. */
  function Upper(s: string): (r: string)
    ensures |r| == |s|
    ensures forall i :: 0 <= i < |s| ==> r[i] == UpperChar(s[i])
  {
    if s == [] then [] else [UpperChar(s[0])] + Upper(s[1..])
  }

  /** Python's `s.replace(c, d)` for single characters. */
  function ReplaceChar(s: string, c: char, d: char): (r: string)
    ensures |r| == |s|
    ensures forall i :: 0 <= i < |s| ==> r[i] == (if s[i] == c then d else s[i])
  {
    if s == [] then [] else [if s[0] == c then d else s[0]] + ReplaceChar(s[1..], c, d)
  }

  /** Python's `s.lstrip(c)` for one character. */
  function LStrip(s: string, c: char): (r: string)
    ensures r == [] || r[0] != c
    ensures |r| <= |s| && r == s[|s| - |r|..]
    ensures forall i :: 0 <= i < |s| - |r| ==> s[i] == c
  {
    if s != [] && s[0] == c then LStrip(s[1..], c) else s
  }

  /** POSIX `os.path.join(a, b)`: an absolute `b` wins; otherwise one separator between. */
  function PathJoin(a: string, b: string): string {
    if StartsWith(b, "/") then b
    else if a == [] || a[|a| - 1] == '/' then a + b
    else a + "/" + b
  }

  /** `", ".join(parts)`. */
  function Join(sep: string, parts: seq<string>): string {
    if parts == [] then []
    else if |parts| == 1 then parts[0]
    else parts[0] + sep + Join(sep, parts[1..])
  }
}

=== FILE: values.dfy ===
/** JSON-like values as the Python code handles them: `None`, booleans, integers,
    strings, lists and dicts. A dict is an association list in insertion order,
    which is the order Python iterates and serialises it in. */
module Values {
  import opened Text

  datatype Option<T> = None | Some(value: T)

  /** The outcome of a Python call that may raise: a value, or the exception's text. */
  datatype Result<T> = Ok(value: T) | Raised(error: string)

  datatype Value =
    | Null
    | Bool(b: bool)
    | Int(i: int)
    | Str(s: string)
    | List(items: seq<Value>)
    | Obj(fields: seq<Entry>)

  datatype Entry = Entry(key: string, val: Value)

  /** Python's `type(v).__name__` for a value, as it appears in exception texts. */
  function TypeName(v: Value): string {
    match v
    case Null => "NoneType"
    case Bool(_) => "bool"
    case Int(_) => "int"
    case Str(_) => "str"
    case List(_) => "list"
    case Obj(_) => "dict"
  }

  /** A non-empty list is its front followed by its last element. */
  lemma FrontLast<T>(s: seq<T>)
    requires s != []
    ensures s == s[..|s| - 1] + [s[|s| - 1]]
  {
  }

  function Keys(fields: seq<Entry>): seq<string> {
    seq(|fields|, i requires 0 <= i < |fields| => fields[i].key)
  }

  /** `d.get(k)`: the value of the first entry with key `k`. */
  function Get(fields: seq<Entry>, k: string): Option<Value> {
    if fields == [] then None
    else if fields[0].key == k then Some(fields[0].val)
    else Get(fields[1..], k)
  }

  /** `k in d`. */
  predicate Has(fields: seq<Entry>, k: string) {
    Get(fields, k).Some?
  }

  /** `d.get(k, default)`. */
  function GetOr(fields: seq<Entry>, k: string, default: Value): Value {
    match Get(fields, k)
    case Some(v) => v
    case None => default
  }

  /** A key is present exactly when it is one of the dict's keys. */
  lemma {:induction false} HasIffKey(fields: seq<Entry>, k: string)
    ensures Has(fields, k) <==> k in Keys(fields)
  {
    if fields != [] {
      HasIffKey(fields[1..], k);
      assert Keys(fields) == [fields[0].key] + Keys(fields[1..]);
    }
  }

  /** `d[k] = v`: an existing key keeps its position, a new key goes last. */
  function Set(fields: seq<Entry>, k: string, v: Value): (r: seq<Entry>)
    ensures Get(r, k) == Some(v)
    ensures forall k' :: k' != k ==> Get(r, k') == Get(fields, k')
    ensures Keys(r) == if k in Keys(fields) then Keys(fields) else Keys(fields) + [k]
  {
    if fields == [] then [Entry(k, v)]
    else if fields[0].key == k then
      assert Keys(fields)[0] == k;
      assert Keys([Entry(k, v)] + fields[1..]) == Keys(fields);
      [Entry(k, v)] + fields[1..]
    else
      var rest := Set(fields[1..], k, v);
      assert Keys(fields) == [fields[0].key] + Keys(fields[1..]);
      assert Keys([fields[0]] + rest) == [fields[0].key] + Keys(rest);
      [fields[0]] + rest
  }

  /** The list under `k`, or `[]` when there is none. */
  function ListAt(fs: seq<Entry>, k: string): seq<Value> {
    match Get(fs, k)
    case Some(List(xs)) => xs
    case _ => []
  }

  /** The dict under `k`, or `{}` when there is none. */
  function ObjAt(fs: seq<Entry>, k: string): seq<Entry> {
    match Get(fs, k)
    case Some(Obj(f)) => f
    case _ => []
  }

  /** Assigning a key twice is assigning it once, the second time. */
  lemma {:induction false} SetSet(fs: seq<Entry>, k: string, a: Value, b: Value)
    ensures Set(Set(fs, k, a), k, b) == Set(fs, k, b)
    decreases |fs|
  {
    if fs != [] && fs[0].key == k {
      assert ([Entry(k, a)] + fs[1..])[1..] == fs[1..];
    } else if fs != [] {
      SetSet(fs[1..], k, a, b);
      var rest := Set(fs[1..], k, a);
      assert ([fs[0]] + rest)[1..] == rest;
    }
  }

  /** Assigning a key the dict does not have appends it. */
  lemma {:induction false} SetNew(fs: seq<Entry>, k: string, v: Value)
    requires k !in Keys(fs)
    ensures Set(fs, k, v) == fs + [Entry(k, v)]
    decreases |fs|
  {
    if fs != [] {
      assert k != fs[0].key && k !in Keys(fs[1..]) by {
        assert Keys(fs) == [fs[0].key] + Keys(fs[1..]);
      }
      SetNew(fs[1..], k, v);
      assert Set(fs, k, v) == [fs[0]] + Set(fs[1..], k, v);
      assert fs + [Entry(k, v)] == [fs[0]] + (fs[1..] + [Entry(k, v)]);
    }
  }

  /** Assigning the value a key already has changes nothing. */
  lemma {:induction false} SetSame(fs: seq<Entry>, k: string, v: Value)
    requires Get(fs, k) == Some(v)
    ensures Set(fs, k, v) == fs
    decreases |fs|
  {
    if fs[0].key == k {
      assert [Entry(k, v)] + fs[1..] == fs;
    } else {
      SetSame(fs[1..], k, v);
    }
  }

  /** A lookup in a concatenation finds the first part's entry if there is one. */
  lemma {:induction false} GetAppend(a: seq<Entry>, b: seq<Entry>, k: string)
    ensures Get(a + b, k) == if Has(a, k) then Get(a, k) else Get(b, k)
    decreases |a|
  {
    if a != [] {
      assert (a + b)[1..] == a[1..] + b;
      GetAppend(a[1..], b, k);
    } else {
      assert a + b == b;
    }
  }

  /** The position of the first entry with key `k`. */
  function IndexOf(fields: seq<Entry>, k: string): (i: nat)
    requires Has(fields, k)
    ensures i < |fields| && fields[i].key == k && Get(fields, k) == Some(fields[i].val)
  {
    if fields[0].key == k then 0 else 1 + IndexOf(fields[1..], k)
  }

  /** A dict as Python builds it: no key twice. */
  predicate DistinctKeys(fields: seq<Entry>) {
    forall i, j :: 0 <= i < j < |fields| ==> fields[i].key != fields[j].key
  }

  /** Under distinct keys, the key of entry `n` is not among the keys before it. */
  lemma DistinctKeysFresh(fields: seq<Entry>, n: nat)
    requires DistinctKeys(fields) && n < |fields|
    ensures fields[n].key !in Keys(fields[..n])
  {
    forall j | 0 <= j < n
      ensures Keys(fields[..n])[j] != fields[n].key
    {
      assert fields[..n][j] == fields[j];
    }
  }

  /** Building a dict entry by entry: assigning entry `n`, whose key is new, to the
      first `n` entries gives the first `n + 1`. */
  lemma SetNext(all: seq<Entry>, n: nat)
    requires n < |all| && all[n].key !in Keys(all[..n])
    ensures Set(all[..n], all[n].key, all[n].val) == all[..n + 1]
  {
    SetNew(all[..n], all[n].key, all[n].val);
    assert all[..n + 1] == all[..n] + [all[n]];
  }

  /** Under distinct keys, the i-th entry is what a lookup of its key finds. */
  lemma {:induction false} GetDistinct(fields: seq<Entry>, i: nat)
    requires DistinctKeys(fields)
    requires i < |fields|
    ensures Get(fields, fields[i].key) == Some(fields[i].val)
  {
    if i > 0 {
      GetDistinct(fields[1..], i - 1);
    }
  }

  /** The first entry with a key is what a lookup of that key finds. */
  lemma {:induction false} GetFirst(fields: seq<Entry>, i: nat)
    requires i < |fields|
    requires forall j :: 0 <= j < i ==> fields[j].key != fields[i].key
    ensures Get(fields, fields[i].key) == Some(fields[i].val)
  {
    if i > 0 {
      GetFirst(fields[1..], i - 1);
    }
  }

  /** A key no entry has is not found. */
  lemma {:induction false} GetMissing(fields: seq<Entry>, k: string)
    requires forall j :: 0 <= j < |fields| ==> fields[j].key != k
    ensures Get(fields, k) == None
  {
    if fields != [] {
      GetMissing(fields[1..], k);
    }
  }

  /** Python truthiness: `None`, `False`, `0`, `""`, `[]` and `{}` are false. */
  predicate Truthy(v: Value) {
    match v
    case Null => false
    case Bool(b) => b
    case Int(i) => i != 0
    case Str(s) => s != []
    case List(items) => items != []
    case Obj(fields) => fields != []
  }

  /** Python `==`: `True == 1`, and dicts compare without regard to key order. */
  predicate Equal(a: Value, b: Value)
    decreases a
  {
    match a
    case Null => b.Null?
    case Bool(x) => (b.Bool? && b.b == x) || (b.Int? && b.i == (if x then 1 else 0))
    case Int(x) => (b.Int? && b.i == x) || (b.Bool? && x == (if b.b then 1 else 0))
    case Str(x) => b.Str? && b.s == x
    case List(xs) =>
      b.List? && |xs| == |b.items| &&
      forall i :: 0 <= i < |xs| ==> Equal(xs[i], b.items[i])
    case Obj(xs) =>
      b.Obj? && |xs| == |b.fields| &&
      forall i :: 0 <= i < |xs| ==>
        Has(b.fields, xs[i].key) && Equal(xs[i].val, Get(b.fields, xs[i].key).value)
  }

  /** Python's `repr` (string escapes are not modelled). */
  function Repr(v: Value): string
    decreases v
  {
    match v
    case Null => "None"
    case Bool(b) => if b then "True" else "False"
    case Int(i) => IntToString(i)
    case Str(s) => "'" + s + "'"
    case List(items) =>
      "[" + Join(", ", seq(|items|, i requires 0 <= i < |items| => Repr(items[i]))) + "]"
    case Obj(fields) =>
      "{" + Join(", ", seq(|fields|, i requires 0 <= i < |fields| =>
                             "'" + fields[i].key + "': " + Repr(fields[i].val))) + "}"
  }

  /** Python's `str(v)` (as an f-string renders it): strings as they are, the rest by `repr`. */
  function Display(v: Value): string {
    if v.Str? then v.s else Repr(v)
  }
}
